=== FILE: README.md ===
# VHS archive analyser — a Dafny model

This project models the batch pipeline that turns a folder of digitised VHS
tapes into an editor's material. The pipeline runs in five phases:

1. **Pre-analysis.** A short sample of each video is cut and sent to a remote
   vision model. The answers are gathered into `corpus_context.json`.
2. **Analysis.** Each video is reduced to low-resolution proxies with a
   burnt-in timecode. Long videos are first cut into 50-minute chunks that
   overlap by 30 s. Every proxy is analysed (the optional blind pass 2a and the
   deep pass 2b). The per-chunk answers are merged, with duplicate segments
   from the overlap dropped. Each merged result is stored in `raw_json/` or
   `blind_analysis/`.
3. **Enrichment.** The deep analyses are enriched with the blind pass's
   observations, matched by start timecode, and written back.
4. **Export.** Each analysis is exported as a Final Cut Pro timeline of
   markers (`.fcpxml`) and as a Markdown rushes log.
5. **Synthesis.** One synthesis request covers the whole corpus.

A checkpoint ledger (`.progress.json`) supports resuming and
`--retry-failed`. Every remote call is wrapped in a retry loop with backoff.

The model is written as pure functions over immutable values:

- JSON documents are a `Json` datatype, and Python truthiness is `Truthy`.
- The file system is a `Store` of existing files and JSON documents.
- The ledger is a `Ledger` value.
- A whole run is a `World`, which counts remote calls, sleeps and transcodes.

Every exception the code can raise on the paths modelled is a `Result` error,
an `Attempt` that `Raised`, or an `Outcome` that `Crash`es. The outside world
is a parameter:

- the remote model's replies (`Gemini`, indexed by the attempt number);
- `json.loads` (`Loads`);
- ffprobe's duration;
- Python's `repr` for non-string values printed in text.

Modules follow the program's files:

| Module | Models |
|---|---|
| `Config` | config.py |
| `Progress` | progress.py |
| `Preprocess` | preprocess.py |
| `Analyze` | analyze.py |
| `Videos`, `Enrich`, `Phases`, `Pipeline` | vhs_analyzer.py |
| `Fcpxml` | export_fcpxml.py |
| `Report` | export_report.py |
| `Wrappers`, `Strings`, `Seqs`, `Json`, `Store` | shared helpers |

## Model

| member | source | states |
|---|---|---|
| Config.ShippedValid | config.py:22-29 | The shipped constants (3000 s chunks, 30 s overlap, 3 tries, backoff 30/90/270) satisfy the assumptions the loops rely on: the overlap is smaller than a chunk, and there is a backoff entry for every sleep. |
| Progress.MarkDone | progress.py:39-43 | The name becomes processed, appended at most once and only at the end. Every failure record for it, and only those, is removed; the surviving records keep their order. A ledger without duplicates stays without duplicates. |
| Progress.MarkDoneIdempotent | progress.py:39-43 | Marking a name done twice gives the same ledger as marking it once. |
| Progress.MarkFailed | progress.py:45-52 | The first record for the name now carries the new error and attempt count. A new name is appended to the failed files, and records of other names are untouched. The processed list is unchanged. |
| Progress.MarkFailedKeepsProcessed | progress.py:45-52 | A name marked done and then failed is in both the processed list and the failed list, because `mark_failed` never removes it from `processed`. |
| Progress.Files | progress.py:55-56 | The failed-files list has one name per record, in record order. |
| Progress.Retry | progress.py:64-86 | `with_retry` returns a value exactly when some attempt within `MAX_RETRIES` succeeds. The value is the first success's; the earlier attempts all raised; the sleeps are the backoff prefix for the failed attempts; the name is marked done. Otherwise every attempt raised, there is a sleep after each but the last, and the last error is recorded with `MAX_RETRIES` attempts. |
| Progress.TriesFromSpec | progress.py:71-82 | The attempt loop, continued from any attempt with the sleeps and last error accumulated so far, ends as `Retry` describes. |
| Progress.SleepsAfter | progress.py:79-82 | The number of sleeps after k failed attempts never exceeds the backoff table. |
| Progress.WithRetry | progress.py:64-86 | The imperative retry loop computes exactly the result, calls, sleeps and ledger that `Retry` specifies. |
| Progress.RetryAllFailShipped | progress.py:71-86 | With the shipped constants, three failures make three calls and sleep 30 s then 90 s. The third error is recorded with 3 attempts. |
| Preprocess.Clock | preprocess.py:178-180 | `divmod` twice: hours·3600 + minutes·60 + seconds equals the input. Minutes and seconds lie in 0..59, and hours are non-negative for non-negative input. |
| Preprocess.FmtTcReadBack | preprocess.py:176-181 | A formatted timecode splits into three fields that parse back to the hours, minutes and seconds of its input. |
| Preprocess.FmtTcInjective | preprocess.py:176-181 | Different second counts are formatted as different timecodes. |
| Preprocess.ChunkLoopFixedPoint | preprocess.py:82-105 | With a positive overlap, the start `d - overlap` is inside the loop guard and maps back to itself, so the loop cannot exit. |
| Preprocess.ChunkLoopStaysInside | preprocess.py:82-105 | From any start inside the video, every further pass appends one chunk and leaves the start inside the video. |
| Preprocess.ChunkLoopNeverExits | preprocess.py:79-105 | `chunk_video` as written: after any number of passes with a positive overlap, the loop guard still holds. |
| Preprocess.ChunksFrom | preprocess.py:82-105 | The intended chunk list from a start inside the video is never empty. |
| Preprocess.ChunksFromShape | preprocess.py:82-105 | The intended windows from a start: the first begins there and the last ends at the duration. Each window is non-empty and at most one chunk long. All but the last are full length, and each next window starts `overlap` seconds before the previous one's end. |
| Preprocess.ChunkBounds | preprocess.py:73-107 | The corrected chunk windows: none for a non-positive duration. Otherwise they are numbered 1, 2, …, start at 0, end at the duration, and consecutive windows overlap by exactly the configured overlap. |
| Preprocess.ChunkCovering | preprocess.py:82-105 | Every second of the video lies in some window. |
| Preprocess.ChunkLoopFollowsChunksFrom | preprocess.py:82-105 | Run for as many passes as there are intended windows, the loop as written appends exactly those windows and is then poised at `d - overlap`. |
| Preprocess.AsWrittenStartsWithIntendedChunks | preprocess.py:79-105 | From 0, the loop as written first produces exactly the corrected windows. |
| Preprocess.ChunkLoopRepeats | preprocess.py:82-105 | From the start `d - overlap`, every pass appends the window `[d - overlap, d]`. |
| Preprocess.AsWrittenRepeatsLastWindow | preprocess.py:79-107 | After the intended windows, the loop as written appends the window `[d - overlap, d]` on every further pass. |
| Preprocess.ChunkLoopSplit | preprocess.py:82-105 | Running the loop for a + b passes equals running it a passes and then b passes. |
| Preprocess.ChunkBoundsExample | preprocess.py:73-107 | A 7800 s video with the shipped constants gives the windows [0,3000], [2970,5970] and [5940,7800]. |
| Preprocess.ChunkStemInjective | preprocess.py:85 | Different chunk indices give different `{stem}_chunk{idx:03d}` names. |
| Preprocess.ChunkPathInjective | preprocess.py:85-86 | Different chunk indices give different chunk paths. |
| Preprocess.CutChunks | preprocess.py:82-105 | The loop's side effects: one chunk file per window, with a metadata document per window. The files set gains exactly the chunk paths, and documents change only under the chunks directory. |
| Preprocess.CutChunksMeta | preprocess.py:99-102 | Each window's metadata document is `{start_s, end_s, chunk_index}` of that window. A later window never overwrites an earlier one's document, and documents of smaller chunk indices are left as they were. |
| Preprocess.CutChunksTranscodes | preprocess.py:88-98 | ffmpeg cuts exactly the chunk files that were missing. |
| Preprocess.CutChunksCached | preprocess.py:88 | When every chunk file exists, nothing is cut. |
| Preprocess.ProxyNameInjective | preprocess.py:51-52 | Proxy names of one stem never collide: an offset suffix appears exactly for a positive offset, and equal names mean equal offsets. |
| Preprocess.CreateProxy | preprocess.py:44-70 | The proxy path is `{stem}{suffix}_proxy.mp4` in the directory. It is encoded exactly when it did not exist, and it exists afterwards. |
| Preprocess.CreateProxyIdempotent | preprocess.py:54-56 | A second request for the same proxy returns the same path, encodes nothing and changes nothing. |
| Preprocess.ProxiesFor | preprocess.py:135-140 | There is one proxy unit per chunk, offset by and covering the chunk's window. Only missing proxies are encoded, and none when all exist. |
| Preprocess.PrepareVideo | preprocess.py:110-140 | A video no longer than a chunk gives one proxy for [0, d]. A longer one gives one proxy per corrected chunk window, in order, named after its chunk and offset by its start. Every unit's file exists afterwards. Only missing files are transcoded, and documents change only under `chunks/`. |
| Preprocess.PrepareVideoResumes | preprocess.py:110-140 | Preparing the same video again on the resulting store gives the same units and transcodes nothing. |
| Preprocess.SampleWindow | preprocess.py:155-158 | The sample window lies inside the video and starts no later than requested. Its length is the requested length capped by the video's, and a long enough video gets exactly the requested window. |
| Preprocess.ExtractSample | preprocess.py:143-173 | A cached sample is returned without measuring or cutting. Otherwise the sample window is cut and the sample file exists. |
| Analyze.CleanFences | analyze.py:57-60 | Text that does not start with a code fence is only stripped. |
| Analyze.CleanFencesLines | analyze.py:58-60 | Fenced text loses its first line, and also its last line when that line is a closing fence. |
| Analyze.CleanFencesRoundTrip | analyze.py:57-60 | A document fenced as ```` ```json ```` comes back out of the fence unchanged. |
| Analyze.FirstOpener | analyze.py:63-66 | The position of the first `{` or `[`, with no opener before it, or -1 when there is none. |
| Analyze.LastCloser | analyze.py:67 | The position of the last `}` or `]`, with no closer after it, or -1. |
| Analyze.JsonSpanNone | analyze.py:63-72 | There is no span exactly when the text has no opener or no closer. |
| Analyze.JsonSpanSlice | analyze.py:63-72 | A span is a slice with no opener before it and no closer after it. When not empty it starts with an opener and ends with a closer. |
| Analyze.JsonSpanInContext | analyze.py:63-72 | A document bracketed by an opener and a closer, with no opener before it and no closer after it, is exactly the span extracted. |
| Analyze.ParseResponse | analyze.py:51-72 | A parsed reply is `json.loads` of the span. No span gives the "Pas de JSON" error with the first 200 characters. |
| Analyze.ParseFencedReply | analyze.py:51-72 | A fenced reply parses to what `json.loads` makes of the document inside, and fails when that fails. |
| Analyze.OffsetNoteReadsBack | analyze.py:108-113 | The offset note is present exactly for a positive start. It names the start's clock time, which reads back to the start. |
| Analyze.Annotate | analyze.py:131-137 | Setting `_meta` succeeds exactly on a dict and stores the given metadata there. |
| Analyze.AskAnnotated | analyze.py:122-137 | An attempt succeeds exactly when the reply parses to a dict. The result carries the `_meta` given. |
| Analyze.Preanalyze | analyze.py:75-93 | A pre-analysis attempt succeeds exactly when the reply parses, and yields the parsed document, unannotated. |
| Analyze.AnalyzeSegment | analyze.py:96-139 | A deep attempt succeeds exactly when the reply to the analysis model, with the offset note, parses to a dict. Its `_meta` names the model, the proxy file name and the start. |
| Analyze.AnalyzeSegmentBlind | analyze.py:142-178 | Without a blind-pass model every attempt raises. Otherwise an attempt succeeds exactly when the reply parses to a dict, with `_meta` including `"pass": "blind"`. |
| Analyze.BlindPassAlwaysFailsAsShipped | analyze.py:149 | With the shipped configuration every blind attempt raises, whatever the remote model replies. |
| Analyze.Merge | analyze.py:181-205 | No result raises and one result is returned as it is. Several raise exactly when one is not an analysis dict, and otherwise give the merged analysis of `MergeSeveral`. |
| Analyze.MergeSeveral | analyze.py:189-205 | The merged analysis has exactly the three keys: the profile of the first result, the observations of the last, and the segments of all chunks deduplicated by start timecode. |
| Analyze.MergedSegments | analyze.py:192-201 | The merged segments are a subsequence of all segments, carry distinct start timecodes covering every start seen, each is the first segment with its start, and they keep the order of first occurrence. |
| Analyze.MergeAgain | analyze.py:186-187 | Merging the merged analysis alone gives it back. |
| Seqs.DedupByOrder | analyze.py:195-201 | The kept items appear in the order in which their keys first occur. |
| Seqs.KeyIndex | analyze.py:195-201 | The index of the first item with a key: every earlier item has another key, and the index is in range exactly when the key occurs. |
| Json.HashKey | analyze.py:195-200 | The key a value takes in a Python set keeps its truthiness and hashability. |
| Json.HashKeyIsEquality | analyze.py:195-200 | Two values give the same set key exactly when Python calls them equal (so `1` and `True` collide). |
| Analyze.MergeKeepsDistinctSegments | analyze.py:195-201 | When no two segments share a start timecode, the merge keeps every segment in order. |
| Analyze.MergeDropsOverlapRepeat | analyze.py:195-201 | Two segments with the same start make the merged list strictly shorter than all segments together. |
| Videos.CollectVideos | vhs_analyzer.py:36-45 | A file source gives itself when its suffix is a video extension, and nothing otherwise. A directory gives, in walk order, exactly the walked paths with a video suffix, a name not starting with `._`, and no `vhs_analysis_output` in the path. |
| Videos.CollectTakesOwnProxies | vhs_analyzer.py:39-45 | As written, a proxy the pipeline wrote under `<source>/vhs-analysis/proxies` is collected as a source video on the next run. |
| Videos.CollectVideosFixed | vhs_analyzer.py:36-45 | The corrected collection is exactly the paths the original collects that are not under the run's own work directory, in walk order. For a single file it is the original's answer. |
| Videos.FixedSkipsPreparedUnits | vhs_analyzer.py:36-45 | No proxy that `prepare_video` wrote is collected by the corrected filter. |
| Videos.ProxyNameShape | preprocess.py:51-52 | A proxy name has no `/`, has the `.mp4` suffix and starts with its stem's first character. |
| Videos.SelectFailed | vhs_analyzer.py:340-342 | As written, `--retry-failed` keeps, in order, exactly the videos whose bare name is a failed-file entry. |
| Videos.LabelsAreNotNames | vhs_analyzer.py:93 | None of the labels `with_retry` records failures under equals the video's bare name. |
| Videos.SelectFailedMissesChunkFailure | vhs_analyzer.py:201 | As written, after a chunk of `a.mp4` fails, `--retry-failed` selects nothing. |
| Videos.OwnsItsLabels | vhs_analyzer.py:144 | Each of the three label forms used for a video is recognised as belonging to it. |
| Videos.SelectFailedFixed | vhs_analyzer.py:340-342 | The corrected selection keeps, in order, exactly the videos that own at least one failure record. |
| Videos.SelectFailedFixedFindsChunkFailure | vhs_analyzer.py:340-351 | With the corrected filters, a failed chunk selects its video, and clearing leaves no record for it. |
| Videos.ClearFailures | vhs_analyzer.py:347-351 | As written, exactly the records whose file is a selected video's bare name are dropped. The rest keep their order and every copy; nothing else changes. |
| Videos.ClearFailuresFixed | vhs_analyzer.py:347-351 | The corrected clearing drops exactly the records owned by selected videos. The rest keep their order and every copy; nothing else changes. |
| Videos.ClearedLeavesNoFailure | vhs_analyzer.py:340-351 | After the corrected clearing no selected video has a failure record, so selecting them again finds nothing. |
| Videos.RetrySelectionCleared | vhs_analyzer.py:340-351 | Selecting the failed videos and clearing their records leaves nothing for the next `--retry-failed` to select. |
| Videos.ClearFailuresFixedAgain | vhs_analyzer.py:347-351 | Clearing the same selection twice is clearing it once. |
| Videos.ClearFailuresAgain | vhs_analyzer.py:347-351 | The clearing as written is idempotent too. |
| Enrich.BlindIndex | vhs_analyzer.py:231-235 | Building the index raises exactly when some truthy start timecode is unhashable. Every key is a truthy, hashable start, filed under Python's key equality (`1` and `True` are one key). |
| Enrich.BlindIndexKeys | vhs_analyzer.py:231-235 | The index holds exactly the dict keys of the truthy start timecodes of the blind segments. |
| Enrich.BlindIndexLastWins | vhs_analyzer.py:231-235 | For a repeated start timecode, the index keeps the last blind segment carrying it. |
| Enrich.EnrichSegment | vhs_analyzer.py:236-242 | A truthy unhashable start raises. A matched segment gains exactly the three `blind_*` fields, copied from its counterpart. Every other field, and every unmatched segment, is unchanged. |
| Enrich.EnrichSegmentTwice | vhs_analyzer.py:236-242 | Enriching a segment twice with the same index changes nothing more. |
| Enrich.EnrichAnalysis | vhs_analyzer.py:227-242 | A falsy blind result leaves the analysis alone. Otherwise it raises unless both are dicts whose segments iterate as dicts (an empty string or dict iterates as nothing) with hashable truthy starts. The segment list keeps its length and order, each segment is enriched on its own, and no other field changes. |
| Enrich.EnrichAnalysisIdempotent | vhs_analyzer.py:227-242 | Enriching an enriched analysis again with the same blind result gives it back unchanged. |
| Enrich.EnrichWithBlind | vhs_analyzer.py:221-243 | On success the dict keeps exactly its keys, each visited video holds its enriched analysis, and an unvisited one its old value. |
| Enrich.EnrichAll | vhs_analyzer.py:236-242 | The segment loop succeeds exactly when every start can be looked up, and then enriches each segment in place. |
| Enrich.EnrichWithBlindSucceeds | vhs_analyzer.py:221-243 | The enrichment raises nothing when every video's own enrichment succeeds. |
| Enrich.EnrichWithBlindSkips | vhs_analyzer.py:227-229 | A video without a truthy blind entry keeps its analysis. |
| Phases.PreanalyzeOne | vhs_analyzer.py:86-95 | A sample is cut or reused. The result is present exactly when some attempt answers. The label `preanalysis_<name>` is then marked done, and otherwise it is recorded as failed. |
| Phases.PreanalyzeAll | vhs_analyzer.py:84-98 | The loop raises exactly when the corpus cannot be built from the answers, and otherwise returns that corpus. No document is written in the loop. |
| Phases.BuildCorpusFails | vhs_analyzer.py:93-98 | Building the corpus raises exactly when some video's answer is truthy but not a dict. |
| Phases.BuildCorpusKeys | vhs_analyzer.py:94-95 | A name is in the corpus exactly when it was there before or some video of that name gave a truthy answer. |
| Phases.BuildCorpusLast | vhs_analyzer.py:94-95 | A name holds the answer of the last video of that name that answered. |
| Phases.BuildCorpusKeeps | vhs_analyzer.py:94-95 | A name no video answers for keeps its old entry. |
| Phases.PhasePreanalysis | vhs_analyzer.py:76-102 | An existing corpus file is returned with no work. Otherwise the run raises exactly when building the corpus does, and the corpus built is written to `corpus_context.json`. |
| Phases.PhasePreanalysisCorpus | vhs_analyzer.py:84-102 | Phase 1 raises exactly when some answer is truthy but not a dict. The corpus holds a video's name exactly when some video of that name answered, with the last such answer. |
| Progress.RetryFirstSuccess | progress.py:71-82 | The retry loop returns the first attempt that succeeds within the retry budget. |
| Phases.PhasePreanalysisResumes | vhs_analyzer.py:79-81 | Running phase 1 again after it completed reads the same corpus back and changes nothing. |
| Phases.TargetsOf | vhs_analyzer.py:136-140 | One target per prepared unit, with its path and start. |
| Phases.PassAttempts | vhs_analyzer.py:141-144 | The pass's attempts are the blind or deep segment analysis, and every success is an annotated dict. |
| Phases.GatherOne | vhs_analyzer.py:198-203 | A target yields a truthy annotated result exactly when some attempt answers. The store is untouched, and the video's own checkpoint is unchanged. |
| Phases.GatherResults | vhs_analyzer.py:193-204 | The loop keeps at most one result per target, never touches the documents, and leaves the video's own checkpoint as it was. |
| Phases.GatherResultsNone | vhs_analyzer.py:193-206 | The loop gathers nothing exactly when no target is answered. |
| Phases.GatherResultsAnnotated | vhs_analyzer.py:193-204 | Every result kept is an annotated dict. |
| Phases.PassTargets | vhs_analyzer.py:188-191 | With `--no-proxy` the single target is the video at offset 0. Otherwise preparing writes documents only under `chunks/`. |
| Phases.Conclude | vhs_analyzer.py:205-216 | A merge that raises leaves the world as it was. Otherwise the concluded document is stored and, in the deep pass, the video is marked done; the call then raises exactly when the progress line cannot read the document. |
| Phases.StoredDoc | vhs_analyzer.py:205-211 | The document to store: a merge that raises exactly when one of several results is not an analysis, the deep pass stamping `_source_file`, a single blind result kept as it is, several keeping the merged segments. |
| Phases.ConcludeCrashes | vhs_analyzer.py:205-216 | Concluding raises exactly when the merge raises or a single result cannot be printed. In the latter case the result is already stored and the video marked done. |
| Phases.GatherVideo | vhs_analyzer.py:188-206 | Preparing and trying a video's targets changes documents only under `chunks/` and leaves its checkpoint alone. Nothing is gathered when no target is ever answered. |
| Phases.Settle | vhs_analyzer.py:205-216 | With no results nothing changes. Otherwise a concluded result is stored at the video's path and is the only document written. A raise leaves the documents unchanged or holds only the stored result that could not be printed. |
| Phases.SettleOutside | vhs_analyzer.py:169-212 | Gathering then settling writes nothing outside the artifact and `chunks/`, and does not create the artifact while gathering. |
| Phases.AnalyzeFresh | vhs_analyzer.py:186-212 | A result is stored at the video's path. With no answer nothing is stored and the checkpoint is as before. A raise can leave only a stored result that cannot be printed. Only the artifact and `chunks/` can change. |
| Phases.AnalyzeVideo | vhs_analyzer.py:173-212 | A stored result is loaded first, with no work. The deep pass then skips a checkpointed video. Otherwise the video is analysed, with only its own artifact and `chunks/` changing. |
| Phases.ArtifactOutsideChunks | vhs_analyzer.py:169-175 | Stored results never lie under the chunks directory. |
| Phases.ArtifactBeatsLedger | vhs_analyzer.py:177-184 | A stored deep result is loaded whatever the ledger says. |
| Phases.DoneWithoutArtifactIsDropped | vhs_analyzer.py:182-184 | A checkpointed video whose stored result is missing gets no entry and no work. |
| Phases.AnalyzeVideoResumes | vhs_analyzer.py:177-180 | A second pass over a video that produced a result returns it with no work. |
| Phases.BlindPassKeepsNothingAsShipped | vhs_analyzer.py:141-149 | With the shipped configuration the blind pass writes no blind result for a video without one. |
| Phases.Put | vhs_analyzer.py:153 | `d[k] = v`: a new key goes last, and an existing key keeps its place. |
| Phases.PassAll | vhs_analyzer.py:105-218 | The pass's dict gains entries only under the names of the videos given. Documents are never removed. |
| Phases.PassAllCached | vhs_analyzer.py:120-180 | When every video has a stored result, the pass completes and changes nothing. |
| Phases.PassAllCachedNames | vhs_analyzer.py:120-180 | Then the dict gains exactly the names of the videos. |
| Phases.AnalyzeVideoCached | vhs_analyzer.py:120-180 | A video with a stored result is that result, with no work. |
| Phases.PassAllKeepsArtifact | vhs_analyzer.py:120-180 | A stored result survives the pass unchanged. |
| Phases.PassAllFrame | vhs_analyzer.py:105-218 | A document outside `chunks/` that is no video's artifact is neither created, removed nor changed. |
| Phases.PassAllKeepsOthers | vhs_analyzer.py:120-218 | An entry whose name no video has keeps its value. |
| Phases.PassAllEntries | vhs_analyzer.py:120-218 | Every entry is an old one or a video's stored result. |
| Phases.PassAllEntryOfLast | vhs_analyzer.py:120-218 | A video with a stored result, not followed by one with the same artifact, has that result as its entry. |
| Phases.LoadStored | vhs_analyzer.py:383-388 | With `--phase` above 3, exactly the videos with a stored deep result are loaded. |
| Phases.LoadStoredLast | vhs_analyzer.py:384-388 | A video's entry is its stored document unless a later video of the same name also has one. |
| Phases.LoadStoredKeeps | vhs_analyzer.py:384-388 | A name with no stored video keeps its old entry. |
| Phases.Rewrite | vhs_analyzer.py:394-399 | Each analysis is written to its stored-result path, the later of two names with the same stem winning. Other documents stay. |
| Phases.Export | vhs_analyzer.py:246-268 | The files written are exactly those of `ExportFiles`. The export completes exactly when no video's export raises. |
| Phases.ExportStep | vhs_analyzer.py:252-268 | A video is skipped exactly when its analysis is falsy. It fails in the timeline exactly when the analysis is not a dict or the timeline raises, and in the log exactly when only the log raises. Otherwise both are written. |
| Phases.FirstExportFailure | vhs_analyzer.py:252-268 | The first video whose export raises: every earlier one exported cleanly. |
| Phases.ExportFiles | vhs_analyzer.py:252-268 | No file is removed, and the loop reports an error exactly when some video's export raises. |
| Phases.ExportFilesWritten | vhs_analyzer.py:259-268 | Every video exported before the first failure has its timeline and log. A video whose log raised keeps its timeline. |
| Phases.ExportFilesOnly | vhs_analyzer.py:252-268 | Every new file is the timeline or log of a video up to the first failure that got that far. |
| Phases.ExportFilesAdds | vhs_analyzer.py:252-268 | The files written do not depend on the files already present. |
| Phases.ExportAgain | vhs_analyzer.py:246-268 | Exporting a second time writes nothing new. |
| Phases.ExportCompletes | vhs_analyzer.py:246-268 | The export completes exactly when every video's analysis is falsy, or gives both a timeline and a log. |
| Phases.Synthesis | vhs_analyzer.py:271-281 | An existing `SYNTHESIS.md` is kept with no call. Otherwise there is one request and the file is written. |
| Phases.SynthesisAgain | vhs_analyzer.py:273-276 | A second synthesis phase does nothing. |
| Pipeline.Analyses | vhs_analyzer.py:381-388 | With `--phase` at most 3 the result is the deep pass over the videos, crashes included. Otherwise it is the stored results as LoadStored reads them, with no work. |
| Pipeline.Enrichment | vhs_analyzer.py:391-400 | The enrichment runs exactly when both dicts are non-empty. It then raises exactly when `enrich_with_blind` does, and otherwise the dict is its result with the same order. No call is made, and an error leaves the world unchanged. |
| Pipeline.Deliver | vhs_analyzer.py:402-408 | The run ends with status 1 exactly when the export runs (`--phase` at most 4) and raises, keeping the files written so far. The synthesis runs exactly when there is no such error and there is an analysis. |
| Pipeline.Finish | vhs_analyzer.py:390-408 | The export runs only when `--phase` is at most 4, and is skipped there only when the enrichment raised, ending the run with status 1. The synthesis runs exactly when the run succeeds with an analysis. At most one request is made. |
| Pipeline.Early | vhs_analyzer.py:372-378 | Phase 1 is entered exactly when `--phase` is 1, and its exception ends the early phases. Otherwise the blind pass is entered exactly with `--blind` and `--phase` at most 2, and its result is the blind pass over the world phase 1 left. The early phases raise exactly when phase 1 or the admitted blind pass raises. |
| Pipeline.Later | vhs_analyzer.py:380-408 | The deep pass is entered exactly when `--phase` is at most 3, and the loading of stored results exactly otherwise. A raising deep pass ends the run with status 1 and no further stage. Otherwise the export runs whenever `--phase` is at most 4, unless the enrichment raised. |
| Pipeline.Stages | vhs_analyzer.py:369-408 | Every phase entered is allowed by `--phase` and `--blind`. If neither phase 1 nor the blind pass raises, the blind, deep and loading stages are entered exactly when their gates admit them; if one raises, the run ends with status 1 before the deep pass. A run ending with status 0 entered every admitted stage, the export included. With `--phase` 4 or 5 nothing is analysed and at most the synthesis is requested. |
| Pipeline.Run | vhs_analyzer.py:286-408 | A phase outside 1..5 exits with 2. A missing source, or one with no video, exits with 1. `--retry-failed` with nothing to retry exits with 0. `--dry-run` and a missing key stop before any request, and no stage runs without a key. A `--retry-failed --dry-run` leaves nothing for the next retry. Once every gate passes, some stage runs, phase 1 exactly when `--phase` is 1, and a run ending with status 0 entered every stage its flags admit. Videos are collected, selected and cleared by CollectVideosFixed, SelectFailedFixed and ClearFailuresFixed. |
| Fcpxml.TcToRational | export_fcpxml.py:12-27 | `_tc_to_rational` raises exactly when a field of a two- or three-field timecode is not an integer. |
| Fcpxml.FracReadsBack | export_fcpxml.py:27 | A rational time `n/fpss` splits back into its frame count and its rate. |
| Fcpxml.RationalInjective | export_fcpxml.py:26-27 | Distinct positive frame counts give distinct rational times. |
| Fcpxml.RationalZero | export_fcpxml.py:27 | The rational time is `0s` exactly when the frame count is not positive. |
| Fcpxml.ReadThree | export_fcpxml.py:17-19 | Three digit fields joined by colons are read as hours, minutes and seconds. |
| Fcpxml.ReadThreeToS | export_fcpxml.py:32-35 | `to_s` reads three digit fields as `_tc_to_rational` does. |
| Fcpxml.ReadPadded | export_fcpxml.py:17-35 | Padded fields read back as their values, through both readers. |
| Fcpxml.FmtTcSeconds | export_fcpxml.py:17-35 | A timecode written by `_fmt_tc` reads back, through both readers, as the seconds it was made from. |
| Fcpxml.TcToRationalOfFmtTc | export_fcpxml.py:12-27 | The rational time of a written timecode is its second count times the frame rate. |
| Fcpxml.ReadTwo | export_fcpxml.py:17-21 | Two digit fields joined by a colon are read as minutes and seconds. |
| Fcpxml.TcToRationalMinutes | export_fcpxml.py:20-27 | An `MM:SS` timecode is converted as minutes and seconds. |
| Fcpxml.TcToRationalExample | export_fcpxml.py:15 | `"00:02:14"` at 25 fps is `"3350/25s"`, the docstring's example. |
| Fcpxml.DurationSeconds | export_fcpxml.py:32-37 | The duration is defined exactly when both ends can be read, and it is at least one second. |
| Fcpxml.DurationRational | export_fcpxml.py:30-39 | `_duration_rational` raises exactly when an end cannot be read. |
| Fcpxml.DurationOfTimecodes | export_fcpxml.py:30-39 | Between two written timecodes the duration is their difference when positive, and one second otherwise. |
| Fcpxml.MinutesDurationIsOneSecond | export_fcpxml.py:32-37 | Any two `MM:SS` timecodes give a one-second duration, since `to_s` reads them as 0. |
| Fcpxml.TwoFields | export_fcpxml.py:33-36 | An `MM:SS` timecode has two fields, and `to_s` reads it as 0. |
| Fcpxml.Element | export_fcpxml.py:79-90 | Only the chapter kind is written as `chapter-marker`, and each kind has its `completed` attribute. |
| Fcpxml.ElementInjective | export_fcpxml.py:79-90 | The four kinds are written differently. |
| Fcpxml.Classify | export_fcpxml.py:79-90 | The kind follows the branch order: a glitch is completed; otherwise strong or to-do is a to-do marker; otherwise a structural type is a chapter; and the rest are standard. Each holds as an if-and-only-if. |
| Fcpxml.StripByEmpty | export_fcpxml.py:55 | Stripping leaves nothing exactly when every character is stripped. |
| Fcpxml.RawTitleJunk | export_fcpxml.py:55 | The bracketed title is all brackets and spaces exactly when both parts are. |
| Fcpxml.TitleShape | export_fcpxml.py:54-57 | The title is empty exactly when the type is empty and the emotion is junk. It falls back to the type when both are junk. Otherwise it is non-empty and neither starts nor ends with a bracket or space. |
| Fcpxml.TitleLosesOpeningBracket | export_fcpxml.py:55 | For a lower-case type and an emotion ending in text, the title is `TYPE] emotion`: the strip also removes the opening bracket. |
| Fcpxml.Prefix | export_fcpxml.py:61-69 | A truthy field puts its layer in front of the note. |
| Fcpxml.NoteText | export_fcpxml.py:59-69 | The note is the blind layer, then the transcription layer, then the behaviour layer, then the body. |
| Fcpxml.SegmentNote | export_fcpxml.py:59-69 | With no prefix the note is the body itself, whatever its type. With a prefix it is a string that ends with the body and starts with `[MONTEUR AVEUGLE]` when there is a blind observation. It can be sliced exactly when a prefix is present or the body is a string or a list. |
| Fcpxml.DefaultStart | export_fcpxml.py:44 | The default start `00:00:00` reads as 0 seconds through both readers. |
| Fcpxml.DefaultEnd | export_fcpxml.py:45 | The default end `00:00:01` reads as 1 second. |
| Fcpxml.StartReadings | export_fcpxml.py:44-51 | The model's start readings are the source's readers applied to `tc_start` with its default. |
| Fcpxml.EndReading | export_fcpxml.py:45-51 | The model's end reading is `to_s` applied to `tc_end` with its default. |
| Fcpxml.Span | export_fcpxml.py:37 | `max(1, end - start)` is at least one and at least the difference, and equals the difference when that is positive. |
| Fcpxml.MarkerTitle | export_fcpxml.py:74 | `title[:64]` is at most 64 characters and a prefix of the title. It is the whole title when that fits, and exactly 64 characters otherwise. |
| Fcpxml.CutNote | export_fcpxml.py:75 | `note[:512]` keeps the first 512 characters of a string or the first 512 items of a list, the whole value when it fits, and raises on any other value. |
| Fcpxml.CutNoteAgain | export_fcpxml.py:75 | Cutting a cut note changes nothing. |
| Fcpxml.MarkerNote | export_fcpxml.py:75 | For a string note the attribute is at most 512 characters and a prefix of the note, the whole note when that fits and exactly 512 characters otherwise. A list body with no prefix is written as the `str()` of its first 512 items. |
| Fcpxml.ListNoteIsWritten | export_fcpxml.py:59-75 | A list body with no prefix does not stop the marker: it exists exactly when the timecodes and type read, and its note is the list's first 512 items as Python prints them. |
| Fcpxml.MakeMarker | export_fcpxml.py:42-90 | A marker is made exactly when the timecodes read, the type is a string and the note can be sliced. Its kind, start, duration, title and note are as the source computes them. |
| Fcpxml.StartAsSource | export_fcpxml.py:50 | The marker start is `_tc_to_rational` of `tc_start` with its default. |
| Fcpxml.DurationAsSource | export_fcpxml.py:51 | The marker duration is `_duration_rational` of the two timecodes with their defaults. |
| Fcpxml.MarkerTimesAsSource | export_fcpxml.py:42-76 | The marker exists exactly when neither conversion raises, the type is a string and `note[:512]` does not raise. Its start and duration are the two conversions' values. |
| Fcpxml.DefaultsGivePlainMarker | export_fcpxml.py:46-48 | A segment without the classifying fields gets a standard marker. |
| Fcpxml.GlitchWins | export_fcpxml.py:79-81 | A glitch is written as a completed marker whatever its interest or role. |
| Json.SegmentList | export_fcpxml.py:110 | Absent segments give none. A list of dicts is taken as it is, and an empty non-list value gives no iteration. Anything else fails. |
| Json.SegmentListWellShaped | export_fcpxml.py:110 | On a well-shaped analysis the loop sees exactly its segments. |
| Fcpxml.ReadEnd | export_fcpxml.py:116-117 | The last end is read from three or more colon-separated integer fields, plus 60 seconds. Fewer fields raise. |
| Fcpxml.LastEnd | export_fcpxml.py:115-117 | An absent end gives 60 seconds. A string end is read as `ReadEnd`, and any other value raises. |
| Fcpxml.ReadEndOfFmtTc | export_fcpxml.py:116-117 | A written end timecode `t` gives `t + 60` seconds. |
| Fcpxml.ReadEndMinutesFails | export_fcpxml.py:116-117 | An `MM:SS` last end, which markers accept, makes the duration computation raise. |
| Fcpxml.SequenceSeconds | export_fcpxml.py:113-118 | The sequence duration is never 0. A given non-zero duration wins, a zero or missing one without segments gives 3600, and otherwise it is the last end plus a minute. |
| Fcpxml.GenerateFcpxml | export_fcpxml.py:93-178 | The timeline is made exactly when the segments, the duration and every marker can be made. Its markers are those of exactly the segments with a truthy `tc_start`, in order, and its duration is the sequence seconds at the frame rate. |
| Fcpxml.EmptyAnalysisTimeline | export_fcpxml.py:110-120 | An analysis without segments gives a one-hour timeline without markers. |
| Report.Stars | export_report.py:56 | The table's three interests map to their stars, and anything else hashable to `★★☆`. A list or dict key raises. |
| Report.Emoji | export_report.py:7-15 | Each shot type maps to its colour, and an unknown hashable type to `⚪`. A list or dict key raises. |
| Report.Cell | export_report.py:57-58 | A cell has every vertical bar replaced by `/` and is cut to the width. It contains no vertical bar. |
| Report.CellIdempotent | export_report.py:57-58 | Sanitising a cell twice changes nothing more. |
| Report.CellKeepsPlain | export_report.py:57-58 | A short text without a vertical bar is its own cell. |
| Report.DescriptionCell | export_report.py:57 | The description must be a string, and its cell is the sanitised, truncated text: at most 80 characters, no vertical bar. |
| Report.NotesCell | export_report.py:58 | Falsy notes give an empty cell, and string notes give at most 60 sanitised characters. Anything else raises. |
| Report.SegmentRow | export_report.py:54-62 | A row is made exactly when the lookups and the two cells can be made. Its timecodes and type print the looked-up values with their defaults, with the type's emoji, the interest's stars and the two cells. |
| Report.TranscriptOf | export_report.py:69-74 | A transcription entry needs `tc_start`, else KeyError. It prints the start, the speaker (default `?`) and the words. The audio line is present exactly when `description_audio` is truthy, and holds it. |
| Report.StrongOf | export_report.py:80-89 | A strong shot needs a string type. Its heading has the emoji, the two timecodes and the upper-cased type, then the description, the audio (default `N/A`), the interpretation and the emotion, blank exactly when falsy. |
| Report.Bump | export_report.py:95 | One increment: a new theme is appended with count 1, an existing one keeps its place, and only its count grows by one. |
| Report.KeysDistinct | export_report.py:95 | An increment keeps the themes distinct. |
| Report.TallyFromKeys | export_report.py:92-95 | The tally's themes are those already present followed by the new themes in first-occurrence order. |
| Report.TallyFromDistinct | export_report.py:92-95 | The tally's themes stay distinct. |
| Report.TallyFromCounts | export_report.py:92-95 | Each count grows by the number of occurrences of the theme. |
| Report.TallyShape | export_report.py:92-95 | `all_themes` has one entry per distinct theme, in first-occurrence order, counting its occurrences. |
| Report.EntryCount | export_report.py:92-95 | With distinct themes, each entry's count is the theme's count. |
| Report.Insert | export_report.py:97 | Insertion adds exactly the one entry. |
| Report.InsertDescending | export_report.py:97 | Insertion keeps a list ordered by descending count. |
| Report.InsertStable | export_report.py:97 | The inserted entry goes after every entry with the same count. |
| Report.SortFromDescending | export_report.py:97 | Sorting yields descending counts. |
| Report.SortFromPermutes | export_report.py:97 | Sorting keeps exactly the same entries. |
| Report.SortFromStable | export_report.py:97 | Entries with equal counts keep their relative order. |
| Report.SortDescShape | export_report.py:97 | `sorted(key=-count)` is a stable permutation by descending count. |
| Report.Shown | export_report.py:101 | At most the first 20 entries are shown. |
| Report.ThemeList | export_report.py:94 | Absent themes give none. A list of strings gives its strings, and a string gives its characters. `None`, numbers and booleans raise. |
| Report.AllThemes | export_report.py:93-95 | The themes are gathered exactly when every segment's themes can be iterated. |
| Report.ThemeSection | export_report.py:96-103 | At most 20 themes are shown, and there is a theme section exactly when some segment has a theme. |
| Report.TallyEmpty | export_report.py:96 | The tally is empty exactly when there are no themes. |
| Report.RemarkAt | export_report.py:108-113 | A sub-line appears exactly when its field is truthy, with its heading and value. |
| Report.Observations | export_report.py:106-113 | Falsy observations give no section. A truthy value must be a dict, and its sub-lines follow the three fields in order. |
| Report.ObservationLine | export_report.py:108-113 | A heading appears in the section exactly when its field is truthy. |
| Report.JoinComma | export_report.py:39 | The join is empty exactly when there is no part or one empty part. One part is itself. |
| Report.People | export_report.py:39 | The people cell can be joined exactly when it is a string, a dict, or a list of strings. An empty join prints `?`. |
| Report.HeaderOf | export_report.py:24-43 | The sheet can be written exactly when the profile and `_meta` are dicts and the people can be joined. It then holds the people, period, place, audio quality and model with their defaults. |
| Report.HeaderDefaults | export_report.py:24-43 | An analysis with neither a profile nor `_meta` gets `?` everywhere and the model `gemini`. |
| Report.RowsOf | export_report.py:54-62 | The table succeeds exactly when every row can be made, and then holds one row per segment, in order. |
| Report.TranscriptsOf | export_report.py:66-74 | One entry per transcribed segment, in order; it fails exactly when one entry fails. |
| Report.StrongsOf | export_report.py:77-89 | One entry per strong shot, in order; it fails exactly when one entry fails. |
| Report.StrongShotsAreStarred | export_report.py:56-77 | A segment is a strong shot exactly when its row shows three stars, so both count the same. |
| Report.VideoReport | export_report.py:18-113 | The log can be written exactly when the sheet, the segment list, every row, every transcription, every strong shot, the themes and the observations can. It then holds the sheet, one row per segment, the transcriptions of exactly the transcribed segments and the strong shots of exactly the `fort` segments, in order, then the theme section and the observations. |

## Left out

- The shell-outs: `ffprobe`, `ffmpeg` and the burnt-in timecode filter
  (`_run`, `get_duration`, `_bitc_filter`). The duration is a parameter, and
  an encoding always succeeds. A failing ffmpeg raises outside `with_retry`
  and ends the run.
- The remote model: `_client`, `_upload_video` and `_delete_file`. Replies
  are a parameter indexed by attempt. Upload and delete failures are not
  modelled, and neither is the generation config that selects a low media
  resolution.
- `generate_synthesis` and `generate_synthesis_report`. They are modelled
  only as one request and one file written.
- `estimate_cost` and all printing. They are floating-point console output
  with no effect on the state.
- `json.loads` is a parameter, and `json.dumps` is not modelled (documents
  are stored as values).
- `datetime.now()`, i.e. the ledger's `started_at` stamp and the report's
  date, and `time.sleep`. Sleeps are recorded, not performed.
- argparse, `--resume` (parsed but never read), `Path.resolve`,
  `mkdir` and the terminal banner.
- Floating point. Durations, offsets and frame rates are whole numbers;
  `int(total_s * fps)` is exact for an integer rate.
- Fcpxml.GenerateFcpxml: the XML tree and its serialisation are not
  modelled; only the duration and the markers are. ElementTree raises
  while writing a list-valued note one of whose items is exactly `&`,
  `<`, `>`, `"`, or a newline, carriage return or tab character; the
  model writes such a note as any other list.
- Report.VideoReport: the Markdown text, the title line with the file name
  and the date (export_report.py:32-33) are not modelled; the technical
  sheet, the sections and their contents are.
- Report.People: a dict of people is joined key by key in insertion order.
  A `Record` keeps no key order, so that cell is kept as the dict itself
  (`KeysOf`) rather than as text.
- Strings.IsSpace and Strings.Lower: only ASCII whitespace and ASCII
  letters are recognised. Python's `strip()` and `lower()` also act on
  Unicode whitespace and letters.
- Phases.Export and Phases.Synthesis: written files are modelled by their
  paths only; their contents (the XML, the Markdown, the synthesis text)
  are not stored.
- Pipeline.Finish: it does not restate when the export raises; its callee
  Pipeline.Deliver states that status 1 after the enrichment means
  exactly that the export raised.
- Report.ThemeList: a list holding non-string items, or a non-empty dict of
  themes, is treated as an error. Python would count such keys, with `1` and
  `True` counted as the same key.
- Report.StrongOf and Fcpxml.TitleOf: `upper()` is ASCII-only.
- Fcpxml.TcToRational and Strings.ParseInt: Python's `int()` also accepts
  underscores between digits and non-ASCII digits. Only signs, ASCII digits
  and surrounding whitespace are modelled.
- Error messages are not distinguished beyond success or failure, except
  the "Pas de JSON" message of `_parse_json_response`.
- `collect_videos` sorting: the walk is a parameter assumed to be given in
  sorted order.
- Two videos with the same stem in different folders share one
  `raw_json`/`blind_analysis` file. Phases.Rewrite states the
  last-one-wins outcome, but no finding is claimed because the source
  does not say what it intends here.

Behaviours of the code worth knowing, each modelled as written:

- **Chunk windows.** For 7800 s the windows are [0,3000], [2970,5970]
  and [5940,7800] (Preprocess.ChunkBoundsExample).
- **Processed and failed.** A name can be both processed and failed:
  `mark_failed` never removes it from `processed`. See
  Progress.MarkFailedKeepsProcessed.
- **`--resume`.** It is parsed and never read, so it has no effect.

Observed quirks, proved and not claimed as findings because the intent is
unclear:

- The marker title loses its opening bracket
  (Fcpxml.TitleLosesOpeningBracket).
- `MM:SS` marker durations are always one second
  (Fcpxml.MinutesDurationIsOneSecond).
- An `MM:SS` last `tc_end` makes `generate_fcpxml` raise
  (Fcpxml.ReadEndMinutesFails).

## Findings

| source | as written | input that shows it | evidently intended | confidence | as-written member | corrected member |
|---|---|---|---|---|---|---|
| preprocess.py:82-105 | `start = end - CHUNK_OVERLAP_S` after the last chunk sets `start = duration - 30`, which is still `< duration`, so the loop never ends and keeps appending `[d-30, d]` | any video longer than 3000 s, e.g. 7800 s | stop after the chunk that reaches the duration | high; not executed | Preprocess.AsWrittenRepeatsLastWindow | Preprocess.ChunkBounds |
| vhs_analyzer.py:44 | the output filter looks for `vhs_analysis_output`, but the work directory is `<source>/vhs-analysis` | a second run over a folder: `<source>/vhs-analysis/proxies/x_proxy.mp4` is collected as a video | skip everything under the run's own work directory | high; not executed | Videos.CollectTakesOwnProxies | Videos.CollectVideosFixed |
| vhs_analyzer.py:340-350 | `--retry-failed` matches bare file names, but failures are recorded under labels such as `a.mp4_chunk_0` | a chunk of `a.mp4` failing three times, then `--retry-failed` | select and clear the videos owning a failure label | high; not executed | Videos.SelectFailedMissesChunkFailure | Videos.SelectFailedFixed |
| analyze.py:149 | `config.MODEL_BLIND_PASS` is not defined in config.py, so every blind attempt raises AttributeError | `--blind` on any video | a blind-pass model constant in the configuration | high; not executed | Analyze.BlindPassAlwaysFailsAsShipped | Analyze.AnalyzeSegmentBlind |

=== FILE: analyze.dfy ===
/** The model-facing side of the pipeline (analyze.py): the request each
    pass sends, the extraction of a JSON document from a free-text reply,
    the `_meta` annotation, and the merge of per-chunk results.

    The remote model is an oracle: `Gemini(request, attempt)` is the outcome
    (reply text or raised error) of the given attempt at the given request,
    upload and processing failures included. `Loads` stands for `json.loads`. */
module Analyze {
  import opened Wrappers
  import opened Strings
  import opened Seqs
  import opened Json
  import opened Config
  import opened Store
  import opened Progress
  import opened Preprocess

  // ---------------------------------------------------------------------------
  // _parse_json_response: markdown fences

  const Fence: string := "```"

  /** The lines kept from a fenced reply: all but the opening line, and
      all but the last line too when that line is a closing fence. */
  function FenceInner(lines: seq<string>): (inner: seq<string>)
    requires |lines| >= 1
  {
    if Strip(lines[|lines| - 1]) == Fence then
      if |lines| >= 2 then lines[1..|lines| - 1] else []
    else lines[1..]
  }

  /** `text.strip()`, then, when it opens with a fence, the inner lines. */
  function CleanFences(text: string): (r: string)
    ensures !StartsWith(Strip(text), Fence) ==> r == Strip(text)
  {
    var t := Strip(text);
    if !StartsWith(t, Fence) then t
    else Join('\n', FenceInner(Split(t, '\n')))
  }

  /** A fenced reply is cut down to exactly its inner lines: reading the
      result's lines back gives the inner lines (one empty line when there
      are none). */
  lemma CleanFencesLines(text: string)
    requires StartsWith(Strip(text), Fence)
    ensures var inner := FenceInner(Split(Strip(text), '\n'));
      Split(CleanFences(text), '\n') == if inner == [] then [""] else inner
  {
    var lines := Split(Strip(text), '\n');
    var inner := FenceInner(lines);
    assert forall i :: 0 <= i < |inner| ==> inner[i] == lines[i + 1];
    if inner != [] {
      SplitJoin(inner, '\n');
    }
  }

  lemma StripFenced(j: string)
    ensures Strip("```json\n" + j + "\n```") == "```json\n" + j + "\n```"
  {
    var reply := "```json\n" + j + "\n```";
    assert reply[0] == '`' && reply[|reply| - 1] == '`';
  }

  /** A reply wrapped in a ```json fence comes out as exactly the wrapped
      text, whatever it is. */
  lemma CleanFencesRoundTrip(j: string)
    ensures CleanFences("```json\n" + j + "\n```") == j
  {
    var reply := "```json\n" + j + "\n```";
    StripFenced(j);
    assert StartsWith(reply, Fence);
    assert reply == "```json" + ['\n'] + (j + ['\n'] + Fence);
    SplitPrefix("```json", '\n', j + ['\n'] + Fence);
    SplitSuffix(j, '\n', Fence);
    var lines := Split(reply, '\n');
    assert lines == ["```json"] + Split(j, '\n') + [Fence];
    assert Strip(Fence) == Fence;
    assert lines[1..|lines| - 1] == Split(j, '\n');
    JoinSplit(j, '\n');
  }

  // ---------------------------------------------------------------------------
  // _parse_json_response: the JSON span

  predicate IsOpener(c: char) { c == '{' || c == '[' }

  predicate IsCloser(c: char) { c == '}' || c == ']' }

  /** The positions before the first `c` do not hold `c`. */
  lemma FindBefore(s: string, c: char)
    ensures forall k :: 0 <= k < |s| && (Find(s, c) == -1 || k < Find(s, c)) ==> s[k] != c
  {
    var r := Find(s, c);
    if r >= 0 {
      assert forall k :: 0 <= k < r ==> s[k] == s[..r][k];
    }
  }

  /** The positions after the last `c` do not hold `c`. */
  lemma RFindAfter(s: string, c: char)
    ensures forall k :: 0 <= k < |s| && Find(s, c) != -1 && RFind(s, c) < k ==> s[k] != c
  {
    var r := RFind(s, c);
    if r >= 0 {
      assert forall k :: r < k < |s| ==> s[k] == s[r + 1..][k - r - 1];
    }
  }

  /** `min(text.find(c) for c in "{[" if c in text, default=-1)`. */
  function FirstOpener(t: string): (i: int)
    ensures -1 <= i < |t|
    ensures i == -1 ==> forall k :: 0 <= k < |t| ==> !IsOpener(t[k])
    ensures i >= 0 ==> IsOpener(t[i])
    ensures forall k :: 0 <= k < |t| && k < i ==> !IsOpener(t[k])
  {
    FindBefore(t, '{');
    FindBefore(t, '[');
    var a, b := Find(t, '{'), Find(t, '[');
    if a == -1 then b else if b == -1 then a else Min(a, b)
  }

  /** `max(text.rfind("}"), text.rfind("]"))`. */
  function LastCloser(t: string): (i: int)
    ensures -1 <= i < |t|
    ensures i >= 0 ==> IsCloser(t[i])
    ensures forall k :: 0 <= k < |t| && i < k ==> !IsCloser(t[k])
  {
    RFindAfter(t, '}');
    RFindAfter(t, ']');
    var a, b := RFind(t, '}'), RFind(t, ']');
    if a >= b then a else b
  }

  /** The text handed to `json.loads`: `text[start : end + 1]` with Python's
      slice rules (empty when the last closer precedes the first opener), or
      nothing when the text has no opener or no closer. The span starts at the
      first opener and reaches the last closer. */
  function JsonSpan(t: string): Option<string> {
    var start, end := FirstOpener(t), LastCloser(t);
    if start == -1 || end == -1 then None
    else if end < start then Some("")
    else Some(t[start..end + 1])
  }

  /** There is no span exactly when the text has no opener or no closer. */
  lemma JsonSpanNone(t: string)
    ensures JsonSpan(t).None? <==> (
      || (forall k :: 0 <= k < |t| ==> !IsOpener(t[k]))
      || (forall k :: 0 <= k < |t| ==> !IsCloser(t[k])))
  {
    var start, end := FirstOpener(t), LastCloser(t);
    if start != -1 && end != -1 {
      assert IsOpener(t[start]) && IsCloser(t[end]);
    }
  }

  /** `v` is a slice of `t` with no opener before it and no closer after
      it. */
  ghost predicate SliceBetween(t: string, v: string) {
    exists i, j :: (
      && 0 <= i <= j <= |t| && v == t[i..j]
      && (forall k :: 0 <= k < i ==> !IsOpener(t[k]))
      && (forall k :: j <= k < |t| ==> !IsCloser(t[k])))
  }

  /** A span is a slice with no opener before it and no closer after it,
      and when not empty it starts with an opener and ends with a closer. */
  lemma JsonSpanSlice(t: string, v: string)
    requires JsonSpan(t) == Some(v)
    ensures SliceBetween(t, v)
    ensures v != "" ==> IsOpener(v[0]) && IsCloser(v[|v| - 1])
  {
    SpanIndices(t, v);
    var start, end := FirstOpener(t), LastCloser(t);
    if end < start {
      SpanWitness(t, v, start, start);
    } else {
      SpanWitness(t, v, start, end + 1);
      SliceEnds(t, start, end + 1);
    }
  }

  /** Where a span lies: from the first opener to the last closer, or the
      empty slice at the opener when the closer comes first. */
  lemma SpanIndices(t: string, v: string)
    requires JsonSpan(t) == Some(v)
    ensures var start, end := FirstOpener(t), LastCloser(t);
      && 0 <= start < |t| && 0 <= end < |t|
      && v == if end < start then t[start..start] else t[start..end + 1]
  {
  }

  lemma SliceEnds(t: string, i: nat, j: nat)
    requires i <= j <= |t|
    ensures i < j ==> t[i..j][0] == t[i] && t[i..j][|t[i..j]| - 1] == t[j - 1]
  {
  }

  lemma SpanWitness(t: string, v: string, i: nat, j: nat)
    requires i <= j <= |t| && v == t[i..j]
    requires forall k :: 0 <= k < i ==> !IsOpener(t[k])
    requires forall k :: j <= k < |t| ==> !IsCloser(t[k])
    ensures SliceBetween(t, v)
  {
  }

  /** Text around a JSON document that holds no opener before it and no
      closer after it is cut away exactly. */
  lemma JsonSpanInContext(pre: string, doc: string, post: string)
    requires |doc| >= 1 && IsOpener(doc[0]) && IsCloser(doc[|doc| - 1])
    requires forall k :: 0 <= k < |pre| ==> !IsOpener(pre[k])
    requires forall k :: 0 <= k < |post| ==> !IsCloser(post[k])
    ensures JsonSpan(pre + doc + post) == Some(doc)
  {
    var t := pre + doc + post;
    assert t == pre + (doc + post);
    OpenerAfter(pre, doc + post);
    CloserBefore(pre + doc, post);
    JsonSpanAt(t, |pre|, |pre| + |doc| - 1);
    assert t[|pre|..|pre| + |doc|] == doc;
  }

  /** An opener that follows a text without openers is the first one. */
  lemma OpenerAfter(pre: string, rest: string)
    requires |rest| >= 1 && IsOpener(rest[0])
    requires forall k :: 0 <= k < |pre| ==> !IsOpener(pre[k])
    ensures var t := pre + rest; IsOpener(t[|pre|]) && forall k :: 0 <= k < |pre| ==> !IsOpener(t[k])
  {
    var t := pre + rest;
    assert forall k :: 0 <= k < |pre| ==> t[k] == pre[k];
  }

  /** A closer that precedes a text without closers is the last one. */
  lemma CloserBefore(init: string, post: string)
    requires |init| >= 1 && IsCloser(init[|init| - 1])
    requires forall k :: 0 <= k < |post| ==> !IsCloser(post[k])
    ensures var t := init + post;
      IsCloser(t[|init| - 1]) && forall k :: |init| <= k < |t| ==> !IsCloser(t[k])
  {
    var t := init + post;
    assert forall k :: |init| <= k < |t| ==> t[k] == post[k - |init|];
  }

  /** The span runs from an opener with none before it to a closer after
      it with none after that. */
  lemma JsonSpanAt(t: string, i: nat, e: nat)
    requires i <= e < |t| && IsOpener(t[i]) && IsCloser(t[e])
    requires forall k :: 0 <= k < i ==> !IsOpener(t[k])
    requires forall k :: e < k < |t| ==> !IsCloser(t[k])
    ensures JsonSpan(t) == Some(t[i..e + 1])
  {
    FirstOpenerAt(t, i);
    LastCloserAt(t, e);
  }

  lemma FirstOpenerAt(t: string, i: nat)
    requires i < |t| && IsOpener(t[i])
    requires forall k :: 0 <= k < i ==> !IsOpener(t[k])
    ensures FirstOpener(t) == i
  {
  }

  lemma LastCloserAt(t: string, i: nat)
    requires i < |t| && IsCloser(t[i])
    requires forall k :: i < k < |t| ==> !IsCloser(t[k])
    ensures LastCloser(t) == i
  {
  }

  /** `_parse_json_response`: the error when no span is found, the parse
      error of `json.loads`, or the parsed document. */
  function ParseResponse(text: string, loads: string -> Option<Json>): (r: Result<Json>)
    ensures r.Ok? ==> (JsonSpan(CleanFences(text)).Some?
      && loads(JsonSpan(CleanFences(text)).value) == Some(r.value))
    ensures JsonSpan(CleanFences(text)).None? ==>
      r == Err("Pas de JSON dans la réponse : " + Take(CleanFences(text), 200))
  {
    var t := CleanFences(text);
    match JsonSpan(t)
    case None => Err("Pas de JSON dans la réponse : " + Take(t, 200))
    case Some(span) =>
      match loads(span)
      case None => Err("JSONDecodeError")
      case Some(j) => Ok(j)
  }

  /** A reply fenced as ```json is parsed as the document inside the fence. */
  lemma ParseFencedReply(doc: string, loads: string -> Option<Json>)
    requires |doc| >= 1 && IsOpener(doc[0]) && IsCloser(doc[|doc| - 1])
    ensures loads(doc).Some? ==> ParseResponse("```json\n" + doc + "\n```", loads) == Ok(loads(doc).value)
    ensures loads(doc).None? ==> ParseResponse("```json\n" + doc + "\n```", loads).Err?
  {
    CleanFencesRoundTrip(doc);
    JsonSpanInContext("", doc, "");
    assert "" + doc + "" == doc;
  }

  // ---------------------------------------------------------------------------
  // Requests and results

  datatype Pass = PreAnalysis | DeepAnalysis | BlindAnalysis

  /** What is sent for one unit: the pass (which fixes the system prompt),
      the model, the uploaded file's name, and the start timecode the offset
      note announces (present only for a unit starting after 0). */
  datatype Request = Request(pass: Pass, model: string, file: string, offset: Option<string>)

  type Gemini = (Request, nat) -> Attempt<string>

  type Loads = string -> Option<Json>

  /** The offset note's timecode: `_fmt_tc`-style rendering of `int(start_s)`
      when `start_s > 0`. */
  function OffsetNote(start: int): Option<string> {
    if start > 0 then Some(FmtTc(start)) else None
  }

  /** The note names exactly the unit's start: its three fields read back as
      hours, minutes and seconds that add up to it. */
  lemma OffsetNoteReadsBack(start: int)
    ensures OffsetNote(start).Some? <==> start > 0
    ensures start > 0 ==>
      var p := Split(OffsetNote(start).value, ':');
      && |p| == 3
      && ParseInt(p[0]).Some? && ParseInt(p[1]).Some? && ParseInt(p[2]).Some?
      && ParseInt(p[0]).value * 3600 + ParseInt(p[1]).value * 60 + ParseInt(p[2]).value == start
      && 0 <= ParseInt(p[1]).value < 60 && 0 <= ParseInt(p[2]).value < 60
  {
    if start > 0 {
      FmtTcReadBack(start);
    }
  }

  /** The `_meta` dict added to every analysis result. */
  function Meta(model: string, file: string, start: int, blind: bool): Record {
    var base := map["model" := Str(model), "proxy_file" := Str(file), "start_s" := Num(start)];
    if blind then base["pass" := Str("blind")] else base
  }

  /** `result["_meta"] = meta`: fine on a dict, a `TypeError` on a list. */
  function Annotate(j: Json, meta: Record): (r: Attempt<Json>)
    ensures r.Succeeded? <==> j.Obj?
    ensures r.Succeeded? ==>
      && r.value.Obj?
      && r.value.fields.Keys == j.fields.Keys + {"_meta"}
      && r.value.fields["_meta"] == Obj(meta)
      && forall k :: k in j.fields && k != "_meta" ==> r.value.fields[k] == j.fields[k]
  {
    if j.Obj? then Succeeded(Obj(j.fields["_meta" := Obj(meta)]))
    else Raised("TypeError: the parsed document is not a dict")
  }

  /** The attempt's reply holds a JSON document that is an object. */
  predicate RepliesWithObject(gemini: Gemini, loads: Loads, req: Request, attempt: nat) {
    && gemini(req, attempt).Succeeded?
    && ParseResponse(gemini(req, attempt).value, loads).Ok?
    && ParseResponse(gemini(req, attempt).value, loads).value.Obj?
  }

  /** An attempt of an annotating pass: it succeeds exactly when the reply
      holds a JSON object, which comes back carrying `meta` under `_meta`. */
  function AskAnnotated(gemini: Gemini, loads: Loads, req: Request, attempt: nat, meta: Record): (r: Attempt<Json>)
    ensures r.Succeeded? <==> RepliesWithObject(gemini, loads, req, attempt)
    ensures r.Succeeded? ==> r.value.Obj? && "_meta" in r.value.fields && r.value.fields["_meta"] == Obj(meta)
  {
    match gemini(req, attempt)
    case Raised(e) => Raised(e)
    case Succeeded(text) => AnnotateParsed(ParseResponse(text, loads), meta)
  }

  /** The outcome of an annotating attempt whose reply parsed to `p`. */
  function AnnotateParsed(p: Result<Json>, meta: Record): (r: Attempt<Json>)
    ensures r.Succeeded? <==> p.Ok? && p.value.Obj?
    ensures r.Succeeded? ==> r.value.Obj? && "_meta" in r.value.fields && r.value.fields["_meta"] == Obj(meta)
  {
    match p
    case Err(e) => Raised(e)
    case Ok(j) => Annotate(j, meta)
  }

  /** `preanalyze_video` on the sample: the parsed document, whatever its
      kind, not annotated. */
  function Preanalyze(cfg: Config, gemini: Gemini, loads: Loads, sample: string, attempt: nat): (r: Attempt<Json>)
    ensures var reply := gemini(Request(PreAnalysis, cfg.modelPreanalysis, Name(sample), None), attempt);
      r.Succeeded? <==> reply.Succeeded? && ParseResponse(reply.value, loads).Ok?
    ensures var reply := gemini(Request(PreAnalysis, cfg.modelPreanalysis, Name(sample), None), attempt);
      r.Succeeded? ==> ParseResponse(reply.value, loads) == Ok(r.value)
  {
    match gemini(Request(PreAnalysis, cfg.modelPreanalysis, Name(sample), None), attempt)
    case Raised(e) => Raised(e)
    case Succeeded(text) =>
      match ParseResponse(text, loads)
      case Err(e) => Raised(e)
      case Ok(j) => Succeeded(j)
  }

  /** `analyze_segment(path, start_s)` with the default model: a successful
      attempt yields the reply's object plus `_meta` naming the model, the
      proxy's file name and the start. */
  function AnalyzeSegment(cfg: Config, gemini: Gemini, loads: Loads, path: string, start: int, attempt: nat)
    : (r: Attempt<Json>)
    ensures r.Succeeded? <==>
      RepliesWithObject(gemini, loads, Request(DeepAnalysis, cfg.modelAnalysis, Name(path), OffsetNote(start)), attempt)
    ensures r.Succeeded? ==> (
      && r.value.Obj? && "_meta" in r.value.fields
      && r.value.fields["_meta"] == Obj(Meta(cfg.modelAnalysis, Name(path), start, false)))
  {
    var req := Request(DeepAnalysis, cfg.modelAnalysis, Name(path), OffsetNote(start));
    AskAnnotated(gemini, loads, req, attempt, Meta(cfg.modelAnalysis, Name(path), start, false))
  }

  /** `analyze_segment_blind`. `model or config.MODEL_BLIND_PASS` reads a
      configuration attribute that may not exist: then every attempt raises
      before anything is uploaded. */
  function AnalyzeSegmentBlind(cfg: Config, gemini: Gemini, loads: Loads, path: string, start: int, attempt: nat)
    : (r: Attempt<Json>)
    ensures cfg.modelBlind.None? ==> r == Raised(MissingBlindModel)
    ensures cfg.modelBlind.Some? ==>
      && (r.Succeeded? <==>
           RepliesWithObject(gemini, loads, Request(BlindAnalysis, cfg.modelBlind.value, Name(path), OffsetNote(start)), attempt))
      && (r.Succeeded? ==> (
           && r.value.Obj? && "_meta" in r.value.fields
           && r.value.fields["_meta"] == Obj(Meta(cfg.modelBlind.value, Name(path), start, true))))
  {
    match cfg.modelBlind
    case None => Raised(MissingBlindModel)
    case Some(model) =>
      var req := Request(BlindAnalysis, model, Name(path), OffsetNote(start));
      AskAnnotated(gemini, loads, req, attempt, Meta(model, Name(path), start, true))
  }

  const MissingBlindModel: string := "module 'config' has no attribute 'MODEL_BLIND_PASS'"

  /** With the shipped configuration the blind pass can never succeed,
      whatever the remote model would answer. */
  lemma BlindPassAlwaysFailsAsShipped(gemini: Gemini, loads: Loads, path: string, start: int, attempt: nat)
    ensures AnalyzeSegmentBlind(Shipped, gemini, loads, path, start, attempt).Raised?
  {
  }

  // ---------------------------------------------------------------------------
  // merge_chunk_results

  /** `seg.get("tc_start", "")` as the set of seen starts holds it: `True`
      and `1` are one start. */
  function TcKey(seg: Record): (k: Json)
    ensures PyEquals(k, Get(seg, "tc_start", Str("")))
  {
    HashKey(Get(seg, "tc_start", Str("")))
  }

  /** A chunk result the merge loop reads through: a dict whose segments
      iterate as dicts, each with a start timecode that can go into a set. */
  predicate Mergeable(j: Json) {
    && j.Obj?
    && SegmentList(j.fields).Ok?
    && forall k :: 0 <= k < |SegmentList(j.fields).value| ==>
         !Unhashable(Get(SegmentList(j.fields).value[k], "tc_start", Str("")))
  }

  predicate AllMergeable(rs: seq<Json>) {
    forall i :: 0 <= i < |rs| ==> Mergeable(rs[i])
  }

  /** All segments of all results, in chunk order. */
  function AllSegments(rs: seq<Json>): (all: seq<Record>)
    requires AllMergeable(rs)
    ensures |rs| > 0 ==> all == SegmentList(rs[0].fields).value + AllSegments(rs[1..])
  {
    if |rs| == 0 then [] else SegmentList(rs[0].fields).value + AllSegments(rs[1..])
  }

  /** `merge_chunk_results`: a single result is returned as it is, whatever
      it holds; no result at all is an `IndexError`; several raise unless
      every one is mergeable, and are then merged as `MergeSeveral` states. */
  function Merge(rs: seq<Json>): (r: Result<Json>)
    ensures r.Err? <==> |rs| == 0 || (|rs| > 1 && !AllMergeable(rs))
    ensures |rs| == 1 ==> r == Ok(rs[0])
    ensures |rs| > 1 && AllMergeable(rs) ==> r == Ok(MergeSeveral(rs))
  {
    if |rs| == 0 then Err("IndexError: list index out of range")
    else if |rs| == 1 then Ok(rs[0])
    else if !AllMergeable(rs) then Err("AttributeError or TypeError: a chunk result, segment or start cannot be read")
    else Ok(MergeSeveral(rs))
  }

  /** Several mergeable results give a record with exactly the profile of
      the first chunk, the observations of the last chunk, and the segments
      of all chunks in order with only the first segment kept for each start
      timecode. */
  function MergeSeveral(rs: seq<Json>): (m: Json)
    requires |rs| > 1 && AllMergeable(rs)
    ensures IsAnalysis(m)
    ensures m.fields.Keys == {"video_profil", "segments", "observations_globales"}
    ensures m.fields["video_profil"] == Get(rs[0].fields, "video_profil", Empty)
    ensures m.fields["observations_globales"] == Get(rs[|rs| - 1].fields, "observations_globales", Empty)
    ensures Segments(m.fields) == DedupBy(AllSegments(rs), TcKey, {})
  {
    var segs := DedupBy(AllSegments(rs), TcKey, {});
    var base: Record := map["video_profil" := Get(rs[0].fields, "video_profil", Empty),
                            "observations_globales" := Get(rs[|rs| - 1].fields, "observations_globales", Empty)];
    SegmentsToArr(base, segs);
    Obj(base["segments" := ToArr(segs)])
  }

  /** The merged segments are the first segment of each start timecode, in
      the order the start timecodes first appear across the chunks: a
      sub-sequence of all segments, with distinct starts, the same set of
      starts, each the first with its start, and ordered by first
      appearance. */
  lemma MergedSegments(rs: seq<Json>)
    requires |rs| > 1 && AllMergeable(rs)
    ensures var segs := Segments(MergeSeveral(rs).fields);
      var all := AllSegments(rs);
      && IsSubseq(segs, all)
      && DistinctKeys(segs, TcKey)
      && KeysOf(segs, TcKey) == KeysOf(all, TcKey)
      && (forall i :: 0 <= i < |segs| ==> FirstWithKey(all, TcKey, TcKey(segs[i])) == Some(segs[i]))
      && (forall i, j :: 0 <= i < j < |segs| ==> KeyIndex(all, TcKey, TcKey(segs[i])) < KeyIndex(all, TcKey, TcKey(segs[j])))
  {
    DedupByOrder(AllSegments(rs), TcKey, {});
  }

  /** When no two segments share a start timecode (no overlap duplicates),
      merging keeps every segment in order. */
  lemma MergeKeepsDistinctSegments(rs: seq<Json>)
    requires |rs| > 1 && AllMergeable(rs)
    requires DistinctKeys(AllSegments(rs), TcKey)
    ensures Segments(MergeSeveral(rs).fields) == AllSegments(rs)
  {
    DedupByDistinct(AllSegments(rs), TcKey, {});
  }

  /** A segment repeated in the overlap of two chunks appears once. */
  lemma MergeDropsOverlapRepeat(rs: seq<Json>, i: nat, j: nat)
    requires |rs| > 1 && AllMergeable(rs)
    requires i < j < |AllSegments(rs)| && TcKey(AllSegments(rs)[i]) == TcKey(AllSegments(rs)[j])
    ensures |Segments(MergeSeveral(rs).fields)| < |AllSegments(rs)|
  {
    DedupByDropsRepeat(AllSegments(rs), TcKey, i, j);
  }

  /** Merging the merged record with nothing else returns it unchanged, so
      merging is idempotent on its own output. */
  lemma MergeAgain(rs: seq<Json>)
    requires Merge(rs).Ok?
    ensures Merge([Merge(rs).value]) == Merge(rs)
  {
  }
}

=== FILE: config.dfy ===
/** The pipeline's tunable constants, passed around as one immutable value
    instead of module globals. */
module Config {
  import opened Wrappers

  datatype Config = Config(
    chunkDuration: int,            // longest chunk sent for analysis, seconds
    chunkOverlap: int,             // seconds shared by consecutive chunks
    maxRetries: nat,               // attempts per unit of work
    retryBackoff: seq<nat>,        // sleep after failed attempt k is retryBackoff[k - 1]
    videoExtensions: set<string>,  // lower-case suffixes accepted as input videos
    modelPreanalysis: string,      // model of the pre-analysis pass
    modelAnalysis: string,         // model of the primary analysis pass
    modelBlind: Option<string>     // the blind pass's model attribute; None when undefined
  )

  /** The constraints the code silently relies on: chunks advance
      (`overlap < duration`) and the backoff list is long enough for every
      attempt that sleeps (`RETRY_BACKOFF[attempt - 1]` for `attempt < MAX_RETRIES`). */
  predicate Valid(c: Config) {
    && 0 <= c.chunkOverlap < c.chunkDuration
    && |c.retryBackoff| + 1 >= c.maxRetries
  }

  const VideoExtensions: set<string> :=
    {".mp4", ".mov", ".avi", ".mkv", ".mpg", ".mpeg", ".m4v", ".mts"}

  /** The constants as shipped. The blind pass reads `config.MODEL_BLIND_PASS`,
      which the configuration file does not define. */
  const Shipped: Config := Config(50 * 60, 30, 3, [30, 90, 270], VideoExtensions,
                                  "gemini-2.5-flash", "gemini-3-flash-preview", None)

  lemma ShippedValid()
    ensures Valid(Shipped)
    ensures Shipped.chunkDuration == 3000 && Shipped.chunkOverlap == 30
  {
  }
}

=== FILE: enrich.dfy ===
/** `enrich_with_blind` (vhs_analyzer.py): the segments of each primary
    analysis receive the blind pass's observations for the same start
    timecode. */
module Enrich {
  import opened Wrappers
  import opened Seqs
  import opened Json

  /** `seg.get("tc_start")`: absent reads as `None`. */
  function TcOf(seg: Record): Json {
    Get(seg, "tc_start", Null)
  }

  /** The dict key a start timecode is filed and looked up under: `True`
      and `1` are one key. */
  function StartKey(seg: Record): (k: Json)
    ensures PyEquals(k, TcOf(seg))
  {
    HashKey(TcOf(seg))
  }

  /** A start timecode the loops can use: a falsy one is skipped before it
      is hashed, a truthy one has to be hashable. */
  predicate UsableStart(seg: Record) {
    !Truthy(TcOf(seg)) || !Unhashable(TcOf(seg))
  }

  predicate AllUsableStarts(segs: seq<Record>) {
    forall i :: 0 <= i < |segs| ==> UsableStart(segs[i])
  }

  /** The three fields a matched segment receives. */
  const BlindKeys: set<string> := {"blind_ce_qui_me_retient", "blind_tension_visible", "blind_description_pure"}

  /** `{s["tc_start"]: s for s in segments if s.get("tc_start")}`: built in
      order, so a later segment replaces an earlier one with an equal key;
      a truthy start that is a list or a dict raises `TypeError`. */
  function BlindIndex(segs: seq<Record>): (r: Result<map<Json, Record>>)
    ensures r.Ok? <==> AllUsableStarts(segs)
    ensures r.Ok? ==> forall k :: k in r.value ==> Truthy(k) && !Unhashable(k)
    decreases |segs|
  {
    if |segs| == 0 then Ok(map[])
    else
      var init := segs[..|segs| - 1];
      var s := segs[|segs| - 1];
      assert forall i :: 0 <= i < |init| ==> init[i] == segs[i];
      var m :- BlindIndex(init);
      if !Truthy(TcOf(s)) then Ok(m)
      else if Unhashable(TcOf(s)) then Err("TypeError: unhashable type")
      else Ok(m[StartKey(s) := s])
  }

  /** The index holds exactly the keys of the truthy start timecodes of the
      blind segments. */
  lemma {:induction false} BlindIndexKeys(segs: seq<Record>)
    requires AllUsableStarts(segs)
    ensures forall k :: k in BlindIndex(segs).value <==> Truthy(k) && k in KeysOf(segs, StartKey)
    decreases |segs|
  {
    if |segs| > 0 {
      var init := segs[..|segs| - 1];
      assert forall i :: 0 <= i < |init| ==> init[i] == segs[i];
      BlindIndexKeys(init);
      assert segs == init + [segs[|segs| - 1]];
      KeysOfAppend(init, [segs[|segs| - 1]], StartKey);
    }
  }

  /** For a key, the blind segment kept is the last one carrying a start
      equal to it. */
  lemma {:induction false} BlindIndexLastWins(segs: seq<Record>, i: nat)
    requires AllUsableStarts(segs)
    requires i < |segs| && Truthy(TcOf(segs[i]))
    requires forall j :: i < j < |segs| ==> StartKey(segs[j]) != StartKey(segs[i])
    ensures StartKey(segs[i]) in BlindIndex(segs).value && BlindIndex(segs).value[StartKey(segs[i])] == segs[i]
    decreases |segs|
  {
    var init := segs[..|segs| - 1];
    assert forall j :: 0 <= j < |init| ==> init[j] == segs[j];
    if i < |segs| - 1 {
      assert init[i] == segs[i];
      BlindIndexLastWins(init, i);
    }
  }

  /** The three `blind_*` assignments, each copied with `b.get(...)`. */
  function AddBlind(seg: Record, b: Record): Record {
    seg["blind_ce_qui_me_retient" := Get(b, "ce_qui_me_retient", Null)]
       ["blind_tension_visible" := Get(b, "tension_visible", Null)]
       ["blind_description_pure" := Get(b, "description_pure", Null)]
  }

  /** The segment matches when its start timecode is truthy and equal to an
      indexed one. */
  predicate Matches(seg: Record, index: map<Json, Record>) {
    Truthy(TcOf(seg)) && StartKey(seg) in index
  }

  /** One primary segment: `tc in blind_by_tc` raises on a truthy start that
      cannot be hashed; a matched segment gains exactly the three blind
      fields, copied from its blind counterpart; everything else in it, and
      every unmatched segment, stays as it was. */
  function EnrichSegment(seg: Record, index: map<Json, Record>): (r: Result<Record>)
    ensures r.Err? <==> !UsableStart(seg)
    ensures r.Ok? && !Matches(seg, index) ==> r.value == seg
    ensures r.Ok? && Matches(seg, index) ==>
      && r.value.Keys == seg.Keys + BlindKeys
      && r.value["blind_ce_qui_me_retient"] == Get(index[StartKey(seg)], "ce_qui_me_retient", Null)
      && r.value["blind_tension_visible"] == Get(index[StartKey(seg)], "tension_visible", Null)
      && r.value["blind_description_pure"] == Get(index[StartKey(seg)], "description_pure", Null)
    ensures r.Ok? ==> forall k :: k in seg && k !in BlindKeys ==> k in r.value && r.value[k] == seg[k]
    ensures r.Ok? ==> TcOf(r.value) == TcOf(seg)
  {
    if !UsableStart(seg) then Err("TypeError: unhashable type")
    else if Matches(seg, index) then Ok(AddBlind(seg, index[StartKey(seg)]))
    else Ok(seg)
  }

  /** Enriching a segment a second time with the same index changes nothing. */
  lemma EnrichSegmentTwice(seg: Record, index: map<Json, Record>)
    requires UsableStart(seg)
    ensures EnrichSegment(EnrichSegment(seg, index).value, index) == EnrichSegment(seg, index)
  {
    if Matches(seg, index) {
      var b := index[StartKey(seg)];
      var once := AddBlind(seg, b);
      assert TcOf(once) == TcOf(seg);
      assert Matches(once, index);
      assert AddBlind(once, b) == once;
    }
  }

  /** The segment loop: every segment enriched on its own, in order. */
  function EnrichAll(segs: seq<Record>, index: map<Json, Record>): (r: Result<seq<Record>>)
    ensures r.Ok? <==> AllUsableStarts(segs)
    ensures r.Ok? ==> |r.value| == |segs| && forall i :: 0 <= i < |segs| ==> Ok(r.value[i]) == EnrichSegment(segs[i], index)
  {
    MapAll(segs, (seg: Record) => EnrichSegment(seg, index))
  }

  /** Both sides of an enrichment can be read through: the blind result and
      the analysis are dicts whose segments iterate as dicts, and every
      truthy start timecode on either side is hashable. */
  predicate Enrichable(analysis: Json, blind: Json) {
    && blind.Obj? && SegmentList(blind.fields).Ok? && AllUsableStarts(SegmentList(blind.fields).value)
    && analysis.Obj? && SegmentList(analysis.fields).Ok? && AllUsableStarts(SegmentList(analysis.fields).value)
  }

  /** The blind segments of an enrichable pair, indexed by start. */
  function IndexOf(blind: Json): (m: map<Json, Record>)
    requires blind.Obj? && SegmentList(blind.fields).Ok? && AllUsableStarts(SegmentList(blind.fields).value)
    ensures forall k :: k in m <==> Truthy(k) && k in KeysOf(SegmentList(blind.fields).value, StartKey)
  {
    BlindIndexKeys(SegmentList(blind.fields).value);
    BlindIndex(SegmentList(blind.fields).value).value
  }

  /** One analysis against the blind result for the same video. A falsy
      blind result leaves the analysis as it is; otherwise the pair must be
      enrichable (else `.get`, the loop or a dict lookup raises). The
      segments keep their number and order, each enriched on its own; a
      segments entry that is not a list (an empty string or dict) and every
      other field of the analysis stay as they were. */
  function EnrichAnalysis(analysis: Json, blind: Json): (r: Result<Json>)
    ensures !Truthy(blind) ==> r == Ok(analysis)
    ensures Truthy(blind) ==> (r.Ok? <==> Enrichable(analysis, blind))
    ensures r.Ok? && Truthy(blind) ==>
      && r.value.Obj?
      && r.value.fields.Keys == analysis.fields.Keys
      && (forall k :: k in analysis.fields && k != "segments" ==> r.value.fields[k] == analysis.fields[k])
      && ("segments" in analysis.fields && !analysis.fields["segments"].Arr? ==> r.value == analysis)
      && SegmentList(r.value.fields) == EnrichAll(SegmentList(analysis.fields).value, IndexOf(blind))
  {
    if !Truthy(blind) then Ok(analysis)
    else if !Enrichable(analysis, blind) then Err("AttributeError or TypeError: a value that cannot be read")
    else
      var segs := EnrichAll(SegmentList(analysis.fields).value, IndexOf(blind)).value;
      if "segments" in analysis.fields && analysis.fields["segments"].Arr? then
        SegmentListToArr(analysis.fields, segs);
        Ok(Obj(analysis.fields["segments" := ToArr(segs)]))
      else
        Ok(analysis)
  }

  /** Enriching an already enriched analysis with the same blind result
      gives it back unchanged. */
  lemma EnrichAnalysisIdempotent(analysis: Json, blind: Json)
    requires EnrichAnalysis(analysis, blind).Ok?
    ensures EnrichAnalysis(EnrichAnalysis(analysis, blind).value, blind) == EnrichAnalysis(analysis, blind)
  {
    if Truthy(blind) && "segments" in analysis.fields && analysis.fields["segments"].Arr? {
      var index := IndexOf(blind);
      var once := EnrichAnalysis(analysis, blind).value;
      var segs := SegmentList(analysis.fields).value;
      var e1 := EnrichAll(segs, index).value;
      assert SegmentList(once.fields) == Ok(e1);
      forall i | 0 <= i < |e1| ensures UsableStart(e1[i]) {
        assert TcOf(e1[i]) == TcOf(segs[i]);
      }
      assert Enrichable(once, blind);
      var e2 := EnrichAll(e1, index).value;
      forall i | 0 <= i < |segs| ensures e2[i] == e1[i] {
        EnrichSegmentTwice(segs[i], index);
      }
      assert e2 == e1;
      assert once.fields["segments" := ToArr(e2)] == once.fields;
    }
  }

  /** The enrichment of the video named `name` against its blind entry
      (`all_blind.get(name, {})`). */
  function EnrichEntry(analyses: map<string, Json>, blind: map<string, Json>, name: string): Result<Json>
    requires name in analyses
  {
    EnrichAnalysis(analyses[name], Get(blind, name, Empty))
  }

  /** `enrich_with_blind(all_analyses, all_blind)`, the videos visited in
      `order` (the dict's insertion order). It raises exactly when some
      video's analysis and truthy blind entry are not enrichable. Every
      video keeps its entry; a video with no blind entry, or a falsy one,
      is untouched; any other is enriched as `EnrichAnalysis` describes. */
  function EnrichWithBlind(order: seq<string>, analyses: map<string, Json>, blind: map<string, Json>)
    : (r: Result<map<string, Json>>)
    requires forall i :: 0 <= i < |order| ==> order[i] in analyses
    requires forall i, j :: 0 <= i < j < |order| ==> order[i] != order[j]
    ensures r.Ok? ==> forall i :: 0 <= i < |order| ==> EnrichEntry(analyses, blind, order[i]).Ok?
    ensures r.Ok? ==> r.value.Keys == analyses.Keys
    ensures r.Ok? ==> forall i :: 0 <= i < |order| ==> r.value[order[i]] == EnrichEntry(analyses, blind, order[i]).value
    ensures r.Ok? ==> forall name :: name in analyses && name !in order ==> r.value[name] == analyses[name]
    decreases |order|
  {
    if |order| == 0 then Ok(analyses)
    else
      var name := order[0];
      var e :- EnrichEntry(analyses, blind, name);
      var next := analyses[name := e];
      EnrichOrderTail(order, analyses, next);
      assert forall i :: 1 <= i < |order| ==> EnrichEntry(next, blind, order[i]) == EnrichEntry(analyses, blind, order[i]);
      EnrichWithBlind(order[1..], next, blind)
  }

  /** The enrichment goes through when every video's own enrichment does:
      with the contract above, it raises exactly when some video's does. */
  lemma {:induction false} EnrichWithBlindSucceeds(order: seq<string>, analyses: map<string, Json>, blind: map<string, Json>)
    requires forall i :: 0 <= i < |order| ==> order[i] in analyses
    requires forall i, j :: 0 <= i < j < |order| ==> order[i] != order[j]
    requires forall i :: 0 <= i < |order| ==> EnrichEntry(analyses, blind, order[i]).Ok?
    ensures EnrichWithBlind(order, analyses, blind).Ok?
    decreases |order|
  {
    if |order| > 0 {
      var e := EnrichEntry(analyses, blind, order[0]).value;
      var next := analyses[order[0] := e];
      EnrichOrderTail(order, analyses, next);
      assert forall i :: 1 <= i < |order| ==> EnrichEntry(next, blind, order[i]) == EnrichEntry(analyses, blind, order[i]);
      EnrichWithBlindSucceeds(order[1..], next, blind);
    }
  }

  /** A video without a truthy blind entry keeps its analysis. */
  lemma EnrichWithBlindSkips(order: seq<string>, analyses: map<string, Json>, blind: map<string, Json>, name: string)
    requires forall i :: 0 <= i < |order| ==> order[i] in analyses
    requires forall i, j :: 0 <= i < j < |order| ==> order[i] != order[j]
    requires EnrichWithBlind(order, analyses, blind).Ok?
    requires name in analyses && !Truthy(Get(blind, name, Empty))
    ensures EnrichWithBlind(order, analyses, blind).value[name] == analyses[name]
  {
    if name in order {
      var i :| 0 <= i < |order| && order[i] == name;
      assert EnrichEntry(analyses, blind, order[i]) == Ok(analyses[name]);
    }
  }

  /** After the first video is enriched, the rest of the order still names
      distinct videos whose analyses are the original ones. */
  lemma EnrichOrderTail(order: seq<string>, analyses: map<string, Json>, next: map<string, Json>)
    requires |order| > 0 && forall i, j :: 0 <= i < j < |order| ==> order[i] != order[j]
    requires forall i :: 0 <= i < |order| ==> order[i] in analyses
    requires next.Keys == analyses.Keys && forall k :: k in analyses && k != order[0] ==> next[k] == analyses[k]
    ensures forall i :: 0 <= i < |order[1..]| ==> order[1..][i] in next && next[order[1..][i]] == analyses[order[1..][i]]
    ensures forall i :: 1 <= i < |order| ==> order[i] == order[1..][i - 1] && order[i] != order[0]
    ensures forall i, j :: 0 <= i < j < |order[1..]| ==> order[1..][i] != order[1..][j]
  {
    assert forall i :: 0 <= i < |order[1..]| ==> order[1..][i] == order[i + 1];
  }
}

=== FILE: fcpxml.dfy ===
/** The data behind a Final Cut Pro timeline (export_fcpxml.py): timecodes
    as rational frame counts, one marker per segment that has a start
    timecode, with its colour class, title and note, and the sequence
    duration. The XML tree and the file it is written to are not modelled;
    a timeline is the list of markers and the duration attribute. The frame
    rate is a whole number of frames per second. */
module Fcpxml {
  import opened Wrappers
  import opened Strings
  import opened Json
  import opened Seqs
  import opened Preprocess

  // ---------------------------------------------------------------------------
  // Timecodes and rational times

  /** Python's `int(field)`: surrounding whitespace is allowed. */
  function IntField(s: string): Option<int> {
    ParseInt(Strip(s))
  }

  /** `h * 3600 + m * 60 + s` for three fields that all read as integers. */
  function FieldsValue(h: string, m: string, s: string): (r: Option<int>)
  {
    if IntField(h).Some? && IntField(m).Some? && IntField(s).Some? then
      Some(IntField(h).value * 3600 + IntField(m).value * 60 + IntField(s).value)
    else None
  }

  /** `m * 60 + s` for two fields that both read as integers. */
  function MinSecValue(m: string, s: string): (r: Option<int>)
  {
    if IntField(m).Some? && IntField(s).Some? then Some(IntField(m).value * 60 + IntField(s).value)
    else None
  }

  /** The seconds `_tc_to_rational` reads: `HH:MM:SS`, or `MM:SS`, or 0
      for any other number of fields; `None` when a field is not an
      integer (Python raises `ValueError`). */
  function TcSeconds(tc: string): (r: Option<int>)
  {
    var parts := Split(Strip(tc), ':');
    if |parts| == 3 then FieldsValue(parts[0], parts[1], parts[2])
    else if |parts| == 2 then MinSecValue(parts[0], parts[1])
    else Some(0)
  }

  /** The seconds `_duration_rational` reads: only `HH:MM:SS` is read, any
      other number of fields counts as 0. */
  function ToS(tc: string): (r: Option<int>)
  {
    var parts := Split(Strip(tc), ':');
    if |parts| == 3 then FieldsValue(parts[0], parts[1], parts[2]) else Some(0)
  }

  /** `f"{frames}/{int(fps)}s"`. */
  function Frac(frames: int, fps: nat): string {
    IntToString(frames) + "/" + NatToString(fps) + "s"
  }

  /** The rational form of `_tc_to_rational`: `"0s"` for no frames. */
  function Rational(frames: int, fps: nat): string {
    if frames > 0 then Frac(frames, fps) else "0s"
  }

  /** `_tc_to_rational(tc, fps)`: the frame count of the timecode, as a
      rational time; it raises exactly when a field is not an integer. */
  function TcToRational(tc: string, fps: nat): (r: Result<string>)
    ensures r.Ok? <==> TcSeconds(tc).Some?
  {
    match TcSeconds(tc)
    case Some(t) => Ok(Rational(t * fps, fps))
    case None => Err("ValueError: invalid literal for int()")
  }

  lemma NatToStringNoSlash(n: nat)
    ensures '/' !in NatToString(n) && ':' !in NatToString(n)
  {
    var s := NatToString(n);
    assert forall i :: 0 <= i < |s| ==> IsDigit(s[i]);
  }

  /** A rational time reads back: its numerator is the frame count and its
      denominator the frame rate; no frames reads as `"0s"`. */
  lemma FracReadsBack(frames: nat, fps: nat)
    ensures var parts := Split(Frac(frames, fps), '/');
      && |parts| == 2
      && ParseInt(parts[0]) == Some(frames)
      && parts[1] == NatToString(fps) + "s"
  {
    var num := IntToString(frames);
    var den := NatToString(fps) + "s";
    NatToStringNoSlash(frames);
    NatToStringNoSlash(fps);
    assert '/' !in den;
    assert Frac(frames, fps) == num + ['/'] + den;
    SplitPrefix(num, '/', den);
    SplitNoSep(den, '/');
    IntToStringRoundTrip(frames);
  }

  /** Distinct positive frame counts give distinct rational times, and none
      of them is `"0s"`. */
  lemma RationalInjective(a: int, b: int, fps: nat)
    requires a > 0 && b > 0 && Rational(a, fps) == Rational(b, fps)
    ensures a == b
  {
    FracReadsBack(a, fps);
    FracReadsBack(b, fps);
  }

  lemma RationalZero(frames: int, fps: nat)
    ensures Rational(frames, fps) == "0s" <==> frames <= 0
  {
    if frames > 0 {
      FracReadsBack(frames, fps);
      assert Split("0s", '/') == ["0s"] by { SplitNoSep("0s", '/'); }
    }
  }

  // ---------------------------------------------------------------------------
  // Timecodes written by `_fmt_tc` read back

  lemma PadNatDigits(n: nat, width: nat)
    ensures AllDigits(PadInt(n, width))
  {
    var d := NatToString(n);
    var k := if |d| < width then width - |d| else 0;
    assert PadInt(n, width) == Zeros(k) + d;
    LeadingZerosValue(k, d);
  }

  /** Text whose ends are not whitespace is left as it is by `strip()`. */
  lemma StripKeeps(s: string)
    requires |s| > 0 && !IsSpace(s[0]) && !IsSpace(s[|s| - 1])
    ensures Strip(s) == s
  {
  }

  /** A field of digits reads as its value. */
  lemma DigitsField(s: string)
    requires |s| > 0 && AllDigits(s)
    ensures IntField(s) == ParseInt(s) == Some(DigitsValue(s))
  {
    assert !IsSpace(s[0]) && !IsSpace(s[|s| - 1]);
    StripKeeps(s);
  }

  /** Three digit fields joined by colons read as hours, minutes and seconds. */
  lemma ReadThree(a: string, b: string, c: string)
    requires |a| > 0 && |b| > 0 && |c| > 0 && AllDigits(a) && AllDigits(b) && AllDigits(c)
    ensures Strip(a + ":" + b + ":" + c) == a + ":" + b + ":" + c
    ensures Split(a + ":" + b + ":" + c, ':') == [a, b, c]
    ensures TcSeconds(a + ":" + b + ":" + c) == FieldsValue(a, b, c)
  {
    var tc := a + ":" + b + ":" + c;
    assert tc[0] == a[0] && tc[|tc| - 1] == c[|c| - 1];
    assert !IsSpace(tc[0]) && !IsSpace(tc[|tc| - 1]);
    StripKeeps(tc);
    assert ':' !in a && ':' !in b && ':' !in c by {
      assert !IsDigit(':');
    }
    SplitThree(a, b, c);
  }

  /** `_duration_rational` reads three digit fields as `_tc_to_rational` does. */
  lemma ReadThreeToS(a: string, b: string, c: string)
    requires |a| > 0 && |b| > 0 && |c| > 0 && AllDigits(a) && AllDigits(b) && AllDigits(c)
    ensures ToS(a + ":" + b + ":" + c) == FieldsValue(a, b, c)
  {
    ReadThree(a, b, c);
  }

  /** A padded non-negative number is a digit field reading as itself. */
  lemma PadField(n: nat)
    ensures |PadInt(n, 2)| > 0 && AllDigits(PadInt(n, 2))
    ensures IntField(PadInt(n, 2)) == Some(n)
  {
    PadNatDigits(n, 2);
    PadIntRoundTrip(n, 2);
    DigitsField(PadInt(n, 2));
  }

  lemma FieldsOf(a: string, b: string, c: string, h: int, m: int, s: int, total: int)
    requires IntField(a) == Some(h) && IntField(b) == Some(m) && IntField(c) == Some(s)
    requires total == h * 3600 + m * 60 + s
    ensures FieldsValue(a, b, c) == Some(total)
  {
  }

  lemma MinSecOf(a: string, b: string, m: int, s: int, total: int)
    requires IntField(a) == Some(m) && IntField(b) == Some(s)
    requires total == m * 60 + s
    ensures MinSecValue(a, b) == Some(total)
  {
  }

  /** Three padded non-negative fields read as hours, minutes and seconds. */
  lemma ReadPadded(h: nat, m: nat, s: nat, total: int)
    requires total == h * 3600 + m * 60 + s
    ensures Split(PadInt(h, 2) + ":" + PadInt(m, 2) + ":" + PadInt(s, 2), ':') == [PadInt(h, 2), PadInt(m, 2), PadInt(s, 2)]
    ensures FieldsValue(PadInt(h, 2), PadInt(m, 2), PadInt(s, 2)) == Some(total)
    ensures TcSeconds(PadInt(h, 2) + ":" + PadInt(m, 2) + ":" + PadInt(s, 2)) == Some(total)
    ensures ToS(PadInt(h, 2) + ":" + PadInt(m, 2) + ":" + PadInt(s, 2)) == Some(total)
  {
    var a, b, c := PadInt(h, 2), PadInt(m, 2), PadInt(s, 2);
    PadField(h);
    PadField(m);
    PadField(s);
    ReadThree(a, b, c);
    ReadThreeToS(a, b, c);
    FieldsOf(a, b, c, h, m, s, total);
  }

  /** A timecode written for a non-negative second count reads back as
      that count. */
  lemma FmtTcSeconds(seconds: int)
    requires seconds >= 0
    ensures TcSeconds(FmtTc(seconds)) == Some(seconds)
    ensures ToS(FmtTc(seconds)) == Some(seconds)
  {
    var hms := Clock(seconds);
    ReadPadded(hms.0, hms.1, hms.2, seconds);
  }

  /** `_fmt_tc` and `_tc_to_rational` agree: the rational time of a
      written timecode is its seconds times the frame rate. */
  lemma TcToRationalOfFmtTc(seconds: nat, fps: nat)
    ensures TcToRational(FmtTc(seconds), fps) == Ok(Rational(seconds * fps, fps))
  {
    FmtTcSeconds(seconds);
  }

  /** Two digit fields joined by a colon read as minutes and seconds. */
  lemma ReadTwo(a: string, b: string)
    requires |a| > 0 && |b| > 0 && AllDigits(a) && AllDigits(b)
    ensures Strip(a + ":" + b) == a + ":" + b
    ensures Split(a + ":" + b, ':') == [a, b]
    ensures TcSeconds(a + ":" + b) == MinSecValue(a, b)
  {
    var tc := a + ":" + b;
    assert tc[0] == a[0] && tc[|tc| - 1] == b[|b| - 1];
    assert !IsSpace(tc[0]) && !IsSpace(tc[|tc| - 1]);
    StripKeeps(tc);
    assert ':' !in a && ':' !in b by {
      assert !IsDigit(':');
    }
    assert tc == a + [':'] + b;
    SplitPrefix(a, ':', b);
    SplitNoSep(b, ':');
  }

  /** The rational time of a timecode read as `t` seconds. */
  lemma RationalOf(tc: string, t: int, fps: nat, frames: int)
    requires TcSeconds(tc) == Some(t) && frames == t * fps
    ensures TcToRational(tc, fps) == Ok(Rational(frames, fps))
  {
  }

  /** Two padded non-negative fields read as minutes and seconds. */
  lemma ReadPaddedMinutes(m: nat, s: nat, total: int)
    requires total == m * 60 + s
    ensures TcSeconds(PadInt(m, 2) + ":" + PadInt(s, 2)) == Some(total)
  {
    var a, b := PadInt(m, 2), PadInt(s, 2);
    PadField(m);
    PadField(s);
    ReadTwo(a, b);
    MinSecOf(a, b, m, s, total);
  }

  /** A two-field timecode is read as minutes and seconds. */
  lemma TcToRationalMinutes(m: nat, s: nat, fps: nat, seconds: int)
    requires seconds == m * 60 + s
    ensures TcToRational(PadInt(m, 2) + ":" + PadInt(s, 2), fps) == Ok(Rational(seconds * fps, fps))
  {
    ReadPaddedMinutes(m, s, seconds);
    RationalOf(PadInt(m, 2) + ":" + PadInt(s, 2), seconds, fps, seconds * fps);
  }

  /** A two-digit field reads as its value. */
  lemma TwoDigits(s: string, v: int)
    requires |s| == 2 && IsDigit(s[0]) && IsDigit(s[1])
    requires v == DigitValue(s[0]) * 10 + DigitValue(s[1])
    ensures IntField(s) == Some(v)
  {
    assert AllDigits(s);
    DigitsField(s);
    assert s[..1][..0] == "";
    assert DigitsValue(s[..1]) == DigitValue(s[0]);
  }

  /** The worked example of the source: `"00:02:14"` is `"3350/25s"`. */
  lemma TcToRationalExample(tc: string, fps: nat)
    requires tc == "00:02:14" && fps == 25
    ensures TcToRational(tc, fps) == Ok("3350/25s")
  {
    assert tc == "00" + ":" + "02" + ":" + "14";
    ReadThree("00", "02", "14");
    TwoDigits("00", 0);
    TwoDigits("02", 2);
    TwoDigits("14", 14);
    FieldsOf("00", "02", "14", 0, 2, 14, 134);
    RationalOf(tc, 134, fps, 3350);
    FracExample();
  }

  lemma FracExample()
    ensures Frac(3350, 25) == "3350/25s"
  {
    assert NatToString(33) == "33";
    assert NatToString(335) == "335";
    assert NatToString(3350) == "3350";
    assert NatToString(25) == "25";
  }

  // ---------------------------------------------------------------------------
  // _duration_rational

  /** The marker length in seconds: `max(1, to_s(end) - to_s(start))`, the
      end read first; `None` when a field does not read as an integer. */
  function DurationSeconds(tcStart: string, tcEnd: string): (r: Option<int>)
    ensures r.Some? <==> ToS(tcStart).Some? && ToS(tcEnd).Some?
    ensures r.Some? ==> r.value >= 1
  {
    match ToS(tcEnd)
    case None => None
    case Some(e) =>
      match ToS(tcStart)
      case None => None
      case Some(b) => Some(if e - b > 1 then e - b else 1)
  }

  /** `_duration_rational(tc_start, tc_end, fps)`: always a fraction, never
      `"0s"`, of at least one second's worth of frames. */
  function DurationRational(tcStart: string, tcEnd: string, fps: nat): (r: Result<string>)
    ensures r.Ok? <==> DurationSeconds(tcStart, tcEnd).Some?
  {
    match DurationSeconds(tcStart, tcEnd)
    case Some(d) => Ok(Frac(d * fps, fps))
    case None => Err("ValueError: invalid literal for int()")
  }

  lemma DurationOf(tcStart: string, tcEnd: string, fps: nat, d: int)
    requires DurationSeconds(tcStart, tcEnd) == Some(d)
    ensures DurationRational(tcStart, tcEnd, fps) == Ok(Frac(d * fps, fps))
  {
  }

  lemma DurationSecondsOf(tcStart: string, tcEnd: string, b: int, e: int, d: int)
    requires ToS(tcStart) == Some(b) && ToS(tcEnd) == Some(e)
    requires d == if e > b then e - b else 1
    ensures DurationSeconds(tcStart, tcEnd) == Some(d)
  {
  }

  /** Between two written timecodes the duration is the difference in
      seconds, or one second when the end is not after the start. */
  lemma DurationOfTimecodes(a: nat, b: nat, fps: nat, d: int)
    requires d == if b > a then b - a else 1
    ensures DurationRational(FmtTc(a), FmtTc(b), fps) == Ok(Frac(d * fps, fps))
  {
    FmtTcSeconds(a);
    FmtTcSeconds(b);
    DurationSecondsOf(FmtTc(a), FmtTc(b), a, b, d);
    DurationOf(FmtTc(a), FmtTc(b), fps, d);
  }

  /** `MM:SS` timecodes, which `_tc_to_rational` reads as minutes and
      seconds, count as 0 here: a marker between two of them always lasts
      one second. */
  lemma MinutesDurationIsOneSecond(m1: nat, s1: nat, m2: nat, s2: nat, fps: nat)
    ensures DurationRational(PadInt(m1, 2) + ":" + PadInt(s1, 2), PadInt(m2, 2) + ":" + PadInt(s2, 2), fps)
      == Ok(Frac(fps, fps))
  {
    var x, y := PadInt(m1, 2) + ":" + PadInt(s1, 2), PadInt(m2, 2) + ":" + PadInt(s2, 2);
    TwoFields(m1, s1);
    TwoFields(m2, s2);
    assert DurationSeconds(x, y) == Some(1);
    DurationOf(x, y, fps, 1);
  }

  lemma TwoFields(m: nat, s: nat)
    ensures |Split(Strip(PadInt(m, 2) + ":" + PadInt(s, 2)), ':')| == 2
    ensures ToS(PadInt(m, 2) + ":" + PadInt(s, 2)) == Some(0)
  {
    var a, b := PadInt(m, 2), PadInt(s, 2);
    PadField(m);
    PadField(s);
    ReadTwo(a, b);
  }

  // ---------------------------------------------------------------------------
  // _make_marker: colour class

  /** The four markers Final Cut Pro shows: a completed marker (green), a
      to-do marker (red), a chapter marker (orange) and a plain one (blue). */
  datatype MarkerKind = Completed | ToDo | Chapter | Standard

  /** The XML element of each kind and its `completed` attribute. */
  function Element(k: MarkerKind): (e: (string, Option<string>))
    ensures e.0 == "chapter-marker" <==> k == Chapter
  {
    match k
    case Completed => ("marker", Some("1"))
    case ToDo => ("marker", Some("0"))
    case Chapter => ("chapter-marker", None)
    case Standard => ("marker", None)
  }

  /** Each kind is written differently, so the colour in the editor tells
      the kind back. */
  lemma ElementInjective(a: MarkerKind, b: MarkerKind)
    requires Element(a) == Element(b)
    ensures a == b
  {
  }

  predicate IsGlitch(markerType: Json, typePlan: Json) {
    markerType == Str("glitch") || typePlan == Str("glitch")
  }

  predicate IsStrong(markerType: Json, interest: Json) {
    interest == Str("fort") || markerType == Str("todo")
  }

  predicate IsStructural(markerType: Json, typePlan: Json) {
    typePlan == Str("revelation") || typePlan == Str("rupture") || markerType == Str("chapter")
  }

  /** The classification in priority order: a glitch wins over a strong
      shot, which wins over a structural moment; anything else is plain. */
  function Classify(markerType: Json, interest: Json, typePlan: Json): (k: MarkerKind)
    ensures k == Completed <==> IsGlitch(markerType, typePlan)
    ensures k == ToDo <==> !IsGlitch(markerType, typePlan) && IsStrong(markerType, interest)
    ensures k == Chapter <==>
      !IsGlitch(markerType, typePlan) && !IsStrong(markerType, interest) && IsStructural(markerType, typePlan)
  {
    if markerType == Str("glitch") || typePlan == Str("glitch") then Completed
    else if interest == Str("fort") || markerType == Str("todo") then ToDo
    else if typePlan == Str("revelation") || typePlan == Str("rupture") || markerType == Str("chapter") then Chapter
    else Standard
  }

  // ---------------------------------------------------------------------------
  // _make_marker: title

  /** The characters `.strip(" []")` removes. */
  predicate IsTitleJunk(c: char) {
    c == ' ' || c == '[' || c == ']'
  }

  predicate AllJunk(s: string) {
    forall i :: 0 <= i < |s| ==> IsTitleJunk(s[i])
  }

  /** Stripping leaves nothing exactly when every character is stripped. */
  lemma StripByEmpty(s: string, strip: char -> bool)
    ensures StripBy(s, strip) == "" <==> forall i :: 0 <= i < |s| ==> strip(s[i])
  {
    var l := TrimLeft(s, strip);
    assert StripBy(s, strip) == TrimRight(l, strip);
  }

  lemma UpperJunk(s: string)
    ensures AllJunk(Upper(s)) <==> AllJunk(s)
  {
    var u := Upper(s);
    assert forall i :: 0 <= i < |s| ==> (IsTitleJunk(u[i]) <==> IsTitleJunk(s[i]));
  }

  /** `f"[{type_plan.upper()}] {emotion}"` before stripping. */
  function RawTitle(typePlan: string, emotion: string): string {
    "[" + Upper(typePlan) + "] " + emotion
  }

  lemma RawTitleJunk(typePlan: string, emotion: string)
    ensures AllJunk(RawTitle(typePlan, emotion)) <==> AllJunk(typePlan) && AllJunk(emotion)
  {
    var u := Upper(typePlan);
    var raw := RawTitle(typePlan, emotion);
    UpperJunk(typePlan);
    assert forall i :: 0 <= i < |u| ==> raw[i + 1] == u[i];
    assert forall i :: 0 <= i < |emotion| ==> raw[i + |u| + 3] == emotion[i];
    if AllJunk(u) && AllJunk(emotion) {
      forall i | 0 <= i < |raw| ensures IsTitleJunk(raw[i]) {
        if 1 <= i <= |u| {
          assert raw[i] == u[i - 1];
        } else if i >= |u| + 3 {
          assert raw[i] == emotion[i - |u| - 3];
        }
      }
    }
  }

  /** The marker title: `"[TYPE] emotion"` stripped of spaces and square
      brackets at both ends, or `type_plan` itself when nothing is left. It
      is empty only for an empty type with an emotion made of those
      characters alone; otherwise, unless it fell back, it neither starts
      nor ends with one of them. */
  function TitleOf(typePlan: string, emotion: string): string {
    var stripped := StripBy(RawTitle(typePlan, emotion), IsTitleJunk);
    if stripped == "" then typePlan else stripped
  }

  lemma TitleShape(typePlan: string, emotion: string)
    ensures TitleOf(typePlan, emotion) == "" <==> typePlan == "" && AllJunk(emotion)
    ensures AllJunk(typePlan) && AllJunk(emotion) ==> TitleOf(typePlan, emotion) == typePlan
    ensures !(AllJunk(typePlan) && AllJunk(emotion)) ==>
      var t := TitleOf(typePlan, emotion);
      |t| > 0 && !IsTitleJunk(t[0]) && !IsTitleJunk(t[|t| - 1])
  {
    var stripped := StripBy(RawTitle(typePlan, emotion), IsTitleJunk);
    TitleFacts(typePlan, emotion, stripped, TitleOf(typePlan, emotion));
  }

  lemma TitleFacts(typePlan: string, emotion: string, stripped: string, t: string)
    requires stripped == StripBy(RawTitle(typePlan, emotion), IsTitleJunk)
    requires t == if stripped == "" then typePlan else stripped
    ensures t == "" <==> typePlan == "" && AllJunk(emotion)
    ensures AllJunk(typePlan) && AllJunk(emotion) ==> t == typePlan
    ensures !(AllJunk(typePlan) && AllJunk(emotion)) ==>
      |t| > 0 && !IsTitleJunk(t[0]) && !IsTitleJunk(t[|t| - 1])
  {
    StrippedTitleEmpty(typePlan, emotion);
    if stripped == "" {
      assert AllJunk(typePlan) && AllJunk(emotion);
    } else {
      assert |stripped| > 0 && !IsTitleJunk(stripped[0]) && !IsTitleJunk(stripped[|stripped| - 1]);
    }
  }

  /** The stripped raw title is empty exactly when both parts are made of
      stripped characters only. */
  lemma StrippedTitleEmpty(typePlan: string, emotion: string)
    ensures StripBy(RawTitle(typePlan, emotion), IsTitleJunk) == "" <==> AllJunk(typePlan) && AllJunk(emotion)
  {
    StripByEmpty(RawTitle(typePlan, emotion), IsTitleJunk);
    RawTitleJunk(typePlan, emotion);
  }

  /** As written, the strip also takes the opening bracket away when an
      emotion follows: type `"glitch"` with emotion `"joie"` is titled
      `"GLITCH] joie"`. In general a type starting with a letter and an
      emotion ending in something other than a space or bracket give the
      raw title less its first character. */
  lemma TitleLosesOpeningBracket(typePlan: string, emotion: string)
    requires |typePlan| > 0 && 'a' <= typePlan[0] <= 'z'
    requires |emotion| > 0 && !IsTitleJunk(emotion[|emotion| - 1])
    ensures TitleOf(typePlan, emotion) == Upper(typePlan) + "] " + emotion
  {
    var u := Upper(typePlan);
    var rest := u + "] " + emotion;
    RawTitleSplit(typePlan, emotion);
    assert rest[0] == u[0] == UpperChar(typePlan[0]);
    assert rest[|rest| - 1] == emotion[|emotion| - 1];
    StripFirst('[', rest, IsTitleJunk);
    TitleWhenStripped(typePlan, emotion);
  }

  lemma RawTitleSplit(typePlan: string, emotion: string)
    ensures RawTitle(typePlan, emotion) == ['['] + (Upper(typePlan) + "] " + emotion)
  {
  }

  /** A raw title that strips to something is titled by what is left. */
  lemma TitleWhenStripped(typePlan: string, emotion: string)
    ensures StripBy(RawTitle(typePlan, emotion), IsTitleJunk) != "" ==>
      TitleOf(typePlan, emotion) == StripBy(RawTitle(typePlan, emotion), IsTitleJunk)
  {
  }

  /** Stripping a stripped character followed by a text whose ends are kept
      leaves that text. */
  lemma StripFirst(c: char, rest: string, strip: char -> bool)
    requires strip(c) && |rest| > 0 && !strip(rest[0]) && !strip(rest[|rest| - 1])
    ensures StripBy([c] + rest, strip) == rest
  {
    assert ([c] + rest)[1..] == rest;
    assert TrimLeft([c] + rest, strip) == TrimLeft(rest, strip) == rest;
  }

  // ---------------------------------------------------------------------------
  // _make_marker: note

  /** `f"{v}"`: a string as itself, `None`, booleans and integers as Python
      prints them; lists and dicts through `repr`, which is a parameter. */
  function Display(v: Json, repr: Json -> string): string {
    match v
    case Str(s) => s
    case Null => "None"
    case Bool(b) => if b then "True" else "False"
    case Num(n) => IntToString(n)
    case _ => repr(v)
  }

  /** One layer of the note: its text followed by a blank line, when the
      field is truthy. */
  function Layer(v: Json, open: string, close: string, repr: Json -> string): string {
    if Truthy(v) then open + Display(v, repr) + close + "\n\n" else ""
  }

  /** `if v: note = f"{open}{v}{close}\n\n{note}"`. */
  function Prefix(v: Json, open: string, close: string, note: string, repr: Json -> string): (r: string)
    ensures r == Layer(v, open, close, repr) + note
  {
    if Truthy(v) then open + Display(v, repr) + close + "\n\n" + note else note
  }

  /** The note with its prefixes: the driver's behaviour, then the quoted
      transcription, then the blind observation outermost. The result is
      the three layers, outermost first, followed by the body. */
  function NoteText(body: string, behaviour: Json, transcription: Json, blind: Json, repr: Json -> string)
    : (note: string)
    ensures note == Layer(blind, "[MONTEUR AVEUGLE] ", "", repr)
      + (Layer(transcription, "\"", "\"", repr) + (Layer(behaviour, "", "", repr) + body))
  {
    Prefix(blind, "[MONTEUR AVEUGLE] ", "", Prefix(transcription, "\"", "\"", Prefix(behaviour, "", "", body, repr), repr), repr)
  }

  /** The note of a segment before truncation: `interpretation_monteur`,
      or else `description_visuelle`. With no prefix the body is the note
      whatever its type; a prefix formats it into a string that ends with
      the body and starts with the blind observation when there is one. */
  function SegmentNote(seg: Record, repr: Json -> string): (r: Json)
    ensures !HasPrefix(seg) ==> r == NoteBody(seg)
    ensures HasPrefix(seg) ==> r.Str? && EndsWith(r.s, Display(NoteBody(seg), repr))
    ensures Truthy(Get(seg, "blind_ce_qui_me_retient", Null)) ==> r.Str? && StartsWith(r.s, "[MONTEUR AVEUGLE] ")
    ensures (r.Str? || r.Arr?) <==> NoteSliceable(seg)
  {
    var body := NoteBody(seg);
    if !HasPrefix(seg) then body
    else
      var text := Display(body, repr);
      var blind := Get(seg, "blind_ce_qui_me_retient", Null);
      var l1 := Layer(Get(seg, "comportement_joshua", Null), "", "", repr);
      var l2 := Layer(Get(seg, "transcription_joshua", Null), "\"", "\"", repr);
      var l3 := Layer(blind, "[MONTEUR AVEUGLE] ", "", repr);
      var note := NoteText(text, Get(seg, "comportement_joshua", Null),
        Get(seg, "transcription_joshua", Null), blind, repr);
      SuffixOfAppend(l1, text, text);
      SuffixOfAppend(l2, l1 + text, text);
      SuffixOfAppend(l3, l2 + (l1 + text), text);
      BlindNoteStart(blind, l2 + (l1 + text), repr);
      Str(note)
  }

  /** `note[:512]` can be taken: the note is a string (a prefix made it
      one, or the body is one) or a list. */
  predicate NoteSliceable(seg: Record) {
    HasPrefix(seg) || NoteBody(seg).Str? || NoteBody(seg).Arr?
  }

  /** `note[:512]`: a string keeps its first 512 characters and a list its
      first 512 items; any other value cannot be sliced and raises. */
  function CutNote(note: Json): (r: Result<Json>)
    ensures r.Ok? <==> note.Str? || note.Arr?
    ensures note.Str? ==>
      && r.Ok? && r.value.Str? && |r.value.s| <= 512 && StartsWith(note.s, r.value.s)
      && (|note.s| <= 512 ==> r.value == note)
      && (|note.s| >= 512 ==> |r.value.s| == 512)
    ensures note.Arr? ==>
      && r.Ok? && r.value.Arr? && |r.value.items| <= 512 && |r.value.items| <= |note.items| && r.value.items == note.items[..|r.value.items|]
      && (|note.items| <= 512 ==> r.value == note)
      && (|note.items| >= 512 ==> |r.value.items| == 512)
  {
    match note
    case Str(s) => Ok(Str(Take(s, 512)))
    case Arr(items) => Ok(Arr(Take(items, 512)))
    case _ => Err("TypeError: the note cannot be sliced")
  }

  /** Cutting a cut note changes nothing. */
  lemma CutNoteAgain(note: Json)
    requires CutNote(note).Ok?
    ensures CutNote(CutNote(note).value) == CutNote(note)
  {
  }

  /** `seg.get("interpretation_monteur") or seg.get("description_visuelle", "")`. */
  function NoteBody(seg: Record): Json {
    var interp := Get(seg, "interpretation_monteur", Null);
    if Truthy(interp) then interp else Get(seg, "description_visuelle", Str(""))
  }

  predicate HasPrefix(seg: Record) {
    || Truthy(Get(seg, "comportement_joshua", Null))
    || Truthy(Get(seg, "transcription_joshua", Null))
    || Truthy(Get(seg, "blind_ce_qui_me_retient", Null))
  }

  predicate EndsWith(s: string, suffix: string) {
    |suffix| <= |s| && s[|s| - |suffix|..] == suffix
  }

  lemma SuffixOfAppend(x: string, y: string, suffix: string)
    requires y == suffix || EndsWith(y, suffix)
    ensures EndsWith(x + y, suffix)
  {
    assert (x + y)[|x + y| - |y|..] == y;
    assert y[|y| - |suffix|..] == suffix;
    assert (x + y)[|x + y| - |suffix|..] == y[|y| - |suffix|..];
  }

  lemma PrefixOfAppend(prefix: string, x: string, y: string)
    requires StartsWith(x, prefix)
    ensures StartsWith(x + y, prefix)
  {
    assert (x + y)[..|prefix|] == x[..|prefix|];
  }

  lemma BlindNoteStart(blind: Json, rest: string, repr: Json -> string)
    ensures Truthy(blind) ==> StartsWith(Layer(blind, "[MONTEUR AVEUGLE] ", "", repr) + rest, "[MONTEUR AVEUGLE] ")
  {
    if Truthy(blind) {
      var p := "[MONTEUR AVEUGLE] ";
      var l := Layer(blind, p, "", repr);
      assert l == p + (Display(blind, repr) + "" + "\n\n");
      assert l[..|p|] == p;
      PrefixOfAppend(p, l, rest);
    }
  }

  // ---------------------------------------------------------------------------
  // _make_marker

  /** One marker on the clip: its kind, rational start and duration, the
      title (`value`) and the note. */
  datatype Marker = Marker(kind: MarkerKind, start: string, duration: string, value: string, note: string)

  /** The fields `_make_marker` reads, with their defaults. */
  function TcStartOf(seg: Record): Json { Get(seg, "tc_start", Str("00:00:00")) }
  function TcEndOf(seg: Record): Json { Get(seg, "tc_end", Str("00:00:01")) }
  function MarkerTypeOf(seg: Record): Json { Get(seg, "marker_type", Str("standard")) }
  function InterestOf(seg: Record): Json { Get(seg, "interet_film", Str("moyen")) }
  function TypePlanOf(seg: Record): Json { Get(seg, "type_plan", Str("banal")) }

  /** The start as `_tc_to_rational` reads it, an absent one being the
      default `00:00:00`, that is 0; `None` when it raises (a value that is
      not a string has no `strip`). */
  function StartSeconds(seg: Record): Option<int> {
    if "tc_start" !in seg then Some(0)
    else if seg["tc_start"].Str? then TcSeconds(seg["tc_start"].s) else None
  }

  /** The start as `_duration_rational`'s `to_s` reads it. */
  function StartToS(seg: Record): Option<int> {
    if "tc_start" !in seg then Some(0)
    else if seg["tc_start"].Str? then ToS(seg["tc_start"].s) else None
  }

  /** The end as `to_s` reads it, an absent one being the default
      `00:00:01`, that is 1. */
  function EndToS(seg: Record): Option<int> {
    if "tc_end" !in seg then Some(1)
    else if seg["tc_end"].Str? then ToS(seg["tc_end"].s) else None
  }

  /** The default start `00:00:00` reads as 0 seconds. */
  lemma DefaultStart(tc: string)
    requires tc == "00:00:00"
    ensures TcSeconds(tc) == Some(0) && ToS(tc) == Some(0)
  {
    assert tc == "00" + ":" + "00" + ":" + "00";
    ReadThree("00", "00", "00");
    TwoDigits("00", 0);
    FieldsOf("00", "00", "00", 0, 0, 0, 0);
  }

  /** The default end `00:00:01` reads as 1 second. */
  lemma DefaultEnd(tc: string)
    requires tc == "00:00:01"
    ensures ToS(tc) == Some(1)
  {
    assert tc == "00" + ":" + "00" + ":" + "01";
    ReadThreeToS("00", "00", "01");
    TwoDigits("00", 0);
    TwoDigits("01", 1);
    FieldsOf("00", "00", "01", 0, 0, 1, 1);
  }

  /** The readings agree with the source's calls on the fields with their
      string defaults. */
  lemma StartReadings(seg: Record)
    ensures StartSeconds(seg) == if TcStartOf(seg).Str? then TcSeconds(TcStartOf(seg).s) else None
    ensures StartToS(seg) == if TcStartOf(seg).Str? then ToS(TcStartOf(seg).s) else None
  {
    if "tc_start" !in seg {
      DefaultStart(TcStartOf(seg).s);
    }
  }

  lemma EndReading(seg: Record)
    ensures EndToS(seg) == if TcEndOf(seg).Str? then ToS(TcEndOf(seg).s) else None
  {
    if "tc_end" !in seg {
      DefaultEnd(TcEndOf(seg).s);
    }
  }

  /** `_make_marker` succeeds when both timecodes can be read, the type is a
      string and the note can be sliced. */
  predicate MarkerOk(seg: Record) {
    && StartSeconds(seg).Some? && StartToS(seg).Some? && EndToS(seg).Some?
    && TypePlanOf(seg).Str?
    && NoteSliceable(seg)
  }

  /** `max(1, end - start)`. */
  function Span(start: int, end: int): (d: int)
    ensures d >= 1 && d >= end - start
    ensures end - start >= 1 ==> d == end - start
  {
    if end - start > 1 then end - start else 1
  }

  /** The full title of a segment: its type (default `banal`) and its
      dominant emotion (default empty). */
  function FullTitle(seg: Record, repr: Json -> string): string
    requires TypePlanOf(seg).Str?
  {
    TitleOf(TypePlanOf(seg).s, Display(Get(seg, "emotion_dominante", Str("")), repr))
  }

  /** `title[:64]`: at most 64 characters, a prefix of the full title, and
      the whole of it when it fits. */
  function MarkerTitle(seg: Record, repr: Json -> string): (v: string)
    requires TypePlanOf(seg).Str?
    ensures |v| <= 64 && StartsWith(FullTitle(seg, repr), v)
    ensures |FullTitle(seg, repr)| <= 64 ==> v == FullTitle(seg, repr)
    ensures |FullTitle(seg, repr)| >= 64 ==> |v| == 64
  {
    Take(FullTitle(seg, repr), 64)
  }

  /** The `note` attribute ElementTree writes for `note[:512]`: a string
      note gives at most 512 characters, a prefix of it, and the whole of
      it when it fits; a list body with no prefix is written as `str()` of
      its first 512 items. */
  function MarkerNote(seg: Record, repr: Json -> string): (n: string)
    requires NoteSliceable(seg)
    ensures SegmentNote(seg, repr).Str? ==>
      && |n| <= 512 && StartsWith(SegmentNote(seg, repr).s, n)
      && (|SegmentNote(seg, repr).s| <= 512 ==> n == SegmentNote(seg, repr).s)
      && (|SegmentNote(seg, repr).s| >= 512 ==> |n| == 512)
    ensures !SegmentNote(seg, repr).Str? ==>
      && !HasPrefix(seg) && NoteBody(seg).Arr?
      && n == repr(Arr(Take(NoteBody(seg).items, 512)))
  {
    Display(CutNote(SegmentNote(seg, repr)).value, repr)
  }

  /** A list body with no prefix is sliced and written, not rejected: the
      marker exists when the timecodes and type can be read, and its note
      is the list's first 512 items as Python prints them. */
  lemma ListNoteIsWritten(seg: Record, fps: nat, repr: Json -> string)
    requires NoteBody(seg).Arr? && !HasPrefix(seg)
    ensures MakeMarker(seg, fps, repr).Ok? <==>
      StartSeconds(seg).Some? && StartToS(seg).Some? && EndToS(seg).Some? && TypePlanOf(seg).Str?
    ensures MakeMarker(seg, fps, repr).Ok? ==>
      MakeMarker(seg, fps, repr).value.note == repr(Arr(Take(NoteBody(seg).items, 512)))
  {
  }

  /** `_make_marker(parent, segment, fps)`: the marker added for one
      segment. Its kind follows the classification of the segment's fields
      (with their defaults); its start is the start's frame count and its
      duration at least one second's worth of frames; its title and note
      are the cut texts above. */
  function MakeMarker(seg: Record, fps: nat, repr: Json -> string): (r: Result<Marker>)
    ensures r.Ok? <==> MarkerOk(seg)
    ensures r.Ok? ==> r.value.kind == Classify(MarkerTypeOf(seg), InterestOf(seg), TypePlanOf(seg))
    ensures r.Ok? ==>
      && r.value.start == Rational(StartSeconds(seg).value * fps, fps)
      && r.value.duration == Frac(Span(StartToS(seg).value, EndToS(seg).value) * fps, fps)
    ensures r.Ok? ==> r.value.value == MarkerTitle(seg, repr) && r.value.note == MarkerNote(seg, repr)
  {
    if !MarkerOk(seg) then Err("the segment's timecodes, type or note cannot be read")
    else
      var start, end := StartToS(seg).value, EndToS(seg).value;
      Ok(Marker(Classify(MarkerTypeOf(seg), InterestOf(seg), TypePlanOf(seg)),
        Rational(StartSeconds(seg).value * fps, fps),
        Frac(Span(start, end) * fps, fps),
        MarkerTitle(seg, repr), MarkerNote(seg, repr)))
  }

  /** The start as `MakeMarker` reads it is what `_tc_to_rational` makes
      of the segment's start timecode, default included. */
  lemma StartAsSource(seg: Record, fps: nat)
    ensures StartSeconds(seg).Some? <==> TcStartOf(seg).Str? && TcToRational(TcStartOf(seg).s, fps).Ok?
    ensures StartSeconds(seg).Some? ==>
      Rational(StartSeconds(seg).value * fps, fps) == TcToRational(TcStartOf(seg).s, fps).value
  {
    StartReadings(seg);
    if StartSeconds(seg).Some? {
      var t := StartSeconds(seg).value;
      RationalOf(TcStartOf(seg).s, t, fps, t * fps);
    }
  }

  /** The duration as `MakeMarker` reads it is what `_duration_rational`
      makes of the segment's timecodes, defaults included. */
  lemma DurationAsSource(seg: Record, fps: nat)
    ensures StartToS(seg).Some? && EndToS(seg).Some? <==>
      TcStartOf(seg).Str? && TcEndOf(seg).Str? && DurationRational(TcStartOf(seg).s, TcEndOf(seg).s, fps).Ok?
    ensures StartToS(seg).Some? && EndToS(seg).Some? ==>
      Frac(Span(StartToS(seg).value, EndToS(seg).value) * fps, fps)
        == DurationRational(TcStartOf(seg).s, TcEndOf(seg).s, fps).value
  {
    StartReadings(seg);
    EndReading(seg);
    if StartToS(seg).Some? && EndToS(seg).Some? {
      DurationFrom(TcStartOf(seg).s, TcEndOf(seg).s, StartToS(seg).value, EndToS(seg).value, fps);
    }
  }

  lemma DurationFrom(tcStart: string, tcEnd: string, b: int, e: int, fps: nat)
    requires ToS(tcStart) == Some(b) && ToS(tcEnd) == Some(e)
    ensures DurationRational(tcStart, tcEnd, fps) == Ok(Frac(Span(b, e) * fps, fps))
  {
    DurationSecondsOf(tcStart, tcEnd, b, e, Span(b, e));
    DurationOf(tcStart, tcEnd, fps, Span(b, e));
  }

  /** Together: the marker exists exactly when neither `_tc_to_rational`
      nor `_duration_rational` raises on the segment's timecodes and the
      type can be read and the note sliced, and its start and duration are their
      results. */
  lemma MarkerTimesAsSource(seg: Record, fps: nat, repr: Json -> string)
    ensures MarkerOk(seg) <==>
      && TcStartOf(seg).Str? && TcEndOf(seg).Str? && TypePlanOf(seg).Str?
      && TcToRational(TcStartOf(seg).s, fps).Ok?
      && DurationRational(TcStartOf(seg).s, TcEndOf(seg).s, fps).Ok?
      && CutNote(SegmentNote(seg, repr)).Ok?
    ensures MakeMarker(seg, fps, repr).Ok? ==>
      && MakeMarker(seg, fps, repr).value.start == TcToRational(TcStartOf(seg).s, fps).value
      && MakeMarker(seg, fps, repr).value.duration == DurationRational(TcStartOf(seg).s, TcEndOf(seg).s, fps).value
  {
    StartAsSource(seg, fps);
    DurationAsSource(seg, fps);
  }

  /** A segment that sets none of the classifying fields gets a plain
      marker. */
  lemma DefaultsGivePlainMarker(seg: Record)
    requires "marker_type" !in seg && "interet_film" !in seg && "type_plan" !in seg
    ensures Classify(MarkerTypeOf(seg), InterestOf(seg), TypePlanOf(seg)) == Standard
  {
  }

  /** A glitch is green whatever its interest or structural role. */
  lemma GlitchWins(seg: Record)
    requires Get(seg, "type_plan", Null) == Str("glitch") || Get(seg, "marker_type", Null) == Str("glitch")
    ensures Element(Classify(MarkerTypeOf(seg), InterestOf(seg), TypePlanOf(seg))) == ("marker", Some("1"))
  {
  }

  // ---------------------------------------------------------------------------
  // generate_fcpxml

  /** The timeline written: the duration of the asset, the sequence and the
      clip (all the same rational time), and the markers on the clip. */
  datatype Timeline = Timeline(duration: string, markers: seq<Marker>)

  /** `seg.get("tc_start")` is truthy: the segment gets a marker. */
  predicate HasStart(seg: Record) {
    Truthy(Get(seg, "tc_start", Null))
  }

  /** The seconds `int(h) * 3600 + int(m) * 60 + int(s) + 60` of the last
      segment's end timecode, split on `:` without stripping: fewer than
      three fields raise `IndexError`, a field that is not an integer
      `ValueError`; fields after the third are ignored. */
  function ReadEnd(tc: string): (r: Result<int>)
    ensures r.Ok? <==> |Split(tc, ':')| >= 3 && FieldsValue(Split(tc, ':')[0], Split(tc, ':')[1], Split(tc, ':')[2]).Some?
    ensures r.Ok? ==> r.value == FieldsValue(Split(tc, ':')[0], Split(tc, ':')[1], Split(tc, ':')[2]).value + 60
  {
    var parts := Split(tc, ':');
    if |parts| < 3 then Err("IndexError: list index out of range")
    else if FieldsValue(parts[0], parts[1], parts[2]).None? then Err("ValueError: invalid literal for int()")
    else Ok(FieldsValue(parts[0], parts[1], parts[2]).value + 60)
  }

  /** The last segment's end, whose default is `00:00:00`, read as
      `ReadEnd` does; a value that is not a string has no `split`. */
  function LastEnd(last: Record): (r: Result<int>)
    ensures "tc_end" !in last ==> r == Ok(60)
    ensures "tc_end" in last ==> (r.Ok? <==> last["tc_end"].Str? && ReadEnd(last["tc_end"].s).Ok?)
    ensures "tc_end" in last && r.Ok? ==> r == ReadEnd(last["tc_end"].s)
  {
    if "tc_end" !in last then Ok(60)
    else if last["tc_end"].Str? then ReadEnd(last["tc_end"].s)
    else Err("AttributeError: 'split' on a timecode that is not a string")
  }

  /** The default end `00:00:00` gives one minute. */
  lemma DefaultLastEnd(tc: string)
    requires tc == "00:00:00"
    ensures ReadEnd(tc) == Ok(60)
  {
    ZeroSplit(tc);
    ZeroFields();
    ReadEndZero(tc, "00", "00", "00");
  }

  lemma ZeroSplit(tc: string)
    requires tc == "00:00:00"
    ensures Split(tc, ':') == ["00", "00", "00"]
  {
    var z := "00";
    assert ':' !in z;
    assert tc == z + ":" + z + ":" + z;
    SplitThree(z, z, z);
  }

  lemma ZeroFields()
    ensures FieldsValue("00", "00", "00") == Some(0)
  {
    TwoDigits("00", 0);
    FieldsOf("00", "00", "00", 0, 0, 0, 0);
  }

  /** Fields spelling zero seconds end at one minute. */
  lemma ReadEndZero(tc: string, a: string, b: string, c: string)
    requires Split(tc, ':') == [a, b, c] && FieldsValue(a, b, c) == Some(0)
    ensures ReadEnd(tc) == Ok(60)
  {
    var parts := Split(tc, ':');
    assert parts[0] == a && parts[1] == b && parts[2] == c;
    assert ReadEnd(tc).value == 60;
  }

  lemma ReadEndOf(tc: string, a: string, b: string, c: string, total: int)
    requires Split(tc, ':') == [a, b, c] && FieldsValue(a, b, c) == Some(total)
    ensures ReadEnd(tc) == Ok(total + 60)
  {
    var parts := Split(tc, ':');
    assert parts[0] == a && parts[1] == b && parts[2] == c;
    assert ReadEnd(tc).value == total + 60;
  }

  /** `LastEnd` is `ReadEnd` on the end timecode with its string default. */
  lemma LastEndAsSource(last: Record)
    ensures Get(last, "tc_end", Str("00:00:00")).Str? ==> LastEnd(last) == ReadEnd(Get(last, "tc_end", Str("00:00:00")).s)
    ensures !Get(last, "tc_end", Str("00:00:00")).Str? ==> LastEnd(last).Err?
  {
    if "tc_end" !in last {
      DefaultLastEnd(Get(last, "tc_end", Str("00:00:00")).s);
    }
  }

  /** The sequence duration in seconds: the one given, else the last
      segment's end plus a minute; a zero or missing result is an hour
      (`duration_s or 3600`). */
  function SequenceSeconds(segs: seq<Record>, given: Option<int>): (r: Result<int>)
    ensures r.Ok? ==> r.value != 0
    ensures given.Some? && given.value != 0 ==> r == Ok(given.value)
    ensures given == Some(0) || (given.None? && segs == []) ==> r == Ok(3600)
    ensures given.None? && segs != [] ==>
      && (r.Ok? <==> LastEnd(segs[|segs| - 1]).Ok?)
      && (r.Ok? ==> r.value == if LastEnd(segs[|segs| - 1]).value == 0 then 3600 else LastEnd(segs[|segs| - 1]).value)
  {
    var d :- if given.None? && segs != [] then
        match LastEnd(segs[|segs| - 1])
        case Ok(t) => Ok(Some(t))
        case Err(e) => Err(e)
      else Ok(given);
    Ok(if d.None? || d.value == 0 then 3600 else d.value)
  }

  /** `generate_fcpxml(video_path, analysis, output_path, fps, duration_s)`:
      the timeline of one analysis. It fails exactly when the segments
      cannot be iterated, the duration cannot be read or one of the
      segments with a start timecode cannot be turned into a marker; the
      markers are those of the segments with a start timecode, in order,
      and the duration is the sequence duration in frames. */
  function GenerateFcpxml(analysis: Record, fps: nat, given: Option<int>, repr: Json -> string): (r: Result<Timeline>)
    ensures r.Ok? <==>
      && SegmentList(analysis).Ok?
      && SequenceSeconds(SegmentList(analysis).value, given).Ok?
      && forall i :: 0 <= i < |Filter(SegmentList(analysis).value, HasStart)| ==>
           MarkerOk(Filter(SegmentList(analysis).value, HasStart)[i])
    ensures r.Ok? ==>
      var selected := Filter(SegmentList(analysis).value, HasStart);
      && |r.value.markers| == |selected|
      && (forall i :: 0 <= i < |selected| ==> r.value.markers[i] == MakeMarker(selected[i], fps, repr).value)
    ensures r.Ok? ==> r.value.duration == Frac(SequenceSeconds(SegmentList(analysis).value, given).value * fps, fps)
  {
    var segs :- SegmentList(analysis);
    var seconds :- SequenceSeconds(segs, given);
    var markers :- Markers(Filter(segs, HasStart), fps, repr);
    Ok(Timeline(Frac(seconds * fps, fps), markers))
  }

  /** The markers of the selected segments, in order; the first segment
      that cannot be turned into a marker fails the whole list. */
  function Markers(segs: seq<Record>, fps: nat, repr: Json -> string): (r: Result<seq<Marker>>)
    ensures r.Ok? <==> forall i :: 0 <= i < |segs| ==> MarkerOk(segs[i])
    ensures r.Ok? ==> |r.value| == |segs|
    ensures r.Ok? ==> forall i :: 0 <= i < |segs| ==> r.value[i] == MakeMarker(segs[i], fps, repr).value
  {
    MapAll(segs, seg => MakeMarker(seg, fps, repr))
  }

  /** A written timecode `t` at the end of the last segment gives a
      sequence of `t` seconds plus a minute. */
  lemma ReadEndOfFmtTc(t: nat)
    ensures ReadEnd(FmtTc(t)) == Ok(t + 60)
  {
    var hms := Clock(t);
    var a, b, c := PadInt(hms.0, 2), PadInt(hms.1, 2), PadInt(hms.2, 2);
    ReadPadded(hms.0, hms.1, hms.2, t);
    assert FmtTc(t) == a + ":" + b + ":" + c;
    ReadEndOf(FmtTc(t), a, b, c, t);
  }

  /** An `MM:SS` end timecode, which `_tc_to_rational` accepts, makes the
      duration raise `IndexError`. */
  lemma ReadEndMinutesFails(m: nat, s: nat)
    ensures ReadEnd(PadInt(m, 2) + ":" + PadInt(s, 2)).Err?
  {
    PadField(m);
    PadField(s);
    ReadTwo(PadInt(m, 2), PadInt(s, 2));
  }

  /** An analysis without segments and without a given duration is an
      hour-long timeline with no marker. */
  lemma EmptyAnalysisTimeline(analysis: Record, fps: nat, repr: Json -> string)
    requires "segments" !in analysis
    ensures GenerateFcpxml(analysis, fps, None, repr) == Ok(Timeline(Frac(3600 * fps, fps), []))
  {
  }
}

=== FILE: json.dfy ===
/** JSON documents as the pipeline sees them after `json.loads`: the parsed
    value, Python truthiness, `dict.get` with a default, and the shape of an
    analysis record (a dict whose "segments" entry is a list of dicts). */
module Json {
  import opened Wrappers

  datatype Json =
    | Null
    | Bool(b: bool)
    | Num(n: int)
    | Str(s: string)
    | Arr(items: seq<Json>)
    | Obj(fields: map<string, Json>)

  /** A JSON object as a Python dict. */
  type Record = map<string, Json>

  /** Python's `bool(v)`: None, False, 0, "" and empty containers are false. */
  predicate Truthy(j: Json) {
    match j
    case Null => false
    case Bool(b) => b
    case Num(n) => n != 0
    case Str(s) => |s| > 0
    case Arr(items) => |items| > 0
    case Obj(fields) => |fields| > 0
  }

  /** `d.get(k, default)`. */
  function Get(r: Record, k: string, default: Json): (v: Json)
    ensures k in r ==> v == r[k]
    ensures k !in r ==> v == default
  {
    if k in r then r[k] else default
  }

  /** The empty dict `{}`. */
  const Empty: Json := Obj(map[])

  /** A record whose "segments" entry, when present, is a list of objects:
      the shape `analysis.get("segments", [])` and `seg.get(...)` rely on. */
  predicate WellShaped(r: Record) {
    "segments" in r ==> r["segments"].Arr? && AllObjects(r["segments"].items)
  }

  predicate AllObjects(items: seq<Json>) {
    forall i :: 0 <= i < |items| ==> items[i].Obj?
  }

  /** `r.get("segments", [])`, each segment as a dict. */
  function Segments(r: Record): (segs: seq<Record>)
    requires WellShaped(r)
    ensures "segments" in r ==> |segs| == |r["segments"].items|
    ensures "segments" !in r ==> segs == []
    ensures "segments" in r ==> forall i :: 0 <= i < |segs| ==> r["segments"].items[i] == Obj(segs[i])
  {
    if "segments" in r then
      var items := r["segments"].items;
      seq(|items|, i requires 0 <= i < |items| => items[i].fields)
    else []
  }

  /** A list of dicts as a JSON list. */
  function ToArr(segs: seq<Record>): (j: Json)
    ensures j.Arr? && AllObjects(j.items) && |j.items| == |segs|
    ensures forall i :: 0 <= i < |segs| ==> j.items[i] == Obj(segs[i])
  {
    Arr(seq(|segs|, i requires 0 <= i < |segs| => Obj(segs[i])))
  }

  /** Storing a list of segments and reading it back gives the same list. */
  lemma SegmentsToArr(r: Record, segs: seq<Record>)
    ensures WellShaped(r["segments" := ToArr(segs)])
    ensures Segments(r["segments" := ToArr(segs)]) == segs
  {
  }

  /** A JSON document that reads as a well-shaped analysis record. */
  predicate IsAnalysis(j: Json) {
    j.Obj? && WellShaped(j.fields)
  }

  // ---------------------------------------------------------------------------
  // Hashing: JSON values as dict keys and set members

  /** A value Python cannot hash: a list or a dict as a dict key or a set
      member raises `TypeError`. */
  predicate Unhashable(v: Json) {
    v.Arr? || v.Obj?
  }

  /** Python's `==` on JSON values: `True == 1` and `False == 0`; lists and
      dicts compare by contents, like everything else. */
  predicate PyEquals(a: Json, b: Json) {
    || a == b
    || (a.Bool? && b.Num? && b.n == (if a.b then 1 else 0))
    || (b.Bool? && a.Num? && a.n == (if b.b then 1 else 0))
  }

  /** The key a hashable value is stored under in a dict or a set: a
      boolean counts as the integer it equals. */
  function HashKey(v: Json): (k: Json)
    ensures !k.Bool?
    ensures Truthy(k) == Truthy(v)
    ensures Unhashable(k) == Unhashable(v)
  {
    if v.Bool? then Num(if v.b then 1 else 0) else v
  }

  /** Two hashable values land on the same key exactly when Python finds
      them equal. */
  lemma HashKeyIsEquality(a: Json, b: Json)
    ensures HashKey(a) == HashKey(b) <==> PyEquals(a, b)
  {
  }

  // ---------------------------------------------------------------------------
  // Iterating over `segments`

  /** A `segments` value a loop goes through without a single step. */
  predicate NoItems(v: Json) {
    v == Arr([]) || v == Str("") || v == Obj(map[])
  }

  /** `r.get("segments", [])` as a loop calling `.get` on every item sees
      it: a list of dicts, or something iterated without a step (missing,
      an empty list, string or dict); anything else raises, either in the
      loop (`.get` on an item that is not a dict: a character of a string, a
      key of a dict, a list item) or sooner (iterating a number, a boolean
      or `None`). */
  function SegmentList(r: Record): (segs: Result<seq<Record>>)
    ensures "segments" !in r ==> segs == Ok([])
    ensures "segments" in r ==>
      (segs.Ok? <==> NoItems(r["segments"]) || (r["segments"].Arr? && AllObjects(r["segments"].items)))
    ensures segs.Ok? && "segments" in r && r["segments"].Arr? ==> ToArr(segs.value) == r["segments"]
    ensures segs.Ok? && "segments" in r && !r["segments"].Arr? ==> segs.value == []
  {
    if "segments" !in r then Ok([])
    else
      var v := r["segments"];
      if v.Arr? && AllObjects(v.items) then
        var segs := seq(|v.items|, i requires 0 <= i < |v.items| => v.items[i].fields);
        assert ToArr(segs).items == v.items;
        Ok(segs)
      else if NoItems(v) then Ok([])
      else Err("the segments are not a list of dicts")
  }

  /** On a well-shaped record the loop sees exactly its segments. */
  lemma SegmentListWellShaped(r: Record)
    requires WellShaped(r)
    ensures SegmentList(r) == Ok(Segments(r))
  {
    if "segments" in r {
      var segs := SegmentList(r).value;
      assert |segs| == |Segments(r)|;
      forall i | 0 <= i < |segs| ensures segs[i] == Segments(r)[i] {
        assert ToArr(segs).items[i] == Obj(segs[i]);
      }
    }
  }

  /** Iterating a list of dicts written back with `ToArr` sees that list. */
  lemma SegmentListToArr(r: Record, segs: seq<Record>)
    ensures SegmentList(r["segments" := ToArr(segs)]) == Ok(segs)
  {
    SegmentsToArr(r, segs);
    SegmentListWellShaped(r["segments" := ToArr(segs)]);
  }
}

=== FILE: phases.dfy ===
/** The phases of `vhs_analyzer.py`: the corpus pre-analysis, the blind and
    the deep analysis of every video (chunked, retried, merged, checkpointed),
    the enrichment rewrite, the export and the synthesis. The file system,
    the progress ledger and the counters of remote calls, back-off sleeps and
    ffmpeg runs form the `World` each phase transforms. */
module Phases {
  import opened Wrappers
  import opened Strings
  import opened Seqs
  import opened Json
  import opened Config
  import opened Store
  import opened Progress
  import opened Preprocess
  import opened Analyze
  import opened Videos
  import opened Enrich
  import Fcpxml
  import Report

  /** What the outside world answers: the remote model, the JSON decoder,
      the durations `ffprobe` reports (in whole seconds) and the way Python
      prints a list or a dict. */
  datatype Env = Env(gemini: Gemini, loads: Loads, duration: string -> int, repr: Json -> string)

  /** The state a run acts on. `calls` counts requests to the remote model,
      `sleeps` the back-off pauses in order, `transcodes` the ffmpeg outputs
      produced. */
  datatype World = World(store: Store, ledger: Ledger, calls: nat, sleeps: seq<nat>, transcodes: seq<string>)

  /** A phase either completes with a value or stops on an uncaught
      exception, leaving whatever it had written. */
  datatype Outcome<T> = Done(value: T, world: World) | Crash(error: string, world: World)

  /** Charges a `with_retry` run to the world. */
  function Charge<T>(w: World, run: RetryRun<T>): World {
    w.(ledger := run.ledger, calls := w.calls + run.calls, sleeps := w.sleeps + run.sleeps)
  }

  // ---------------------------------------------------------------------------
  // Artifact paths

  function CorpusPath(workDir: string): string { PathJoin(workDir, "corpus_context.json") }

  function RawPath(workDir: string, stem: string): string {
    PathJoin(PathJoin(workDir, "raw_json"), stem + ".json")
  }

  function BlindPath(workDir: string, stem: string): string {
    PathJoin(PathJoin(workDir, "blind_analysis"), stem + ".json")
  }

  /** Where a pass keeps the merged result of video `v`. */
  function ArtifactPath(workDir: string, blind: bool, v: string): string {
    if blind then BlindPath(workDir, Stem(Name(v))) else RawPath(workDir, Stem(Name(v)))
  }

  function FcpxmlPath(workDir: string, v: string): string {
    PathJoin(PathJoin(workDir, "fcpxml"), Stem(Name(v)) + ".fcpxml")
  }

  function ReportPath(workDir: string, v: string): string {
    PathJoin(PathJoin(workDir, "reports"), Stem(Name(v)) + "_log.md")
  }

  function SynthesisPath(workDir: string): string { PathJoin(workDir, "SYNTHESIS.md") }

  // ---------------------------------------------------------------------------
  // Phase 1: pre-analysis

  /** Some pre-analysis attempt on the sample within the retry budget
      succeeds. */
  predicate PreAnswered(cfg: Config, env: Env, sample: string) {
    exists k :: 1 <= k <= cfg.maxRetries && Preanalyze(cfg, env.gemini, env.loads, sample, k).Succeeded?
  }

  /** The pre-analysis attempts on a sample, by attempt number. */
  function PreAttempts(cfg: Config, env: Env, sample: string): nat -> Attempt<Json> {
    (k: nat) => Preanalyze(cfg, env.gemini, env.loads, sample, k)
  }

  /** What `with_retry` returns for the pre-analysis of video `v`: the
      first successful attempt on its sample, if any. */
  function PreAnswer(cfg: Config, env: Env, workDir: string, v: string): Option<Json> {
    FirstSuccess(PreAttempts(cfg, env, SamplePath(workDir, Stem(Name(v)))), 1, cfg.maxRetries)
  }

  /** One video of `phase_preanalysis`: a sample is cut (unless cached)
      and pre-analysed under `with_retry` with the label
      `preanalysis_<name>`, which ends up done when an attempt succeeded and
      failed otherwise. */
  function PreanalyzeOne(cfg: Config, env: Env, workDir: string, v: string, w: World)
    : (r: (Option<Json>, World))
    requires Valid(cfg)
    ensures r.0 == PreAnswer(cfg, env, workDir, v)
    ensures r.0.Some? <==> PreAnswered(cfg, env, SamplePath(workDir, Stem(Name(v))))
    ensures r.1.store.docs == w.store.docs
    ensures SamplePath(workDir, Stem(Name(v))) in r.1.store.files
    ensures r.0.Some? ==> r.1.ledger == MarkDone(w.ledger, PreLabel(Name(v)))
    ensures r.0.None? ==> PreLabel(Name(v)) in FailedFiles(r.1.ledger) && r.1.ledger.processed == w.ledger.processed
    ensures w.calls <= r.1.calls
  {
    var s := ExtractSample(w.store, workDir, Stem(Name(v)), env.duration(v), 120, 180);
    var fn := PreAttempts(cfg, env, s.path);
    var run := Retry(cfg, fn, PreLabel(Name(v)), w.ledger);
    RetryFirstSuccess(cfg, fn, PreLabel(Name(v)), w.ledger);
    if run.result.Some? then
      assert PreAnswered(cfg, env, s.path) by {
        assert 1 <= run.calls <= cfg.maxRetries && fn(run.calls).Succeeded?;
      }
      (run.result, Charge(w.(store := s.store, transcodes := w.transcodes + if s.cut.Some? then [s.path] else []), run))
    else
      assert !PreAnswered(cfg, env, s.path) by {
        forall k | 1 <= k <= cfg.maxRetries
          ensures !Preanalyze(cfg, env.gemini, env.loads, s.path, k).Succeeded?
        {
          assert fn(k).Raised?;
        }
      }
      (run.result, Charge(w.(store := s.store, transcodes := w.transcodes + if s.cut.Some? then [s.path] else []), run))
  }

  /** The answer for a video is a truthy value that is not a dict: the
      progress line's `.get` raises. */
  predicate BadPreAnswer(a: Option<Json>) {
    a.Some? && Truthy(a.value) && !a.value.Obj?
  }

  /** The answer for a video joins the corpus: a truthy value. */
  predicate Joins(a: Option<Json>) {
    a.Some? && Truthy(a.value)
  }

  /** The answers of the videos, as a function of the video. */
  function Answers(cfg: Config, env: Env, workDir: string): string -> Option<Json> {
    (v: string) => PreAnswer(cfg, env, workDir, v)
  }

  /** The corpus the loop of `phase_preanalysis` builds from the answer
      `ans` gives each video, or the error its progress line raises. */
  function BuildCorpus(videos: seq<string>, ans: string -> Option<Json>, corpus: Record): (r: Result<Record>)
    ensures r.Ok? ==> corpus.Keys <= r.value.Keys
    decreases |videos|
  {
    if |videos| == 0 then Ok(corpus)
    else if BadPreAnswer(ans(videos[0])) then Err("AttributeError: the pre-analysis result has no attribute 'get'")
    else BuildCorpus(videos[1..], ans, if Joins(ans(videos[0])) then corpus[Name(videos[0]) := ans(videos[0]).value] else corpus)
  }

  /** The loop of `phase_preanalysis` over `videos`: a truthy dict result
      joins the corpus under the video's name, a falsy or failed one is
      skipped, and a truthy result that is not a dict makes the progress
      line's `.get` raise. Nothing is written to the documents. The corpus
      is the one `BuildCorpus` builds from the videos' answers. */
  function PreanalyzeAll(cfg: Config, env: Env, workDir: string, videos: seq<string>, w: World, corpus: Record)
    : (r: Outcome<Record>)
    requires Valid(cfg)
    ensures r.world.store.docs == w.store.docs
    ensures w.calls <= r.world.calls
    ensures r.Crash? <==> BuildCorpus(videos, Answers(cfg, env, workDir), corpus).Err?
    ensures r.Done? ==> BuildCorpus(videos, Answers(cfg, env, workDir), corpus) == Ok(r.value)
    decreases |videos|
  {
    if |videos| == 0 then Done(corpus, w)
    else
      var v := videos[0];
      var (res, w1) := PreanalyzeOne(cfg, env, workDir, v, w);
      assert res == Answers(cfg, env, workDir)(v);
      if BadPreAnswer(res) then
        Crash("AttributeError: the pre-analysis result has no attribute 'get'", w1)
      else
        var corpus1 := if Joins(res) then corpus[Name(v) := res.value] else corpus;
        PreanalyzeAll(cfg, env, workDir, videos[1..], w1, corpus1)
  }

  /** The corpus build raises exactly when some video's answer is truthy
      but not a dict. */
  lemma {:induction false} BuildCorpusFails(videos: seq<string>, ans: string -> Option<Json>, corpus: Record)
    ensures BuildCorpus(videos, ans, corpus).Err? <==> exists i :: 0 <= i < |videos| && BadPreAnswer(ans(videos[i]))
    decreases |videos|
  {
    if |videos| > 0 {
      var a := ans(videos[0]);
      BuildCorpusFails(videos[1..], ans, if Joins(a) then corpus[Name(videos[0]) := a.value] else corpus);
      assert forall i :: 1 <= i < |videos| ==> videos[i] == videos[1..][i - 1];
    }
  }

  /** A name is in the corpus exactly when it was there before or some
      video of that name has a truthy answer; then every entry is a truthy
      dict or was there before. */
  lemma {:induction false} BuildCorpusKeys(videos: seq<string>, ans: string -> Option<Json>, corpus: Record, name: string)
    requires BuildCorpus(videos, ans, corpus).Ok?
    ensures name in BuildCorpus(videos, ans, corpus).value <==>
      name in corpus || exists i :: 0 <= i < |videos| && Name(videos[i]) == name && Joins(ans(videos[i]))
    decreases |videos|
  {
    if |videos| > 0 {
      var a := ans(videos[0]);
      var corpus1 := if Joins(a) then corpus[Name(videos[0]) := a.value] else corpus;
      BuildCorpusKeys(videos[1..], ans, corpus1, name);
      if exists i :: 1 <= i < |videos| && Name(videos[i]) == name && Joins(ans(videos[i])) {
        var i :| 1 <= i < |videos| && Name(videos[i]) == name && Joins(ans(videos[i]));
        assert videos[1..][i - 1] == videos[i];
      }
      if name !in corpus && name in corpus1 {
        assert Name(videos[0]) == name && Joins(ans(videos[0]));
      }
    }
  }

  /** The entry a name gets is the answer of the last video of that name
      with a truthy answer. */
  lemma {:induction false} BuildCorpusLast(videos: seq<string>, ans: string -> Option<Json>, corpus: Record, i: nat)
    requires BuildCorpus(videos, ans, corpus).Ok?
    requires i < |videos| && Joins(ans(videos[i]))
    requires forall j :: i < j < |videos| && Name(videos[j]) == Name(videos[i]) ==> !Joins(ans(videos[j]))
    ensures var out := BuildCorpus(videos, ans, corpus).value;
      Name(videos[i]) in out && out[Name(videos[i])] == ans(videos[i]).value
    decreases |videos|
  {
    var a := ans(videos[0]);
    var corpus1 := if Joins(a) then corpus[Name(videos[0]) := a.value] else corpus;
    assert forall j :: 1 <= j < |videos| ==> videos[j] == videos[1..][j - 1];
    if i == 0 {
      BuildCorpusKeeps(videos[1..], ans, corpus1, Name(videos[0]));
    } else {
      BuildCorpusLast(videos[1..], ans, corpus1, i - 1);
    }
  }

  /** An entry no video's truthy answer replaces keeps its value. */
  lemma {:induction false} BuildCorpusKeeps(videos: seq<string>, ans: string -> Option<Json>, corpus: Record, name: string)
    requires BuildCorpus(videos, ans, corpus).Ok?
    requires name in corpus
    requires forall i :: 0 <= i < |videos| && Name(videos[i]) == name ==> !Joins(ans(videos[i]))
    ensures var out := BuildCorpus(videos, ans, corpus).value;
      name in out && out[name] == corpus[name]
    decreases |videos|
  {
    if |videos| > 0 {
      var a := ans(videos[0]);
      var corpus1 := if Joins(a) then corpus[Name(videos[0]) := a.value] else corpus;
      assert name in corpus1 && corpus1[name] == corpus[name];
      forall j | 0 <= j < |videos| - 1 && Name(videos[1..][j]) == name ensures !Joins(ans(videos[1..][j])) {
        assert videos[1..][j] == videos[j + 1];
      }
      BuildCorpusKeeps(videos[1..], ans, corpus1, name);
    }
  }

  /** `phase_preanalysis`: an existing corpus file is returned as it is,
      with no sample cut and no call made; otherwise the corpus is built
      from the videos' answers and written to `corpus_context.json`, unless
      the loop raises first, in which case nothing is written. */
  function PhasePreanalysis(cfg: Config, env: Env, workDir: string, videos: seq<string>, w: World)
    : (r: Outcome<Json>)
    requires Valid(cfg)
    ensures CorpusPath(workDir) in w.store.docs ==> r == Done(w.store.docs[CorpusPath(workDir)], w)
    ensures CorpusPath(workDir) !in w.store.docs ==>
      (r.Crash? <==> BuildCorpus(videos, Answers(cfg, env, workDir), map[]).Err?)
    ensures CorpusPath(workDir) !in w.store.docs && r.Done? ==>
      && r.value == Obj(BuildCorpus(videos, Answers(cfg, env, workDir), map[]).value)
      && r.world.store.docs == w.store.docs[CorpusPath(workDir) := r.value]
    ensures r.Crash? ==> r.world.store.docs == w.store.docs
  {
    var path := CorpusPath(workDir);
    if path in w.store.docs then Done(w.store.docs[path], w)
    else
      match PreanalyzeAll(cfg, env, workDir, videos, w, map[])
      case Crash(e, w1) => Crash(e, w1)
      case Done(corpus, w1) =>
        Done(Obj(corpus), w1.(store := w1.store.(docs := w1.store.docs[path := Obj(corpus)])))
  }

  /** The corpus phase 1 writes: it raises exactly when some video's answer
      is truthy but not a dict; otherwise the corpus has an entry for
      exactly the names of the videos with a truthy answer, and that entry
      is the answer of the last such video of the name, a truthy dict. */
  lemma PhasePreanalysisCorpus(cfg: Config, env: Env, workDir: string, videos: seq<string>, w: World, i: nat)
    requires Valid(cfg) && CorpusPath(workDir) !in w.store.docs
    ensures var r := PhasePreanalysis(cfg, env, workDir, videos, w);
      r.Crash? <==> exists k :: 0 <= k < |videos| && BadPreAnswer(PreAnswer(cfg, env, workDir, videos[k]))
    ensures var r := PhasePreanalysis(cfg, env, workDir, videos, w);
      r.Done? && i < |videos| ==>
        (Name(videos[i]) in r.value.fields <==>
          exists k :: 0 <= k < |videos| && Name(videos[k]) == Name(videos[i]) && Joins(PreAnswer(cfg, env, workDir, videos[k])))
    ensures var r := PhasePreanalysis(cfg, env, workDir, videos, w);
      r.Done? && i < |videos| && Joins(PreAnswer(cfg, env, workDir, videos[i]))
      && (forall j :: i < j < |videos| && Name(videos[j]) == Name(videos[i]) ==> !Joins(PreAnswer(cfg, env, workDir, videos[j])))
      ==> && Name(videos[i]) in r.value.fields
          && r.value.fields[Name(videos[i])] == PreAnswer(cfg, env, workDir, videos[i]).value
          && r.value.fields[Name(videos[i])].Obj?
  {
    var ans := Answers(cfg, env, workDir);
    BuildCorpusFails(videos, ans, map[]);
    assert forall k :: 0 <= k < |videos| ==> ans(videos[k]) == PreAnswer(cfg, env, workDir, videos[k]);
    var r := PhasePreanalysis(cfg, env, workDir, videos, w);
    if r.Done? && i < |videos| {
      BuildCorpusKeys(videos, ans, map[], Name(videos[i]));
      if Joins(PreAnswer(cfg, env, workDir, videos[i]))
        && (forall j :: i < j < |videos| && Name(videos[j]) == Name(videos[i]) ==> !Joins(PreAnswer(cfg, env, workDir, videos[j])))
      {
        BuildCorpusLast(videos, ans, map[], i);
        assert !BadPreAnswer(ans(videos[i]));
      }
    }
  }

  /** Once phase 1 has completed, running it again reads the corpus back and
      changes nothing: no sample is cut and no request is made. */
  lemma PhasePreanalysisResumes(cfg: Config, env: Env, workDir: string, videos: seq<string>, w: World)
    requires Valid(cfg)
    requires PhasePreanalysis(cfg, env, workDir, videos, w).Done?
    ensures var first := PhasePreanalysis(cfg, env, workDir, videos, w);
      PhasePreanalysis(cfg, env, workDir, videos, first.world) == Done(first.value, first.world)
  {
  }

  // ---------------------------------------------------------------------------
  // Phases 2a and 2b: one video

  /** A segment to analyse: the file sent and its offset in the video. */
  datatype Target = Target(path: string, start: int)

  function TargetsOf(units: seq<Unit>): (ts: seq<Target>)
    ensures |ts| == |units|
    ensures forall i :: 0 <= i < |units| ==> ts[i] == Target(units[i].path, units[i].start)
  {
    seq(|units|, i requires 0 <= i < |units| => Target(units[i].path, units[i].start))
  }

  /** One attempt of the pass on a target: `analyze_segment_blind` for the
      blind pass, `analyze_segment` otherwise. */
  function PassAttempt(cfg: Config, env: Env, blind: bool, t: Target, k: nat): Attempt<Json> {
    if blind then AnalyzeSegmentBlind(cfg, env.gemini, env.loads, t.path, t.start, k)
    else AnalyzeSegment(cfg, env.gemini, env.loads, t.path, t.start, k)
  }

  /** The `with_retry` label of a target. */
  function PassLabel(blind: bool, name: string, start: int): string {
    if blind then BlindLabel(name, start) else ChunkLabel(name, start)
  }

  /** The attempts of a pass, as a function of the target and the attempt
      number. */
  type Attempts = (Target, nat) -> Attempt<Json>

  /** A pass result: a dict carrying its `_meta` annotation. */
  predicate Annotated(j: Json) {
    j.Obj? && "_meta" in j.fields
  }

  /** Every successful attempt yields an annotated dict. */
  ghost predicate AnnotatesAll(fn: Attempts) {
    forall t, k :: fn(t, k).Succeeded? ==> Annotated(fn(t, k).value)
  }

  /** The attempts of the blind pass (`blind`) or of the deep pass; both
      annotate what they return. */
  function PassAttempts(cfg: Config, env: Env, blind: bool): (fn: Attempts)
    ensures AnnotatesAll(fn)
    ensures forall t, k :: fn(t, k) == PassAttempt(cfg, env, blind, t, k)
  {
    (t: Target, k: nat) => PassAttempt(cfg, env, blind, t, k)
  }

  /** Some attempt within the retry budget succeeds on the target. */
  predicate Answered(cfg: Config, fn: Attempts, t: Target) {
    exists k :: 1 <= k <= cfg.maxRetries && fn(t, k).Succeeded?
  }

  /** No target is ever answered: every attempt raises. */
  ghost predicate NeverAnswers(cfg: Config, fn: Attempts) {
    forall t :: !Answered(cfg, fn, t)
  }

  /** One target under `with_retry`: a result exactly when the target is
      answered, and then an annotated dict (so always truthy). The
      documents stay as they are, and the label touched is never the bare
      video name, so the video's own checkpoint does not move. */
  function GatherOne(cfg: Config, fn: Attempts, blind: bool, name: string, t: Target, w: World)
    : (r: (Option<Json>, World))
    requires Valid(cfg) && AnnotatesAll(fn)
    ensures r.0.Some? <==> Answered(cfg, fn, t)
    ensures r.0.Some? ==> Annotated(r.0.value) && Truthy(r.0.value)
    ensures r.1.store == w.store
    ensures IsDone(r.1.ledger, name) <==> IsDone(w.ledger, name)
    ensures w.calls <= r.1.calls
  {
    var tries := (k: nat) => fn(t, k);
    var run := Retry(cfg, tries, PassLabel(blind, name, t.start), w.ledger);
    LabelsAreNotNames(name, t.start);
    if run.result.Some? then
      assert Answered(cfg, fn, t) by {
        assert 1 <= run.calls <= cfg.maxRetries && fn(t, run.calls).Succeeded?;
      }
      assert "_meta" in run.result.value.fields;
      (run.result, Charge(w, run))
    else
      assert !Answered(cfg, fn, t) by {
        forall k | 1 <= k <= cfg.maxRetries ensures !fn(t, k).Succeeded? {
          assert tries(k).Raised?;
        }
      }
      (run.result, Charge(w, run))
  }

  datatype Gathered = Gathered(results: seq<Json>, world: World)

  /** The segment loop: every target is tried and every truthy result kept,
      in target order. The results are the annotated dicts of exactly the
      answered targets; the documents are untouched and the video's own
      checkpoint is neither set nor cleared. */
  function GatherResults(cfg: Config, fn: Attempts, blind: bool, name: string, ts: seq<Target>, w: World)
    : (r: Gathered)
    requires Valid(cfg) && AnnotatesAll(fn)
    ensures |r.results| <= |ts|
    ensures r.world.store == w.store
    ensures IsDone(r.world.ledger, name) <==> IsDone(w.ledger, name)
    ensures w.calls <= r.world.calls
    decreases |ts|
  {
    if |ts| == 0 then Gathered([], w)
    else
      var one := GatherOne(cfg, fn, blind, name, ts[0], w);
      var res := one.0;
      var rest := GatherResults(cfg, fn, blind, name, ts[1..], one.1);
      assert forall i :: 1 <= i < |ts| ==> ts[i] == ts[1..][i - 1];
      if res.Some? then
        Gathered([res.value] + rest.results, rest.world)
      else
        Gathered(rest.results, rest.world)
  }

  /** The loop gathers nothing exactly when no target is answered. */
  lemma {:induction false} GatherResultsNone(cfg: Config, fn: Attempts, blind: bool, name: string, ts: seq<Target>, w: World)
    requires Valid(cfg) && AnnotatesAll(fn)
    ensures GatherResults(cfg, fn, blind, name, ts, w).results == [] <==> forall i :: 0 <= i < |ts| ==> !Answered(cfg, fn, ts[i])
    decreases |ts|
  {
    if |ts| > 0 {
      var one := GatherOne(cfg, fn, blind, name, ts[0], w);
      GatherResultsNone(cfg, fn, blind, name, ts[1..], one.1);
      assert one.0.Some? <==> Answered(cfg, fn, ts[0]);
      if !Answered(cfg, fn, ts[0]) {
        forall i | 1 <= i < |ts| ensures ts[i] == ts[1..][i - 1] { }
      }
    }
  }

  /** Every result the loop keeps is an annotated dict. */
  lemma {:induction false} GatherResultsAnnotated(cfg: Config, fn: Attempts, blind: bool, name: string, ts: seq<Target>, w: World)
    requires Valid(cfg) && AnnotatesAll(fn)
    ensures forall j :: j in GatherResults(cfg, fn, blind, name, ts, w).results ==> Annotated(j)
    decreases |ts|
  {
    if |ts| > 0 {
      var one := GatherOne(cfg, fn, blind, name, ts[0], w);
      GatherResultsAnnotated(cfg, fn, blind, name, ts[1..], one.1);
    }
  }

  /** What the pass sends for one video: the video itself from offset 0
      with `--no-proxy`, else the proxies `prepare_video` yields. */
  function PassTargets(cfg: Config, env: Env, workDir: string, noProxy: bool, v: string, w: World)
    : (r: (seq<Target>, World))
    requires Valid(cfg)
    ensures noProxy ==> r == ([Target(v, 0)], w)
    ensures ConfinedTo(w.store.docs, r.1.store.docs, ChunksDir(workDir))
    ensures r.1.ledger == w.ledger && r.1.calls == w.calls
  {
    if noProxy then ([Target(v, 0)], w)
    else
      var prep := PrepareVideo(cfg, w.store, workDir, Stem(Name(v)), env.duration(v));
      (TargetsOf(prep.units), w.(store := prep.store, transcodes := w.transcodes + prep.transcodes))
  }

  /** Going from `before` to `after`, no document was removed, and apart
      from `path` only the chunks directory changed. */
  predicate OnlyWrites(before: map<string, Json>, after: map<string, Json>, path: string, workDir: string) {
    && before.Keys <= after.Keys
    && forall p :: p in after && p != path && !StartsWith(p, ChunksDir(workDir) + "/") ==>
         p in before && after[p] == before[p]
  }

  /** What a pass stores for a video: the merged results, with
      `_source_file` naming the video in the deep pass. */
  function Stamped(blind: bool, v: string, merged: Json): (d: Json)
    requires merged.Obj?
    ensures d.Obj? && SegmentList(d.fields) == SegmentList(merged.fields)
    ensures !blind ==> Get(d.fields, "_source_file", Null) == Str(v)
    ensures forall k :: k in merged.fields && (blind || k != "_source_file") ==> k in d.fields && d.fields[k] == merged.fields[k]
  {
    if blind then merged
    else
      var d := Obj(merged.fields["_source_file" := Str(v)]);
      assert "segments" in d.fields <==> "segments" in merged.fields;
      assert "segments" in d.fields ==> d.fields["segments"] == merged.fields["segments"];
      d
  }

  /** The progress line printed once a result is stored goes through the
      stored segments with `.get`: it needs a dict whose segments iterate
      as dicts. */
  predicate ProgressLineOk(doc: Json) {
    doc.Obj? && SegmentList(doc.fields).Ok?
  }

  /** The document a pass stores for a video: one result is kept as it
      is, several are merged (and the merge raises unless every one is
      mergeable); the deep pass adds `_source_file`. The progress line can
      read it unless it is a single result whose segments cannot be
      iterated as dicts. */
  function StoredDoc(blind: bool, v: string, results: seq<Json>): (r: Result<Json>)
    requires results != [] && forall j :: j in results ==> Annotated(j)
    ensures r.Err? <==> |results| > 1 && !AllMergeable(results)
    ensures r.Ok? ==> r.value.Obj?
    ensures r.Ok? ==> (ProgressLineOk(r.value) <==> |results| > 1 || ProgressLineOk(results[0]))
    ensures r.Ok? && !blind ==> Get(r.value.fields, "_source_file", Null) == Str(v)
    ensures r.Ok? && blind && |results| == 1 ==> r.value == results[0]
    ensures r.Ok? && |results| > 1 ==>
      && WellShaped(r.value.fields)
      && Segments(r.value.fields) == Segments(MergeSeveral(results).fields)
  {
    assert results[0] in results;
    var merged :- Merge(results);
    assert merged.Obj? by {
      if |results| == 1 { assert Annotated(results[0]); }
    }
    var doc := Stamped(blind, v, merged);
    assert |results| > 1 ==> "segments" in doc.fields && doc.fields["segments"] == merged.fields["segments"];
    assert |results| > 1 ==> SegmentList(merged.fields).Ok? by {
      if |results| > 1 { SegmentListWellShaped(merged.fields); }
    }
    Ok(doc)
  }

  /** What a pass does with the results gathered for a video: a merge that
      raises happens before anything is written; otherwise the stored
      document is written to the video's artifact path and, in the deep
      pass, the video is checkpointed; then the progress line raises if it
      cannot read the stored segments. */
  function Conclude(workDir: string, blind: bool, v: string, results: seq<Json>, w: World)
    : (r: Outcome<Json>)
    requires results != [] && forall j :: j in results ==> Annotated(j)
    ensures StoredDoc(blind, v, results).Err? ==> r.Crash? && r.world == w
    ensures var doc := StoredDoc(blind, v, results);
      doc.Ok? ==>
        && r.world == w.(store := w.store.(docs := w.store.docs[ArtifactPath(workDir, blind, v) := doc.value]),
                         ledger := if blind then w.ledger else MarkDone(w.ledger, Name(v)))
        && (r.Crash? <==> !ProgressLineOk(doc.value))
        && (r.Done? ==> r.value == doc.value)
  {
    match StoredDoc(blind, v, results)
    case Err(e) => Crash(e, w)
    case Ok(doc) =>
      var ledger := if blind then w.ledger else MarkDone(w.ledger, Name(v));
      var w1 := w.(store := w.store.(docs := w.store.docs[ArtifactPath(workDir, blind, v) := doc]), ledger := ledger);
      if !ProgressLineOk(doc) then Crash("AttributeError or TypeError: the stored segments cannot be read", w1)
      else Done(doc, w1)
  }

  /** A run of the pass on a video crashes exactly when the merge raises or
      a single result's segments cannot be read; only in the second case is
      the document already stored (and, in the deep pass, the video
      checkpointed). */
  lemma ConcludeCrashes(workDir: string, blind: bool, v: string, results: seq<Json>, w: World)
    requires results != [] && forall j :: j in results ==> Annotated(j)
    ensures var r := Conclude(workDir, blind, v, results, w);
      r.Crash? <==> (|results| > 1 && !AllMergeable(results)) || (|results| == 1 && !ProgressLineOk(results[0]))
    ensures var r := Conclude(workDir, blind, v, results, w);
      r.Crash? && |results| == 1 ==>
        && ArtifactPath(workDir, blind, v) in r.world.store.docs
        && (!blind ==> IsDone(r.world.ledger, Name(v)))
  {
    assert results[0] in results;
  }

  /** The targets of a video and what trying them gathered: only the
      chunks directory changed, the video's checkpoint did not move, and
      nothing is gathered when no target is ever answered. */
  function GatherVideo(cfg: Config, env: Env, workDir: string, noProxy: bool, blind: bool, v: string, w: World)
    : (r: Gathered)
    requires Valid(cfg)
    ensures forall j :: j in r.results ==> Annotated(j)
    ensures ConfinedTo(w.store.docs, r.world.store.docs, ChunksDir(workDir))
    ensures IsDone(r.world.ledger, Name(v)) <==> IsDone(w.ledger, Name(v))
    ensures NeverAnswers(cfg, PassAttempts(cfg, env, blind)) ==> r.results == []
    ensures w.calls <= r.world.calls
  {
    var (ts, w1) := PassTargets(cfg, env, workDir, noProxy, v, w);
    GatherResultsNone(cfg, PassAttempts(cfg, env, blind), blind, Name(v), ts, w1);
    GatherResultsAnnotated(cfg, PassAttempts(cfg, env, blind), blind, Name(v), ts, w1);
    GatherResults(cfg, PassAttempts(cfg, env, blind), blind, Name(v), ts, w1)
  }

  /** What becomes of the gathered results: nothing when there
      are none, else they are concluded. Only the video's artifact can be
      written; a crash leaves it either as it was or holding a document the
      progress line cannot read. */
  function Settle(workDir: string, blind: bool, v: string, results: seq<Json>, w: World)
    : (r: Outcome<Option<Json>>)
    requires forall j :: j in results ==> Annotated(j)
    ensures var path := ArtifactPath(workDir, blind, v);
      r.Done? && r.value.Some? ==> r.world.store.docs == w.store.docs[path := r.value.value]
    ensures r.Done? && r.value.Some? && !blind ==>
      && IsDone(r.world.ledger, Name(v))
      && r.value.value.Obj? && Get(r.value.value.fields, "_source_file", Null) == Str(v)
    ensures r.Done? ==> (r.value.None? <==> results == [])
    ensures results == [] ==> r == Done(None, w)
    ensures var path := ArtifactPath(workDir, blind, v);
      r.Crash? ==> (
        || r.world.store.docs == w.store.docs
        || (&& path in r.world.store.docs && !ProgressLineOk(r.world.store.docs[path])
            && r.world.store.docs == w.store.docs[path := r.world.store.docs[path]]))
    ensures r.world.calls == w.calls && r.world.transcodes == w.transcodes
  {
    if results == [] then Done(None, w)
    else
      match Conclude(workDir, blind, v, results, w)
      case Crash(e, w2) => Crash(e, w2)
      case Done(doc, w2) => Done(Some(doc), w2)
  }

  /** A video the pass has to analyse: its targets are prepared and tried,
      nothing is written when none answered, and otherwise the results are
      concluded as `Conclude` describes. */
  function AnalyzeFresh(cfg: Config, env: Env, workDir: string, noProxy: bool, blind: bool, v: string, w: World)
    : (r: Outcome<Option<Json>>)
    requires Valid(cfg)
    ensures var path := ArtifactPath(workDir, blind, v);
      r.Done? && r.value.Some? ==> path in r.world.store.docs && r.world.store.docs[path] == r.value.value
    ensures r.Done? && r.value.Some? && !blind ==>
      && IsDone(r.world.ledger, Name(v))
      && r.value.value.Obj? && Get(r.value.value.fields, "_source_file", Null) == Str(v)
    ensures var path := ArtifactPath(workDir, blind, v);
      r.Done? && r.value.None? && path !in w.store.docs ==> path !in r.world.store.docs
    ensures var path := ArtifactPath(workDir, blind, v);
      r.Crash? && path !in w.store.docs && path in r.world.store.docs ==> !ProgressLineOk(r.world.store.docs[path])
    ensures r.Done? && r.value.None? ==> (IsDone(r.world.ledger, Name(v)) <==> IsDone(w.ledger, Name(v)))
    ensures NeverAnswers(cfg, PassAttempts(cfg, env, blind)) ==> r.Done? && r.value.None?
    ensures OnlyWrites(w.store.docs, r.world.store.docs, ArtifactPath(workDir, blind, v), workDir)
    ensures w.calls <= r.world.calls
  {
    var g := GatherVideo(cfg, env, workDir, noProxy, blind, v, w);
    var r := Settle(workDir, blind, v, g.results, g.world);
    var path := ArtifactPath(workDir, blind, v);
    var d := if path in r.world.store.docs then r.world.store.docs[path] else Null;
    SettleOutside(workDir, blind, v, w.store.docs, g.world.store.docs, r.world.store.docs, d);
    r
  }

  /** Gathering changes only the chunks directory and settling at most
      the artifact, so together they write nothing else, and an artifact
      that was missing before gathering is still missing after it. */
  lemma SettleOutside(workDir: string, blind: bool, v: string, a: map<string, Json>, b: map<string, Json>,
                       c: map<string, Json>, d: Json)
    requires ConfinedTo(a, b, ChunksDir(workDir))
    requires c == b || c == b[ArtifactPath(workDir, blind, v) := d]
    ensures OnlyWrites(a, c, ArtifactPath(workDir, blind, v), workDir)
    ensures ArtifactPath(workDir, blind, v) in a <==> ArtifactPath(workDir, blind, v) in b
  {
    ArtifactOutsideChunks(workDir, blind, v);
  }

  /** The body of the loops of `phase_blind_analysis` (`blind`) and
      `phase_analysis` for one video: a stored result is loaded first; the
      deep pass then skips a video its checkpoint marks done; any other
      video is analysed. Only the video's own artifact and the chunks
      directory can change, and a crash leaves the artifact missing or
      holding a document the progress line cannot read. */
  function AnalyzeVideo(cfg: Config, env: Env, workDir: string, noProxy: bool, blind: bool, v: string, w: World)
    : (r: Outcome<Option<Json>>)
    requires Valid(cfg)
    ensures var path := ArtifactPath(workDir, blind, v);
      path in w.store.docs ==> r == Done(Some(w.store.docs[path]), w)
    ensures var path := ArtifactPath(workDir, blind, v);
      path !in w.store.docs && !blind && IsDone(w.ledger, Name(v)) ==> r == Done(None, w)
    ensures var path := ArtifactPath(workDir, blind, v);
      r.Done? && r.value.Some? ==> path in r.world.store.docs && r.world.store.docs[path] == r.value.value
    ensures var path := ArtifactPath(workDir, blind, v);
      path !in w.store.docs && r.Done? && r.value.Some? && !blind ==>
        && IsDone(r.world.ledger, Name(v))
        && r.value.value.Obj? && Get(r.value.value.fields, "_source_file", Null) == Str(v)
    ensures var path := ArtifactPath(workDir, blind, v);
      r.Done? && r.value.None? ==>
        && path !in r.world.store.docs
        && (IsDone(r.world.ledger, Name(v)) <==> IsDone(w.ledger, Name(v)))
    ensures var path := ArtifactPath(workDir, blind, v);
      r.Crash? ==> path !in r.world.store.docs || !ProgressLineOk(r.world.store.docs[path])
    ensures NeverAnswers(cfg, PassAttempts(cfg, env, blind)) ==> r.Done? && (r.value.None? <==> ArtifactPath(workDir, blind, v) !in w.store.docs)
    ensures OnlyWrites(w.store.docs, r.world.store.docs, ArtifactPath(workDir, blind, v), workDir)
    ensures w.calls <= r.world.calls
  {
    var path := ArtifactPath(workDir, blind, v);
    if path in w.store.docs then Done(Some(w.store.docs[path]), w)
    else if !blind && IsDone(w.ledger, Name(v)) then Done(None, w)
    else AnalyzeFresh(cfg, env, workDir, noProxy, blind, v, w)
  }

  /** The stored results never lie in the chunks directory, where
      preparing a video writes its chunk metadata. */
  lemma ArtifactOutsideChunks(workDir: string, blind: bool, v: string)
    ensures !StartsWith(ArtifactPath(workDir, blind, v), ChunksDir(workDir) + "/")
  {
    var rest := Stem(Name(v)) + ".json";
    var sub := if blind then "blind_analysis" else "raw_json";
    assert sub[0] != 'c';
    assert ArtifactPath(workDir, blind, v) == PathJoin(PathJoin(workDir, sub), rest);
    SubdirAt(workDir, sub, rest);
    SubdirAt(workDir, "chunks", "");
    NotPrefixAt(ArtifactPath(workDir, blind, v), ChunksDir(workDir) + "/", |workDir| + 1);
  }

  /** The first letter of a sub-directory of `workDir` sits just after the
      separator. */
  lemma SubdirAt(workDir: string, sub: string, rest: string)
    requires |sub| > 0
    ensures var p := PathJoin(PathJoin(workDir, sub), rest);
      |workDir| + 1 < |p| && p[|workDir| + 1] == sub[0]
    ensures rest == "" ==>
      var q := PathJoin(workDir, sub) + "/";
      |workDir| + 1 < |q| && q[|workDir| + 1] == sub[0]
  {
  }

  /** Two strings that differ at a position both reach do not start one
      with the other. */
  lemma NotPrefixAt(s: string, prefix: string, i: nat)
    requires i < |s| && i < |prefix| && s[i] != prefix[i]
    ensures !StartsWith(s, prefix)
  {
  }

  /** A stored result wins over the checkpoint: whatever the ledger says,
      the video is loaded from its file and nothing is called. */
  lemma ArtifactBeatsLedger(cfg: Config, env: Env, workDir: string, noProxy: bool, v: string, w: World, l: Ledger)
    requires Valid(cfg) && RawPath(workDir, Stem(Name(v))) in w.store.docs
    ensures AnalyzeVideo(cfg, env, workDir, noProxy, false, v, w.(ledger := l))
         == Done(Some(w.store.docs[RawPath(workDir, Stem(Name(v)))]), w.(ledger := l))
  {
  }

  /** A video the checkpoint marks done but whose stored result is gone gets
      no entry at all: it is neither reloaded nor analysed again. */
  lemma DoneWithoutArtifactIsDropped(cfg: Config, env: Env, workDir: string, noProxy: bool, v: string, w: World)
    requires Valid(cfg) && RawPath(workDir, Stem(Name(v))) !in w.store.docs && IsDone(w.ledger, Name(v))
    ensures AnalyzeVideo(cfg, env, workDir, noProxy, false, v, w) == Done(None, w)
  {
  }

  /** A second run of the pass over a video that produced a result makes no
      request and returns the same result. */
  lemma AnalyzeVideoResumes(cfg: Config, env: Env, workDir: string, noProxy: bool, blind: bool, v: string, w: World)
    requires Valid(cfg)
    requires AnalyzeVideo(cfg, env, workDir, noProxy, blind, v, w).Done?
    requires AnalyzeVideo(cfg, env, workDir, noProxy, blind, v, w).value.Some?
    ensures var first := AnalyzeVideo(cfg, env, workDir, noProxy, blind, v, w);
      AnalyzeVideo(cfg, env, workDir, noProxy, blind, v, first.world) == Done(first.value, first.world)
  {
  }

  /** With the shipped configuration the blind pass never keeps anything for
      a video it has to analyse: every attempt raises, so no blind result is
      written and the enrichment never happens. */
  lemma BlindPassKeepsNothingAsShipped(env: Env, workDir: string, noProxy: bool, v: string, w: World)
    requires BlindPath(workDir, Stem(Name(v))) !in w.store.docs
    ensures var r := AnalyzeVideo(Shipped, env, workDir, noProxy, true, v, w);
      r.Done? && r.value == None && BlindPath(workDir, Stem(Name(v))) !in r.world.store.docs
  {
    ShippedValid();
    var fn := PassAttempts(Shipped, env, true);
    forall t ensures !Answered(Shipped, fn, t) {
      forall k | 1 <= k <= Shipped.maxRetries ensures fn(t, k).Raised? {
        BlindPassAlwaysFailsAsShipped(env.gemini, env.loads, t.path, t.start, k);
      }
    }
  }

  // ---------------------------------------------------------------------------
  // Phases 2a and 2b: all videos

  /** A Python dict with its insertion order. */
  datatype Ordered = Ordered(order: seq<string>, entries: map<string, Json>)

  predicate Coherent(o: Ordered) {
    && (forall i :: 0 <= i < |o.order| ==> o.order[i] in o.entries)
    && (forall k :: k in o.entries ==> k in o.order)
    && (forall i, j :: 0 <= i < j < |o.order| ==> o.order[i] != o.order[j])
  }

  const NoEntries: Ordered := Ordered([], map[])

  /** Replacing the values of a dict, keeping its keys, keeps it coherent. */
  lemma CoherentSameKeys(o: Ordered, m: map<string, Json>)
    requires Coherent(o) && m.Keys == o.entries.Keys
    ensures Coherent(Ordered(o.order, m))
  {
    assert forall i :: 0 <= i < |o.order| ==> o.order[i] in o.entries.Keys;
  }

  /** `d[k] = v`: a new key goes last, an existing one keeps its place. */
  function Put(o: Ordered, k: string, v: Json): (r: Ordered)
    requires Coherent(o)
    ensures Coherent(r)
    ensures r.entries == o.entries[k := v]
    ensures |o.order| <= |r.order| && r.order[..|o.order|] == o.order
  {
    if k in o.entries then Ordered(o.order, o.entries[k := v])
    else Ordered(o.order + [k], o.entries[k := v])
  }

  /** Setting one key leaves the value under any other key alone. */
  lemma PutKeepsOther(o: Ordered, k: string, v: Json, name: string)
    requires Coherent(o) && name in o.entries && name != k
    ensures name in Put(o, k, v).entries && Put(o, k, v).entries[name] == o.entries[name]
  {
  }

  /** Setting a key adds it to the keys. */
  lemma PutKeys(o: Ordered, k: string, v: Json)
    requires Coherent(o)
    ensures Put(o, k, v).entries.Keys == o.entries.Keys + {k}
  {
  }

  /** The loop of `phase_blind_analysis` (`blind`) or `phase_analysis`:
      each video's outcome is recorded under its name, in order, and the
      first exception stops the loop. */
  function PassAll(cfg: Config, env: Env, workDir: string, noProxy: bool, blind: bool, videos: seq<string>,
                   w: World, acc: Ordered): (r: Outcome<Ordered>)
    requires Valid(cfg) && Coherent(acc)
    ensures r.Done? ==> Coherent(r.value)
    ensures r.Done? ==> acc.entries.Keys <= r.value.entries.Keys
    ensures w.store.docs.Keys <= r.world.store.docs.Keys
    ensures w.calls <= r.world.calls
    decreases |videos|
  {
    if |videos| == 0 then Done(acc, w)
    else
      var v := videos[0];
      match AnalyzeVideo(cfg, env, workDir, noProxy, blind, v, w)
      case Crash(e, w1) => Crash(e, w1)
      case Done(res, w1) =>
        var acc1 := if res.Some? then Put(acc, Name(v), res.value) else acc;
        PassAll(cfg, env, workDir, noProxy, blind, videos[1..], w1, acc1)
  }

  /** The loop after its first video, when that video went through. */
  lemma PassAllStep(cfg: Config, env: Env, workDir: string, noProxy: bool, blind: bool, videos: seq<string>,
                    w: World, acc: Ordered)
    requires Valid(cfg) && Coherent(acc) && |videos| > 0
    ensures var a := AnalyzeVideo(cfg, env, workDir, noProxy, blind, videos[0], w);
      a.Crash? ==> PassAll(cfg, env, workDir, noProxy, blind, videos, w, acc) == Crash(a.error, a.world)
    ensures var a := AnalyzeVideo(cfg, env, workDir, noProxy, blind, videos[0], w);
      a.Done? ==> (
        PassAll(cfg, env, workDir, noProxy, blind, videos, w, acc)
        == PassAll(cfg, env, workDir, noProxy, blind, videos[1..], a.world,
                   if a.value.Some? then Put(acc, Name(videos[0]), a.value.value) else acc))
    ensures forall i :: 1 <= i < |videos| ==> videos[i] == videos[1..][i - 1]
  {
  }

  /** Analysing one video leaves every stored result of any video as it
      was. */
  lemma AnalyzeVideoKeepsArtifact(cfg: Config, env: Env, workDir: string, noProxy: bool, blind: bool, v: string,
                                  w: World, u: string)
    requires Valid(cfg) && ArtifactPath(workDir, blind, u) in w.store.docs
    ensures var a := AnalyzeVideo(cfg, env, workDir, noProxy, blind, v, w);
      ArtifactPath(workDir, blind, u) in a.world.store.docs
      && a.world.store.docs[ArtifactPath(workDir, blind, u)] == w.store.docs[ArtifactPath(workDir, blind, u)]
  {
    ArtifactOutsideChunks(workDir, blind, u);
  }

  /** A stored result present before the pass is still there, unchanged,
      after it. */
  lemma {:induction false} PassAllKeepsArtifact(cfg: Config, env: Env, workDir: string, noProxy: bool, blind: bool,
                                                videos: seq<string>, w: World, acc: Ordered, u: string)
    requires Valid(cfg) && Coherent(acc) && ArtifactPath(workDir, blind, u) in w.store.docs
    ensures var r := PassAll(cfg, env, workDir, noProxy, blind, videos, w, acc);
      ArtifactPath(workDir, blind, u) in r.world.store.docs
      && r.world.store.docs[ArtifactPath(workDir, blind, u)] == w.store.docs[ArtifactPath(workDir, blind, u)]
    decreases |videos|
  {
    if |videos| > 0 {
      PassAllStep(cfg, env, workDir, noProxy, blind, videos, w, acc);
      AnalyzeVideoKeepsArtifact(cfg, env, workDir, noProxy, blind, videos[0], w, u);
      var a := AnalyzeVideo(cfg, env, workDir, noProxy, blind, videos[0], w);
      if a.Done? {
        var acc1 := if a.value.Some? then Put(acc, Name(videos[0]), a.value.value) else acc;
        PassAllKeepsArtifact(cfg, env, workDir, noProxy, blind, videos[1..], a.world, acc1, u);
      }
    }
  }

  /** A path that is no video's stored result and lies outside the chunks
      directory is neither written nor removed by the pass. */
  lemma {:induction false} PassAllFrame(cfg: Config, env: Env, workDir: string, noProxy: bool, blind: bool,
                                        videos: seq<string>, w: World, acc: Ordered, p: string)
    requires Valid(cfg) && Coherent(acc) && !StartsWith(p, ChunksDir(workDir) + "/")
    requires forall i :: 0 <= i < |videos| ==> p != ArtifactPath(workDir, blind, videos[i])
    ensures var r := PassAll(cfg, env, workDir, noProxy, blind, videos, w, acc);
      && (p in r.world.store.docs <==> p in w.store.docs)
      && (p in w.store.docs ==> r.world.store.docs[p] == w.store.docs[p])
    decreases |videos|
  {
    if |videos| > 0 {
      PassAllStep(cfg, env, workDir, noProxy, blind, videos, w, acc);
      var a := AnalyzeVideo(cfg, env, workDir, noProxy, blind, videos[0], w);
      if a.Done? {
        var acc1 := if a.value.Some? then Put(acc, Name(videos[0]), a.value.value) else acc;
        PassAllFrame(cfg, env, workDir, noProxy, blind, videos[1..], a.world, acc1, p);
      }
    }
  }

  /** An entry under a name no video carries keeps its value. */
  lemma {:induction false} PassAllKeepsOthers(cfg: Config, env: Env, workDir: string, noProxy: bool, blind: bool,
                                              videos: seq<string>, w: World, acc: Ordered, name: string)
    requires Valid(cfg) && Coherent(acc) && name in acc.entries
    requires forall i :: 0 <= i < |videos| ==> Name(videos[i]) != name
    requires PassAll(cfg, env, workDir, noProxy, blind, videos, w, acc).Done?
    ensures var r := PassAll(cfg, env, workDir, noProxy, blind, videos, w, acc);
      name in r.value.entries && r.value.entries[name] == acc.entries[name]
    decreases |videos|
  {
    if |videos| > 0 {
      PassAllStep(cfg, env, workDir, noProxy, blind, videos, w, acc);
      var a := AnalyzeVideo(cfg, env, workDir, noProxy, blind, videos[0], w);
      assert a.Done?;
      var acc1 := if a.value.Some? then Put(acc, Name(videos[0]), a.value.value) else acc;
      if a.value.Some? {
        PutKeepsOther(acc, Name(videos[0]), a.value.value, name);
      }
      forall i | 0 <= i < |videos| - 1 ensures Name(videos[1..][i]) != name {
        assert videos[1..][i] == videos[i + 1];
      }
      PassAllKeepsOthers(cfg, env, workDir, noProxy, blind, videos[1..], a.world, acc1, name);
    }
  }

  /** Every entry the pass leaves was there before or is the stored result
      of a video of that name, as it stands after the pass. */
  lemma {:induction false} PassAllEntries(cfg: Config, env: Env, workDir: string, noProxy: bool, blind: bool,
                                          videos: seq<string>, w: World, acc: Ordered, name: string)
    requires Valid(cfg) && Coherent(acc)
    requires PassAll(cfg, env, workDir, noProxy, blind, videos, w, acc).Done?
    ensures var r := PassAll(cfg, env, workDir, noProxy, blind, videos, w, acc);
      name in r.value.entries ==>
        || (name in acc.entries && r.value.entries[name] == acc.entries[name])
        || exists v :: v in videos && Name(v) == name && ArtifactPath(workDir, blind, v) in r.world.store.docs
             && r.value.entries[name] == r.world.store.docs[ArtifactPath(workDir, blind, v)]
    decreases |videos|
  {
    if |videos| > 0 {
      var v := videos[0];
      PassAllStep(cfg, env, workDir, noProxy, blind, videos, w, acc);
      var a := AnalyzeVideo(cfg, env, workDir, noProxy, blind, v, w);
      var acc1 := if a.value.Some? then Put(acc, Name(v), a.value.value) else acc;
      PassAllEntries(cfg, env, workDir, noProxy, blind, videos[1..], a.world, acc1, name);
      var r := PassAll(cfg, env, workDir, noProxy, blind, videos, w, acc);
      if name in r.value.entries && name in acc1.entries && r.value.entries[name] == acc1.entries[name] {
        if a.value.Some? && name == Name(v) {
          PassAllKeepsArtifact(cfg, env, workDir, noProxy, blind, videos[1..], a.world, acc1, v);
          assert v in videos;
        }
      }
      if name in r.value.entries && exists u :: (
           && u in videos[1..] && Name(u) == name && ArtifactPath(workDir, blind, u) in r.world.store.docs
           && r.value.entries[name] == r.world.store.docs[ArtifactPath(workDir, blind, u)]) {
        var u :| u in videos[1..] && Name(u) == name && ArtifactPath(workDir, blind, u) in r.world.store.docs
             && r.value.entries[name] == r.world.store.docs[ArtifactPath(workDir, blind, u)];
        assert u in videos;
      }
    }
  }

  /** A video no later video shares a stored-result path with: when its
      stored result exists after the pass, its entry is that result. */
  lemma {:induction false} PassAllEntryOfLast(cfg: Config, env: Env, workDir: string, noProxy: bool, blind: bool,
                                              videos: seq<string>, w: World, acc: Ordered, i: nat)
    requires Valid(cfg) && Coherent(acc)
    requires PassAll(cfg, env, workDir, noProxy, blind, videos, w, acc).Done?
    requires i < |videos|
    requires forall j :: i < j < |videos| ==> ArtifactPath(workDir, blind, videos[j]) != ArtifactPath(workDir, blind, videos[i])
    ensures var r := PassAll(cfg, env, workDir, noProxy, blind, videos, w, acc);
      ArtifactPath(workDir, blind, videos[i]) in r.world.store.docs ==>
        && Name(videos[i]) in r.value.entries
        && r.value.entries[Name(videos[i])] == r.world.store.docs[ArtifactPath(workDir, blind, videos[i])]
    decreases |videos|
  {
    var v := videos[0];
    PassAllStep(cfg, env, workDir, noProxy, blind, videos, w, acc);
    var a := AnalyzeVideo(cfg, env, workDir, noProxy, blind, v, w);
    var acc1 := if a.value.Some? then Put(acc, Name(v), a.value.value) else acc;
    if i > 0 {
      PassAllEntryOfLast(cfg, env, workDir, noProxy, blind, videos[1..], a.world, acc1, i - 1);
    } else {
      var path := ArtifactPath(workDir, blind, v);
      forall j | 0 <= j < |videos[1..]| ensures Name(videos[1..][j]) != Name(v) {
        assert ArtifactPath(workDir, blind, videos[j + 1]) != path;
      }
      if a.value.Some? {
        PassAllKeepsOthers(cfg, env, workDir, noProxy, blind, videos[1..], a.world, acc1, Name(v));
        PassAllKeepsArtifact(cfg, env, workDir, noProxy, blind, videos[1..], a.world, acc1, v);
      } else {
        ArtifactOutsideChunks(workDir, blind, v);
        PassAllFrame(cfg, env, workDir, noProxy, blind, videos[1..], a.world, acc1, path);
      }
    }
  }

  /** The names of some videos. */
  function NamesOf(videos: seq<string>): set<string> {
    set v | v in videos :: Name(v)
  }

  /** Splitting off the first video. */
  lemma NamesOfCons(keys: set<string>, videos: seq<string>)
    requires |videos| > 0
    ensures keys + {Name(videos[0])} + NamesOf(videos[1..]) == keys + NamesOf(videos)
  {
    assert videos == [videos[0]] + videos[1..];
  }

  /** A video whose stored result exists is loaded from it, whichever pass
      this is, and nothing else happens. */
  lemma AnalyzeVideoCached(cfg: Config, env: Env, workDir: string, noProxy: bool, blind: bool, v: string, w: World)
    requires Valid(cfg) && ArtifactPath(workDir, blind, v) in w.store.docs
    ensures AnalyzeVideo(cfg, env, workDir, noProxy, blind, v, w)
         == Done(Some(w.store.docs[ArtifactPath(workDir, blind, v)]), w)
  {
  }

  /** When every video already has its stored result, the pass only loads
      them: no request, no transcode, no change to the world. */
  lemma {:induction false} PassAllCached(cfg: Config, env: Env, workDir: string, noProxy: bool, blind: bool,
                                         videos: seq<string>, w: World, acc: Ordered)
    requires Valid(cfg) && Coherent(acc)
    requires forall v :: v in videos ==> ArtifactPath(workDir, blind, v) in w.store.docs
    ensures var r := PassAll(cfg, env, workDir, noProxy, blind, videos, w, acc);
      r.Done? && r.world == w
    decreases |videos|
  {
    if |videos| > 0 {
      var v := videos[0];
      assert videos[0] in videos;
      var doc := w.store.docs[ArtifactPath(workDir, blind, v)];
      AnalyzeVideoCached(cfg, env, workDir, noProxy, blind, v, w);
      PassAllStep(cfg, env, workDir, noProxy, blind, videos, w, acc);
      var acc1 := Put(acc, Name(v), doc);
      assert forall u :: u in videos[1..] ==> u in videos;
      PassAllCached(cfg, env, workDir, noProxy, blind, videos[1..], w, acc1);
    }
  }

  /** ... and leaves an entry for every video's name. */
  lemma {:induction false} PassAllCachedNames(cfg: Config, env: Env, workDir: string, noProxy: bool, blind: bool,
                                              videos: seq<string>, w: World, acc: Ordered)
    requires Valid(cfg) && Coherent(acc)
    requires forall v :: v in videos ==> ArtifactPath(workDir, blind, v) in w.store.docs
    ensures PassAll(cfg, env, workDir, noProxy, blind, videos, w, acc).Done?
    ensures PassAll(cfg, env, workDir, noProxy, blind, videos, w, acc).value.entries.Keys
         == acc.entries.Keys + NamesOf(videos)
    decreases |videos|
  {
    PassAllCached(cfg, env, workDir, noProxy, blind, videos, w, acc);
    if |videos| > 0 {
      var v := videos[0];
      assert videos[0] in videos;
      var doc := w.store.docs[ArtifactPath(workDir, blind, v)];
      AnalyzeVideoCached(cfg, env, workDir, noProxy, blind, v, w);
      PassAllStep(cfg, env, workDir, noProxy, blind, videos, w, acc);
      var acc1 := Put(acc, Name(v), doc);
      assert PassAll(cfg, env, workDir, noProxy, blind, videos, w, acc)
          == PassAll(cfg, env, workDir, noProxy, blind, videos[1..], w, acc1);
      PutKeys(acc, Name(v), doc);
      assert forall u :: u in videos[1..] ==> u in videos;
      PassAllCachedNames(cfg, env, workDir, noProxy, blind, videos[1..], w, acc1);
      NamesOfCons(acc.entries.Keys, videos);
      calc {
        PassAll(cfg, env, workDir, noProxy, blind, videos, w, acc).value.entries.Keys;
        PassAll(cfg, env, workDir, noProxy, blind, videos[1..], w, acc1).value.entries.Keys;
        acc.entries.Keys + {Name(v)} + NamesOf(videos[1..]);
        acc.entries.Keys + NamesOf(videos);
      }
    }
  }

  /** `phase > 3`: the stored deep results are loaded under the videos'
      names (`pathOf` gives a video's stored-result path), nothing is
      analysed. */
  function LoadStored(pathOf: string -> string, videos: seq<string>, docs: map<string, Json>, acc: Ordered)
    : (r: Ordered)
    requires Coherent(acc)
    ensures Coherent(r)
    ensures forall name :: name in r.entries <==>
      name in acc.entries || exists v :: v in videos && Name(v) == name && pathOf(v) in docs
    decreases |videos|
  {
    if |videos| == 0 then acc
    else
      var v := videos[0];
      var acc1 := if pathOf(v) in docs then Put(acc, Name(v), docs[pathOf(v)]) else acc;
      var r := LoadStored(pathOf, videos[1..], docs, acc1);
      assert forall name :: name in r.entries <==>
          name in acc.entries || exists u :: u in videos && Name(u) == name && pathOf(u) in docs by {
        forall name ensures name in r.entries <==>
            name in acc.entries || exists u :: u in videos && Name(u) == name && pathOf(u) in docs {
          if name in r.entries && name !in acc.entries {
            if name in acc1.entries {
              assert v in videos && Name(v) == name && pathOf(v) in docs;
            } else {
              var u :| u in videos[1..] && Name(u) == name && pathOf(u) in docs;
              assert u in videos;
            }
          }
          if exists u :: u in videos && Name(u) == name && pathOf(u) in docs {
            var u :| u in videos && Name(u) == name && pathOf(u) in docs;
            if u != v {
              assert u in videos[1..];
            }
          }
        }
      }
      r
  }

  /** A video that has a stored result and is the last loaded one of its
      name gets that stored result as its entry. */
  lemma {:induction false} LoadStoredLast(pathOf: string -> string, videos: seq<string>, docs: map<string, Json>,
                                          acc: Ordered, i: nat)
    requires Coherent(acc) && i < |videos| && pathOf(videos[i]) in docs
    requires forall j :: i < j < |videos| && pathOf(videos[j]) in docs ==> Name(videos[j]) != Name(videos[i])
    ensures Name(videos[i]) in LoadStored(pathOf, videos, docs, acc).entries
    ensures LoadStored(pathOf, videos, docs, acc).entries[Name(videos[i])] == docs[pathOf(videos[i])]
    decreases |videos|
  {
    var v := videos[0];
    var acc1 := if pathOf(v) in docs then Put(acc, Name(v), docs[pathOf(v)]) else acc;
    if i > 0 {
      LoadStoredLast(pathOf, videos[1..], docs, acc1, i - 1);
    } else {
      forall j | 0 <= j < |videos| - 1 && pathOf(videos[1..][j]) in docs ensures Name(videos[1..][j]) != Name(v) {
        assert videos[1..][j] == videos[j + 1];
      }
      LoadStoredKeeps(pathOf, videos[1..], docs, acc1, Name(v));
    }
  }

  /** A name none of whose videos has a stored result keeps its entry. */
  lemma {:induction false} LoadStoredKeeps(pathOf: string -> string, videos: seq<string>, docs: map<string, Json>,
                                           acc: Ordered, name: string)
    requires Coherent(acc) && name in acc.entries
    requires forall j :: 0 <= j < |videos| && pathOf(videos[j]) in docs ==> Name(videos[j]) != name
    ensures name in LoadStored(pathOf, videos, docs, acc).entries
    ensures LoadStored(pathOf, videos, docs, acc).entries[name] == acc.entries[name]
    decreases |videos|
  {
    if |videos| > 0 {
      var v := videos[0];
      var acc1 := if pathOf(v) in docs then Put(acc, Name(v), docs[pathOf(v)]) else acc;
      forall j | 0 <= j < |videos| - 1 && pathOf(videos[1..][j]) in docs ensures Name(videos[1..][j]) != name {
        assert videos[1..][j] == videos[j + 1];
      }
      LoadStoredKeeps(pathOf, videos[1..], docs, acc1, name);
    }
  }

  // ---------------------------------------------------------------------------
  // Enrichment rewrite, export, synthesis

  /** The rewrite after `enrich_with_blind`: each entry written back to
      its stored-result path `pathOf(name)`, in insertion order, so that of
      two names with the same path the later one's document stays. */
  function Rewrite(pathOf: string -> string, order: seq<string>, entries: map<string, Json>, docs: map<string, Json>)
    : (r: map<string, Json>)
    requires forall i :: 0 <= i < |order| ==> order[i] in entries
    ensures forall i :: 0 <= i < |order| ==> pathOf(order[i]) in r
    ensures forall i :: 0 <= i < |order| && LastOfPath(pathOf, order, i) ==> r[pathOf(order[i])] == entries[order[i]]
    ensures forall p :: p in docs && (forall i :: 0 <= i < |order| ==> p != pathOf(order[i])) ==>
      p in r && r[p] == docs[p]
    decreases |order|
  {
    if |order| == 0 then docs
    else
      var init := order[..|order| - 1];
      var last := order[|order| - 1];
      assert forall i :: 0 <= i < |init| ==> init[i] == order[i];
      var m := Rewrite(pathOf, init, entries, docs);
      var r := m[pathOf(last) := entries[last]];
      RewriteCovers(pathOf, order, entries, m, r);
      RewriteLatest(pathOf, order, init, entries, m, r);
      RewriteKeeps(pathOf, order, entries, docs, m, r);
      r
  }

  lemma RewriteCovers(pathOf: string -> string, order: seq<string>, entries: map<string, Json>, m: map<string, Json>,
                      r: map<string, Json>)
    requires |order| > 0 && order[|order| - 1] in entries
    requires forall i :: 0 <= i < |order| - 1 ==> pathOf(order[i]) in m
    requires r == m[pathOf(order[|order| - 1]) := entries[order[|order| - 1]]]
    ensures forall i :: 0 <= i < |order| ==> pathOf(order[i]) in r
  {
  }

  /** No later name in `order` shares the path of the `i`-th. */
  predicate LastOfPath(pathOf: string -> string, order: seq<string>, i: nat)
    requires i < |order|
  {
    forall j :: i < j < |order| ==> pathOf(order[j]) != pathOf(order[i])
  }

  lemma RewriteLatest(pathOf: string -> string, order: seq<string>, init: seq<string>, entries: map<string, Json>,
                      m: map<string, Json>, r: map<string, Json>)
    requires |order| > 0 && init == order[..|order| - 1] && forall i :: 0 <= i < |order| ==> order[i] in entries
    requires forall i :: 0 <= i < |init| && LastOfPath(pathOf, init, i) ==>
      pathOf(init[i]) in m && m[pathOf(init[i])] == entries[init[i]]
    requires r == m[pathOf(order[|order| - 1]) := entries[order[|order| - 1]]]
    ensures forall i :: 0 <= i < |order| && LastOfPath(pathOf, order, i) ==>
      pathOf(order[i]) in r && r[pathOf(order[i])] == entries[order[i]]
  {
    forall i | 0 <= i < |order| && LastOfPath(pathOf, order, i)
      ensures pathOf(order[i]) in r && r[pathOf(order[i])] == entries[order[i]]
    {
      if i < |order| - 1 {
        LastOfPathInit(pathOf, order, i);
      }
    }
  }

  /** The last of a path in `order` is the last of it among the names before
      the final one, and does not share the final one's path. */
  lemma LastOfPathInit(pathOf: string -> string, order: seq<string>, i: nat)
    requires i < |order| - 1 && LastOfPath(pathOf, order, i)
    ensures LastOfPath(pathOf, order[..|order| - 1], i) && order[..|order| - 1][i] == order[i]
    ensures pathOf(order[|order| - 1]) != pathOf(order[i])
  {
  }

  lemma RewriteKeeps(pathOf: string -> string, order: seq<string>, entries: map<string, Json>, docs: map<string, Json>,
                     m: map<string, Json>, r: map<string, Json>)
    requires |order| > 0 && order[|order| - 1] in entries
    requires forall p :: p in docs && (forall i :: 0 <= i < |order| - 1 ==> p != pathOf(order[i])) ==>
      p in m && m[p] == docs[p]
    requires r == m[pathOf(order[|order| - 1]) := entries[order[|order| - 1]]]
    ensures forall p :: p in docs && (forall i :: 0 <= i < |order| ==> p != pathOf(order[i])) ==>
      p in r && r[p] == docs[p]
  {
  }

    /** `all_analyses.get(video.name)`. */
  function AnalysisOf(analyses: map<string, Json>, v: string): Json {
    Get(analyses, Name(v), Null)
  }

  /** `generate_fcpxml` with its defaults (25 fps, duration from the
      segments) goes through: the analysis is a dict and its timeline
      builds. */
  predicate TimelineOk(a: Json, repr: Json -> string) {
    a.Obj? && Fcpxml.GenerateFcpxml(a.fields, 25, None, repr).Ok?
  }

  /** `generate_video_report` goes through. */
  predicate ReportOk(a: Json, repr: Json -> string) {
    a.Obj? && Report.VideoReport(a.fields, repr).Ok?
  }

  /** The export of a video with this analysis raises nothing: it is
      skipped, or both its files are written. */
  predicate ExportsCleanly(a: Json, repr: Json -> string) {
    !Truthy(a) || (TimelineOk(a, repr) && ReportOk(a, repr))
  }

  /** How one video's export ends. */
  datatype VideoExport = Skipped | Written | TimelineFailed(error: string) | ReportFailed(error: string)

  /** The body of `phase_export`'s loop for one analysis: skipped when it
      is falsy; otherwise the timeline is generated (a value without `get`
      raises), then the log. */
  function ExportStep(a: Json, repr: Json -> string): (r: VideoExport)
    ensures r.Skipped? <==> !Truthy(a)
    ensures r.Written? <==> Truthy(a) && TimelineOk(a, repr) && ReportOk(a, repr)
    ensures r.TimelineFailed? <==> Truthy(a) && !TimelineOk(a, repr)
    ensures r.ReportFailed? <==> Truthy(a) && TimelineOk(a, repr) && !ReportOk(a, repr)
  {
    if !Truthy(a) then Skipped
    else if !a.Obj? then TimelineFailed("AttributeError: the analysis has no attribute 'get'")
    else match Fcpxml.GenerateFcpxml(a.fields, 25, None, repr)
      case Err(e) => TimelineFailed(e)
      case Ok(_) =>
        match Report.VideoReport(a.fields, repr)
        case Err(e) => ReportFailed(e)
        case Ok(_) => Written
  }

  /** The step of each video, by its analysis. */
  function Steps(analyses: map<string, Json>, repr: Json -> string): string -> VideoExport {
    (v: string) => ExportStep(AnalysisOf(analyses, v), repr)
  }

  /** The step raises nothing. */
  predicate Clean(e: VideoExport) {
    e.Skipped? || e.Written?
  }

  /** The position of the first video whose export raises, `|videos|` when
      none does. */
  function FirstExportFailure(videos: seq<string>, step: string -> VideoExport): (n: nat)
    ensures n <= |videos|
    ensures forall i :: 0 <= i < n ==> Clean(step(videos[i]))
    ensures n < |videos| ==> !Clean(step(videos[n]))
    decreases |videos|
  {
    if |videos| == 0 then 0
    else if !Clean(step(videos[0])) then 0
    else
      var n := FirstExportFailure(videos[1..], step);
      assert forall i :: 1 <= i < |videos| ==> videos[i] == videos[1..][i - 1];
      1 + n
  }

  /** Where the export writes a video's timeline and its log. */
  datatype Targets = Targets(timeline: string -> string, log: string -> string)

  /** `fcpxml/<stem>.fcpxml` and `reports/<stem>_log.md` under the work
      directory. */
  function TargetsIn(workDir: string): Targets {
    Targets(v => FcpxmlPath(workDir, v), v => ReportPath(workDir, v))
  }

  /** What an export leaves: the exception that stopped it, if any, and
      the files. */
  datatype Exported = Exported(error: Option<string>, files: set<string>)

  /** The loop of `phase_export` over the files: a skipped video adds
      nothing; otherwise its timeline is written, then its log, and the
      first exception stops the loop with the files written so far (a
      timeline whose log then fails stays). */
  function ExportFiles(to: Targets, step: string -> VideoExport, videos: seq<string>, files: set<string>)
    : (r: Exported)
    ensures files <= r.files
    ensures r.error.None? <==> FirstExportFailure(videos, step) == |videos|
    decreases |videos|
  {
    if |videos| == 0 then Exported(None, files)
    else
      var v := videos[0];
      match step(v)
      case Skipped => ExportFiles(to, step, videos[1..], files)
      case TimelineFailed(e) => Exported(Some(e), files)
      case ReportFailed(e) => Exported(Some(e), files + {to.timeline(v)})
      case Written => ExportFiles(to, step, videos[1..], files + {to.timeline(v), to.log(v)})
  }

  /** The files a video's step adds when it raises nothing. */
  function Adds(to: Targets, v: string, e: VideoExport): set<string> {
    if e.Written? then {to.timeline(v), to.log(v)} else {}
  }

  /** The loop after a first video whose step raised nothing. */
  lemma ExportFilesStep(to: Targets, step: string -> VideoExport, videos: seq<string>, files: set<string>)
    requires |videos| > 0 && Clean(step(videos[0]))
    ensures ExportFiles(to, step, videos, files)
         == ExportFiles(to, step, videos[1..], files + Adds(to, videos[0], step(videos[0])))
  {
    if step(videos[0]).Skipped? {
      assert files + Adds(to, videos[0], step(videos[0])) == files;
    }
  }

  /** Every video before the first failure whose files were written has
      both of them; the video whose export raises has its timeline when
      only its log failed. */
  lemma {:induction false} ExportFilesWritten(to: Targets, step: string -> VideoExport, videos: seq<string>,
                                              files: set<string>)
    ensures var n := FirstExportFailure(videos, step);
      var out := ExportFiles(to, step, videos, files).files;
      && (forall i :: 0 <= i < n && step(videos[i]).Written? ==>
            to.timeline(videos[i]) in out && to.log(videos[i]) in out)
      && (n < |videos| && step(videos[n]).ReportFailed? ==> to.timeline(videos[n]) in out)
    decreases |videos|
  {
    if |videos| > 0 {
      var v := videos[0];
      if Clean(step(v)) {
        var files1 := files + Adds(to, v, step(v));
        ExportFilesStep(to, step, videos, files);
        ExportFilesWritten(to, step, videos[1..], files1);
        forall i | 1 <= i < |videos| ensures videos[i] == videos[1..][i - 1] {}
      }
    }
  }

  /** Every file the export adds is the timeline of a video up to the
      first failure, or the log of one before it; in both cases a video
      whose step got that far. */
  lemma {:induction false} ExportFilesOnly(to: Targets, step: string -> VideoExport, videos: seq<string>,
                                           files: set<string>, p: string)
    requires p in ExportFiles(to, step, videos, files).files && p !in files
    ensures var n := FirstExportFailure(videos, step);
      exists i :: 0 <= i < |videos| && i <= n
        && ((step(videos[i]).Written? && (p == to.timeline(videos[i]) || p == to.log(videos[i])))
            || (step(videos[i]).ReportFailed? && p == to.timeline(videos[i])))
    decreases |videos|
  {
    var v := videos[0];
    if Clean(step(v)) {
      var files1 := files + Adds(to, v, step(v));
      ExportFilesStep(to, step, videos, files);
      if p !in files1 {
        ExportFilesOnly(to, step, videos[1..], files1, p);
        var i :| 0 <= i < |videos[1..]| && i <= FirstExportFailure(videos[1..], step)
          && ((step(videos[1..][i]).Written? && (p == to.timeline(videos[1..][i]) || p == to.log(videos[1..][i])))
              || (step(videos[1..][i]).ReportFailed? && p == to.timeline(videos[1..][i])));
        assert videos[1..][i] == videos[i + 1];
      }
    }
  }

  /** What the export writes does not depend on the files already there:
      it adds the same files to any starting set and stops the same way. */
  lemma {:induction false} ExportFilesAdds(to: Targets, step: string -> VideoExport, videos: seq<string>,
                                           files: set<string>)
    ensures ExportFiles(to, step, videos, files)
         == Exported(ExportFiles(to, step, videos, {}).error, files + ExportFiles(to, step, videos, {}).files)
    decreases |videos|
  {
    if |videos| > 0 {
      var v := videos[0];
      if Clean(step(v)) {
        var added := Adds(to, v, step(v));
        ExportFilesStep(to, step, videos, files);
        ExportFilesStep(to, step, videos, {});
        ExportFilesAdds(to, step, videos[1..], files + added);
        ExportFilesAdds(to, step, videos[1..], {} + added);
      }
    }
  }

  /** Exporting again over what an export left writes no new file and
      stops the same way. */
  lemma ExportAgain(to: Targets, step: string -> VideoExport, videos: seq<string>, files: set<string>)
    ensures var out := ExportFiles(to, step, videos, files);
      ExportFiles(to, step, videos, out.files) == out
  {
    var out := ExportFiles(to, step, videos, files);
    ExportFilesAdds(to, step, videos, files);
    ExportFilesAdds(to, step, videos, out.files);
  }

  /** `phase_export`: only the files change. It completes exactly when no
      video's export raises. */
  function Export(workDir: string, repr: Json -> string, videos: seq<string>, analyses: map<string, Json>, w: World)
    : (r: Outcome<()>)
    ensures r.world
         == w.(store := w.store.(files := ExportFiles(TargetsIn(workDir), Steps(analyses, repr), videos, w.store.files).files))
    ensures r.Done? <==> FirstExportFailure(videos, Steps(analyses, repr)) == |videos|
  {
    var e := ExportFiles(TargetsIn(workDir), Steps(analyses, repr), videos, w.store.files);
    var w1 := w.(store := w.store.(files := e.files));
    if e.error.Some? then Crash(e.error.value, w1) else Done((), w1)
  }

  /** The export completes exactly when every video's export raises
      nothing. */
  lemma ExportCompletes(workDir: string, repr: Json -> string, videos: seq<string>, analyses: map<string, Json>, w: World)
    ensures Export(workDir, repr, videos, analyses, w).Done?
        <==> forall i :: 0 <= i < |videos| ==> ExportsCleanly(AnalysisOf(analyses, videos[i]), repr)
  {
    var step := Steps(analyses, repr);
    assert forall i :: 0 <= i < |videos| ==> (Clean(step(videos[i])) <==> ExportsCleanly(AnalysisOf(analyses, videos[i]), repr));
  }

  /** `phase_synthesis`: skipped when `SYNTHESIS.md` exists, otherwise one
      request (not retried) and the file written. */
  function Synthesis(workDir: string, w: World): (r: World)
    ensures SynthesisPath(workDir) in r.store.files
    ensures r.store.docs == w.store.docs && r.ledger == w.ledger && r.transcodes == w.transcodes
    ensures SynthesisPath(workDir) in w.store.files ==> r == w
    ensures SynthesisPath(workDir) !in w.store.files ==>
      r.calls == w.calls + 1 && r.store.files == w.store.files + {SynthesisPath(workDir)}
  {
    var p := SynthesisPath(workDir);
    if p in w.store.files then w
    else w.(store := w.store.(files := w.store.files + {p}), calls := w.calls + 1)
  }

  /** A second synthesis phase over the same directory does nothing: the
      file the first one wrote makes it skip. */
  lemma SynthesisAgain(workDir: string, w: World)
    ensures Synthesis(workDir, Synthesis(workDir, w)) == Synthesis(workDir, w)
    ensures Synthesis(workDir, Synthesis(workDir, w)).calls <= w.calls + 1
  {
  }
}

=== FILE: pipeline.dfy ===
/** `main()` of `vhs_analyzer.py`: the command-line gates (exit statuses
    before any work), then the phases selected by `--phase` and `--blind`,
    the enrichment rewrite, the export and the synthesis. */
module Pipeline {
  import opened Wrappers
  import opened Json
  import opened Config
  import opened Store
  import opened Progress
  import opened Videos
  import opened Enrich
  import opened Phases

  /** The command-line flags (`--resume` is parsed but never read, so it is
      not a field). `phase` is the raw `--phase` value. */
  datatype Options = Options(blind: bool, dryRun: bool, retryFailed: bool, phase: int, noProxy: bool)

  /** The stages a run can enter. */
  datatype Stage = PreanalysisStage | BlindStage | AnalysisStage | LoadStage | EnrichStage | ExportStage | SynthesisStage

  /** How the process ends: its exit status, the world it leaves and the
      stages it entered. */
  datatype Exit = Exit(status: int, world: World, stages: set<Stage>)

  /** The stored deep-analysis path of the video named `name`
      (`raw_json/<Path(name).stem>.json`). */
  function RawPathOf(workDir: string): string -> string {
    (n: string) => ArtifactPath(workDir, false, n)
  }

  /** `all_analyses` after phase 2b, or after loading the stored results
      when phase 2b is skipped. */
  method Analyses(cfg: Config, env: Env, opts: Options, workDir: string, videos: seq<string>, w: World)
    returns (r: Outcome<Ordered>)
    requires Valid(cfg)
    ensures r.Done? ==> Coherent(r.value)
    ensures opts.phase > 3 ==> r == Done(LoadStored(RawPathOf(workDir), videos, w.store.docs, NoEntries), w)
    ensures opts.phase <= 3 ==> r == PassAll(cfg, env, workDir, opts.noProxy, false, videos, w, NoEntries)
    ensures w.calls <= r.world.calls
  {
    if opts.phase <= 3 {
      r := PassAll(cfg, env, workDir, opts.noProxy, false, videos, w, NoEntries);
    } else {
      r := Done(LoadStored(RawPathOf(workDir), videos, w.store.docs, NoEntries), w);
    }
  }

  /** `enrich_with_blind` over the deep results, in their order. */
  function EnrichOrdered(analyses: Ordered, blind: Ordered): (r: Result<Ordered>)
    requires Coherent(analyses)
    ensures r.Ok? <==> EnrichWithBlind(analyses.order, analyses.entries, blind.entries).Ok?
    ensures r.Ok? ==> && Coherent(r.value) && r.value.order == analyses.order
                      && r.value.entries == EnrichWithBlind(analyses.order, analyses.entries, blind.entries).value
                      && r.value.entries.Keys == analyses.entries.Keys
  {
    match EnrichWithBlind(analyses.order, analyses.entries, blind.entries)
    case Err(e) => Err(e)
    case Ok(m) =>
      CoherentSameKeys(analyses, m);
      Ok(Ordered(analyses.order, m))
  }

  /** The enrichment step: when both the blind and the deep results are
      non-empty, every analysis is enriched and all are written back to
      their stored-result files; a malformed pair raises. */
  method Enrichment(workDir: string, analyses: Ordered, blind: Ordered, w: World) returns (r: Outcome<Ordered>)
    requires Coherent(analyses)
    ensures r.Done? ==> Coherent(r.value) && r.value.order == analyses.order
    ensures r.Done? ==> r.value.entries.Keys == analyses.entries.Keys
    ensures blind.entries == map[] || analyses.entries == map[] ==> r == Done(analyses, w)
    ensures r.Done? ==> r.world.calls == w.calls && r.world.ledger == w.ledger && r.world.transcodes == w.transcodes
    ensures r.Crash? ==> r.world == w
    ensures blind.entries != map[] && analyses.entries != map[] ==>
      && (r.Done? <==> EnrichWithBlind(analyses.order, analyses.entries, blind.entries).Ok?)
      && (r.Done? ==> r.value.entries == EnrichWithBlind(analyses.order, analyses.entries, blind.entries).value)
  {
    if blind.entries == map[] || analyses.entries == map[] {
      return Done(analyses, w);
    }
    match EnrichOrdered(analyses, blind) {
      case Err(e) =>
        r := Crash(e, w);
      case Ok(o) =>
        var docs := Rewrite(RawPathOf(workDir), o.order, o.entries, w.store.docs);
        r := Done(o, w.(store := w.store.(docs := docs)));
    }
  }

  /** The export, when `--phase` is at most 4, and the synthesis, when
      there is any analysis and the export raised nothing. An exception in
      the export ends the run with status 1 and the files it had written. */
  method Deliver(opts: Options, repr: Json -> string, workDir: string, videos: seq<string>, analyses: Ordered, w: World)
    returns (r: Exit)
    ensures r.status == 0 || r.status == 1
    ensures r.stages <= {ExportStage, SynthesisStage}
    ensures ExportStage in r.stages <==> opts.phase <= 4
    ensures r.status == 1 <==> opts.phase <= 4 && Export(workDir, repr, videos, analyses.entries, w).Crash?
    ensures SynthesisStage in r.stages <==> r.status == 0 && analyses.entries != map[]
    ensures r.status == 1 ==> r.world == Export(workDir, repr, videos, analyses.entries, w).world
    ensures opts.phase <= 4 ==>
      r.world.store.files >= ExportFiles(TargetsIn(workDir), Steps(analyses.entries, repr), videos, w.store.files).files
    ensures r.world.calls <= w.calls + 1 && r.world.transcodes == w.transcodes
  {
    var w1 := w;
    var exported: set<Stage> := {};
    if opts.phase <= 4 {
      exported := {ExportStage};
      match Export(workDir, repr, videos, analyses.entries, w) {
        case Crash(_, w2) =>
          return Exit(1, w2, exported);
        case Done(_, w2) =>
          w1 := w2;
      }
    }
    if analyses.entries != map[] {
      r := Exit(0, Synthesis(workDir, w1), exported + {SynthesisStage});
    } else {
      r := Exit(0, w1, exported);
    }
  }

  /** The end of a run, once `all_analyses` is known: the enrichment, then
      the export and the synthesis. No request is made apart from the
      synthesis, and no video is transcoded. */
  method Finish(opts: Options, repr: Json -> string, workDir: string, videos: seq<string>, analyses: Ordered,
                blind: Ordered, w: World)
    returns (r: Exit)
    requires Coherent(analyses)
    ensures r.status == 0 || r.status == 1
    ensures r.stages <= {EnrichStage, ExportStage, SynthesisStage}
    ensures EnrichStage in r.stages <==> blind.entries != map[] && analyses.entries != map[]
    ensures ExportStage in r.stages ==> opts.phase <= 4
    ensures r.status == 0 && opts.phase <= 4 ==> ExportStage in r.stages
    ensures SynthesisStage in r.stages <==> r.status == 0 && analyses.entries != map[]
    ensures r.status == 1 && EnrichStage !in r.stages ==> ExportStage in r.stages
    ensures opts.phase <= 4 && ExportStage !in r.stages ==> r.status == 1 && EnrichStage in r.stages
    ensures r.world.calls <= w.calls + 1 && r.world.transcodes == w.transcodes
  {
    var outcome := Enrichment(workDir, analyses, blind, w);
    match outcome {
      case Crash(_, w1) =>
        r := Exit(1, w1, {EnrichStage});
      case Done(enriched, w1) =>
        var tail := Deliver(opts, repr, workDir, videos, enriched, w1);
        assert enriched.entries != map[] <==> analyses.entries != map[] by {
          if enriched.entries != map[] {
            var k :| k in enriched.entries;
            assert k in analyses.entries;
          }
          if analyses.entries != map[] {
            var k :| k in analyses.entries;
            assert k in enriched.entries;
          }
        }
        var enrich: set<Stage> := if blind.entries != map[] && analyses.entries != map[] then {EnrichStage} else {};
        r := Exit(tail.status, tail.world, enrich + tail.stages);
    }
  }

  /** Phase 1 as the `--phase` gate admits it: run when `--phase` is 1,
      else nothing happens and the corpus stays empty. */
  function Phase1(cfg: Config, env: Env, opts: Options, workDir: string, videos: seq<string>, w: World)
    : Outcome<Json>
    requires Valid(cfg)
  {
    if opts.phase <= 1 then PhasePreanalysis(cfg, env, workDir, videos, w) else Done(Empty, w)
  }

  /** Phase 1 raises, or it does not and the blind pass, which `--blind`
      with `--phase` at most 2 admits, raises. */
  predicate EarlyRaises(cfg: Config, env: Env, opts: Options, workDir: string, videos: seq<string>, w: World)
    requires Valid(cfg)
  {
    var pre := Phase1(cfg, env, opts, workDir, videos, w);
    || pre.Crash?
    || (opts.blind && opts.phase <= 2 && PassAll(cfg, env, workDir, opts.noProxy, true, videos, pre.world, NoEntries).Crash?)
  }

  /** Phase 1 when `--phase` is 1, then the blind pass when `--blind` and
      `--phase` is at most 2: the blind results, or the exception that
      stopped the run, with the stages entered. */
  method Early(cfg: Config, env: Env, opts: Options, workDir: string, videos: seq<string>, w: World)
    returns (r: Outcome<Ordered>, stages: set<Stage>)
    requires Valid(cfg)
    ensures stages <= {PreanalysisStage, BlindStage}
    ensures PreanalysisStage in stages <==> opts.phase <= 1
    ensures BlindStage in stages ==> opts.blind && opts.phase <= 2
    ensures r.Crash? ==> stages != {}
    ensures opts.phase > 2 ==> r == Done(NoEntries, w) && stages == {}
    ensures r.Crash? <==> EarlyRaises(cfg, env, opts, workDir, videos, w)
    ensures Phase1(cfg, env, opts, workDir, videos, w).Crash? ==>
      && r == Crash(Phase1(cfg, env, opts, workDir, videos, w).error, Phase1(cfg, env, opts, workDir, videos, w).world)
      && stages == {PreanalysisStage}
    ensures Phase1(cfg, env, opts, workDir, videos, w).Done? ==>
      && (BlindStage in stages <==> opts.blind && opts.phase <= 2)
      && (opts.blind && opts.phase <= 2 ==>
            r == PassAll(cfg, env, workDir, opts.noProxy, true, videos, Phase1(cfg, env, opts, workDir, videos, w).world, NoEntries))
      && (!(opts.blind && opts.phase <= 2) ==> r == Done(NoEntries, Phase1(cfg, env, opts, workDir, videos, w).world))
  {
    var s1: set<Stage> := if opts.phase <= 1 then {PreanalysisStage} else {};
    var runBlind := opts.phase <= 2 && opts.blind;
    var pre := Phase1(cfg, env, opts, workDir, videos, w);
    match pre {
      case Crash(e, w1) =>
        r, stages := Crash(e, w1), {PreanalysisStage};
      case Done(_, w1) =>
        stages := s1 + (if runBlind then {BlindStage} else {});
        assert opts.phase > 2 ==> stages == {};
        if runBlind {
          r := PassAll(cfg, env, workDir, opts.noProxy, true, videos, w1, NoEntries);
        } else {
          r := Done(NoEntries, w1);
        }
    }
  }

  /** The deep pass when `--phase` is at most 3 (else the stored results
      are loaded), then the end of the run. */
  method Later(cfg: Config, env: Env, opts: Options, workDir: string, videos: seq<string>, blind: Ordered, w: World)
    returns (r: Exit)
    requires Valid(cfg)
    ensures r.status == 0 || r.status == 1
    ensures r.stages != {}
    ensures r.stages <= {AnalysisStage, LoadStage, EnrichStage, ExportStage, SynthesisStage}
    ensures AnalysisStage in r.stages <==> opts.phase <= 3
    ensures LoadStage in r.stages <==> opts.phase > 3
    ensures ExportStage in r.stages ==> opts.phase <= 4
    ensures r.status == 0 && opts.phase <= 4 ==> ExportStage in r.stages
    ensures SynthesisStage in r.stages ==> r.status == 0
    ensures opts.phase > 3 ==> r.world.calls <= w.calls + 1 && r.world.transcodes == w.transcodes
    ensures opts.phase <= 3 && PassAll(cfg, env, workDir, opts.noProxy, false, videos, w, NoEntries).Crash? ==>
      r.status == 1 && r.stages == {AnalysisStage}
    ensures (&& opts.phase <= 4 && ExportStage !in r.stages
             && (opts.phase > 3 || PassAll(cfg, env, workDir, opts.noProxy, false, videos, w, NoEntries).Done?)) ==>
      r.status == 1 && EnrichStage in r.stages
  {
    var s3: set<Stage> := {if opts.phase <= 3 then AnalysisStage else LoadStage};
    var outcome := Analyses(cfg, env, opts, workDir, videos, w);
    match outcome {
      case Crash(_, w1) =>
        r := Exit(1, w1, s3);
      case Done(analyses, w1) =>
        var e := Finish(opts, env.repr, workDir, videos, analyses, blind, w1);
        assert AnalysisStage !in e.stages && LoadStage !in e.stages;
        r := Exit(e.status, e.world, s3 + e.stages);
    }
  }

  /** Everything after the gates: an exception ends the process with
      status 1. With `--phase` 4 or 5 no video is analysed or transcoded
      and at most the synthesis request is made. */
  method Stages(cfg: Config, env: Env, opts: Options, workDir: string, videos: seq<string>, w: World)
    returns (r: Exit)
    requires Valid(cfg)
    ensures r.status == 0 || r.status == 1
    ensures r.stages != {}
    ensures PreanalysisStage in r.stages <==> opts.phase <= 1
    ensures BlindStage in r.stages ==> opts.blind && opts.phase <= 2
    ensures AnalysisStage in r.stages ==> opts.phase <= 3
    ensures LoadStage in r.stages ==> opts.phase > 3
    ensures ExportStage in r.stages ==> opts.phase <= 4
    ensures SynthesisStage in r.stages ==> r.status == 0
    ensures opts.phase > 3 ==> r.world.calls <= w.calls + 1 && r.world.transcodes == w.transcodes
    ensures EarlyRaises(cfg, env, opts, workDir, videos, w) ==>
      r.status == 1 && r.stages <= {PreanalysisStage, BlindStage}
    ensures !EarlyRaises(cfg, env, opts, workDir, videos, w) ==>
      && (BlindStage in r.stages <==> opts.blind && opts.phase <= 2)
      && (AnalysisStage in r.stages <==> opts.phase <= 3)
      && (LoadStage in r.stages <==> opts.phase > 3)
    ensures r.status == 0 ==> AllowedStagesRan(opts, r.stages)
  {
    var blind, early := Early(cfg, env, opts, workDir, videos, w);
    match blind {
      case Crash(_, w1) =>
        r := Exit(1, w1, early);
      case Done(b, w1) =>
        var e := Later(cfg, env, opts, workDir, videos, b, w1);
        r := Exit(e.status, e.world, early + e.stages);
    }
  }

  /** A run that ended normally entered every stage its flags admit: the
      blind pass for `--blind` with `--phase` at most 2, the deep pass for
      `--phase` at most 3 and the loading of stored results otherwise, and
      the export for `--phase` at most 4. */
  predicate AllowedStagesRan(opts: Options, stages: set<Stage>) {
    && (PreanalysisStage in stages <==> opts.phase <= 1)
    && (BlindStage in stages <==> opts.blind && opts.phase <= 2)
    && (AnalysisStage in stages <==> opts.phase <= 3)
    && (LoadStage in stages <==> opts.phase > 3)
    && (ExportStage in stages <==> opts.phase <= 4)
  }

  /** `main()`: a `--phase` outside 1..5 is refused by the argument parser
      (status 2); a missing source, or a source without videos, ends with
      status 1; `--retry-failed` with nothing to retry ends with status 0
      after no work; otherwise the selected videos' failure records are
      dropped, `--dry-run` stops there with status 0, a missing API key
      with status 1, and only then do the stages run. The videos are
      collected, selected and cleared with the corrected filters. */
  method Run(cfg: Config, env: Env, opts: Options, src: Source, hasKey: bool, w: World) returns (r: Exit)
    requires Valid(cfg)
    ensures !(1 <= opts.phase <= 5) ==> r == Exit(2, w, {})
    ensures 1 <= opts.phase <= 5 && !src.present ==> r == Exit(1, w, {})
    ensures 1 <= opts.phase <= 5 && src.present && CollectVideosFixed(cfg, src) == [] ==> r == Exit(1, w, {})
    ensures r.stages != {} ==> hasKey && !opts.dryRun && 1 <= opts.phase <= 5 && src.present
    ensures r.stages == {} ==> r.world.calls == w.calls && r.world.store == w.store
    ensures (&& 1 <= opts.phase <= 5 && src.present && CollectVideosFixed(cfg, src) != [] && opts.retryFailed
             && SelectFailedFixed(CollectVideosFixed(cfg, src), w.ledger) == []) ==> r == Exit(0, w, {})
    ensures opts.dryRun ==> r.stages == {} && (r.status == 0 || r.status == 1 || r.status == 2)
    ensures opts.dryRun && 1 <= opts.phase <= 5 && src.present && CollectVideosFixed(cfg, src) != [] ==> r.status == 0
    ensures (&& !hasKey && !opts.dryRun && 1 <= opts.phase <= 5 && src.present && CollectVideosFixed(cfg, src) != []
             && !(opts.retryFailed && SelectFailedFixed(CollectVideosFixed(cfg, src), w.ledger) == [])) ==>
      r.status == 1 && r.stages == {}
    ensures w.calls < r.world.calls ==> hasKey && !opts.dryRun
    ensures (&& opts.retryFailed && opts.dryRun && 1 <= opts.phase <= 5 && src.present) ==>
      SelectFailedFixed(CollectVideosFixed(cfg, src), r.world.ledger) == []
    ensures (&& hasKey && !opts.dryRun && 1 <= opts.phase <= 5 && src.present && CollectVideosFixed(cfg, src) != []
             && !(opts.retryFailed && SelectFailedFixed(CollectVideosFixed(cfg, src), w.ledger) == [])) ==>
      && r.stages != {}
      && (PreanalysisStage in r.stages <==> opts.phase <= 1)
      && (r.status == 0 ==> AllowedStagesRan(opts, r.stages))
  {
    if !(1 <= opts.phase <= 5) {
      return Exit(2, w, {});
    }
    if !src.present {
      return Exit(1, w, {});
    }
    var videos := CollectVideosFixed(cfg, src);
    if videos == [] {
      return Exit(1, w, {});
    }
    var selected := if opts.retryFailed then SelectFailedFixed(videos, w.ledger) else videos;
    if opts.retryFailed && selected == [] {
      return Exit(0, w, {});
    }
    var ledger := if opts.retryFailed then ClearFailuresFixed(w.ledger, selected) else w.ledger;
    if opts.retryFailed {
      RetrySelectionCleared(videos, w.ledger);
    }
    var w0 := w.(ledger := ledger);
    if opts.dryRun {
      r := Exit(0, w0, {});
    } else if !hasKey {
      r := Exit(1, w0, {});
    } else {
      r := Stages(cfg, env, opts, WorkDir(src), selected, w0);
    }
  }
}

=== FILE: preprocess.dfy ===
/** Preparation of one source video before analysis (preprocess.py):
    overlapping chunk windows for long videos, cached proxy encodes, the
    pre-analysis sample window, and `HH:MM:SS` rendering.

    Transcoding (ffmpeg) and duration probing (ffprobe) are not modelled as
    programs: a duration is an input in whole seconds, and a transcode is the
    appearance of its output path in the store plus an entry in the list of
    transcodes performed. */
module Preprocess {
  import opened Wrappers
  import opened Strings
  import opened Config
  import opened Json
  import opened Store
  import opened Seqs

  // ---------------------------------------------------------------------------
  // _fmt_tc

  /** `h, r = divmod(s, 3600); m, sec = divmod(r, 60)`. Python's `divmod`
      floors; for a positive divisor that is Dafny's `/` and `%`. */
  function Clock(s: int): (hms: (int, int, int))
    ensures hms.0 * 3600 + hms.1 * 60 + hms.2 == s
    ensures 0 <= hms.1 < 60 && 0 <= hms.2 < 60
    ensures s >= 0 ==> hms.0 >= 0
  {
    var h := s / 3600;
    var r := s % 3600;
    (h, r / 60, r % 60)
  }

  lemma NatToStringSmall(n: nat)
    requires n < 100
    ensures |NatToString(n)| <= 2
  {
    if n >= 10 {
      assert NatToString(n) == NatToString(n / 10) + [DigitChar(n % 10)];
    }
  }

  /** `_fmt_tc(seconds)` on whole seconds: `f"{h:02d}:{m:02d}:{sec:02d}"`. */
  function FmtTc(seconds: int): string {
    var hms := Clock(seconds);
    PadInt(hms.0, 2) + ":" + PadInt(hms.1, 2) + ":" + PadInt(hms.2, 2)
  }

  /** Three colon-free fields joined by colons split back into those fields. */
  lemma SplitThree(a: string, b: string, c: string)
    requires ':' !in a && ':' !in b && ':' !in c
    ensures Split(a + ":" + b + ":" + c, ':') == [a, b, c]
  {
    assert a + ":" + b + ":" + c == a + [':'] + (b + [':'] + c);
    SplitPrefix(a, ':', b + [':'] + c);
    SplitPrefix(b, ':', c);
    SplitNoSep(c, ':');
  }

  /** A timecode reads back as the clock of the seconds it was made from:
      three colon-separated fields, the hours at least two digits wide, the
      minutes and seconds exactly two. */
  lemma FmtTcReadBack(seconds: int)
    ensures var parts := Split(FmtTc(seconds), ':');
      && |parts| == 3
      && ParseInt(parts[0]) == Some(Clock(seconds).0)
      && ParseInt(parts[1]) == Some(Clock(seconds).1)
      && ParseInt(parts[2]) == Some(Clock(seconds).2)
      && |parts[0]| >= 2 && |parts[1]| == 2 && |parts[2]| == 2
  {
    var hms := Clock(seconds);
    var a, b, c := PadInt(hms.0, 2), PadInt(hms.1, 2), PadInt(hms.2, 2);
    PadIntNoColon(hms.0, 2);
    PadIntNoColon(hms.1, 2);
    PadIntNoColon(hms.2, 2);
    SplitThree(a, b, c);
    PadIntRoundTrip(hms.0, 2);
    PadIntRoundTrip(hms.1, 2);
    PadIntRoundTrip(hms.2, 2);
    NatToStringSmall(hms.1);
    NatToStringSmall(hms.2);
    PadIntWidth(hms.1, 2);
    PadIntWidth(hms.2, 2);
  }

  /** Different second counts give different timecodes. */
  lemma FmtTcInjective(x: int, y: int)
    requires FmtTc(x) == FmtTc(y)
    ensures x == y
  {
    FmtTcReadBack(x);
    FmtTcReadBack(y);
  }

  // ---------------------------------------------------------------------------
  // chunk_video: the boundary loop as written

  datatype Chunk = Chunk(index: nat, start: int, end: int)

  function Min(a: int, b: int): int {
    if a <= b then a else b
  }

  /** One pass of the loop body: the chunk appended (`end = min(start +
      CHUNK_DURATION_S, duration_s)`, `idx = len(chunks) + 1`) and the next
      start (`end - CHUNK_OVERLAP_S`). */
  function LoopBody(cfg: Config, d: int, start: int, idx: nat): (Chunk, int) {
    var end := Min(start + cfg.chunkDuration, d);
    (Chunk(idx, start, end), end - cfg.chunkOverlap)
  }

  datatype LoopState = LoopState(start: int, chunks: seq<Chunk>)

  /** `while start < duration_s: ...` run for at most `fuel` passes. It stops
      early only when its condition fails. */
  function ChunkLoop(cfg: Config, d: int, st: LoopState, fuel: nat): LoopState
    decreases fuel
  {
    if fuel == 0 || st.start >= d then st
    else
      var (c, next) := LoopBody(cfg, d, st.start, |st.chunks| + 1);
      ChunkLoop(cfg, d, LoopState(next, st.chunks + [c]), fuel - 1)
  }

  /** `chunk_video` as written, observed after `fuel` passes of its loop. */
  function ChunkVideoAsWritten(cfg: Config, d: int, fuel: nat): LoopState {
    ChunkLoop(cfg, d, LoopState(0, []), fuel)
  }

  /** Once a chunk ends at the duration, the next start `duration - overlap`
      is still below the duration and the body maps it to itself. */
  lemma ChunkLoopFixedPoint(cfg: Config, d: int, idx: nat)
    requires Valid(cfg) && cfg.chunkOverlap > 0
    ensures d - cfg.chunkOverlap < d
    ensures LoopBody(cfg, d, d - cfg.chunkOverlap, idx)
         == (Chunk(idx, d - cfg.chunkOverlap, d), d - cfg.chunkOverlap)
  {
  }

  lemma {:induction false} ChunkLoopStaysInside(cfg: Config, d: int, st: LoopState, fuel: nat)
    requires Valid(cfg) && cfg.chunkOverlap > 0 && st.start < d
    ensures ChunkLoop(cfg, d, st, fuel).start < d
    ensures |ChunkLoop(cfg, d, st, fuel).chunks| == |st.chunks| + fuel
    decreases fuel
  {
    if fuel > 0 {
      var (c, next) := LoopBody(cfg, d, st.start, |st.chunks| + 1);
      ChunkLoopStaysInside(cfg, d, LoopState(next, st.chunks + [c]), fuel - 1);
    }
  }

  /** With a positive overlap and a positive duration the loop condition
      holds after every number of passes: `chunk_video` never returns, and
      each pass appends one more chunk. */
  lemma ChunkLoopNeverExits(cfg: Config, d: int, fuel: nat)
    requires Valid(cfg) && cfg.chunkOverlap > 0 && d > 0
    ensures ChunkVideoAsWritten(cfg, d, fuel).start < d
    ensures |ChunkVideoAsWritten(cfg, d, fuel).chunks| == fuel
  {
    ChunkLoopStaysInside(cfg, d, LoopState(0, []), fuel);
  }

  // ---------------------------------------------------------------------------
  // chunk_video: the boundary loop as intended (stop after the chunk that
  // reaches the duration)

  /** The chunks from `start` on, numbered from `idx`: each ends at
      `min(start + duration, d)`, and the loop stops after the chunk that
      reaches `d`. */
  function ChunksFrom(cfg: Config, d: int, start: int, idx: nat): (cs: seq<Chunk>)
    requires Valid(cfg) && start < d
    ensures |cs| >= 1
    decreases d - start
  {
    var end := Min(start + cfg.chunkDuration, d);
    var c := Chunk(idx, start, end);
    if end >= d then [c] else [c] + ChunksFrom(cfg, d, end - cfg.chunkOverlap, idx + 1)
  }

  /** The windows from `start` on: the first starts at `start`, the last ends
      at `d`, every window is non-empty and at most the chunk duration long,
      every window but the last is full length, and the next one starts
      `overlap` seconds before it ends. */
  lemma {:induction false} ChunksFromShape(cfg: Config, d: int, start: int, idx: nat)
    requires Valid(cfg) && start < d
    ensures var cs := ChunksFrom(cfg, d, start, idx);
      && cs[0].start == start && cs[|cs| - 1].end == d
      && (forall i :: 0 <= i < |cs| ==>
           && cs[i].index == idx + i
           && cs[i].start < cs[i].end <= d
           && cs[i].end - cs[i].start <= cfg.chunkDuration)
      && (forall i :: 0 <= i < |cs| - 1 ==>
           && cs[i].end == cs[i].start + cfg.chunkDuration
           && cs[i].end < d
           && cs[i + 1].start == cs[i].end - cfg.chunkOverlap)
    decreases d - start
  {
    var end := Min(start + cfg.chunkDuration, d);
    var c := Chunk(idx, start, end);
    if end < d {
      var rest := ChunksFrom(cfg, d, end - cfg.chunkOverlap, idx + 1);
      ChunksFromShape(cfg, d, end - cfg.chunkOverlap, idx + 1);
      var cs := [c] + rest;
      assert ChunksFrom(cfg, d, start, idx) == cs;
      assert forall i :: 1 <= i < |cs| ==> cs[i] == rest[i - 1];
    }
  }

  /** The chunk windows of a video of `d` seconds: none for a non-positive
      duration; otherwise the first starts at 0, the last ends at `d`, they
      are numbered 1, 2, ..., and consecutive windows overlap by exactly the
      configured overlap. */
  function ChunkBounds(cfg: Config, d: int): (cs: seq<Chunk>)
    requires Valid(cfg)
    ensures d <= 0 <==> cs == []
    ensures d > 0 ==> cs[0].start == 0 && cs[|cs| - 1].end == d
    ensures forall i :: 0 <= i < |cs| ==>
      && cs[i].index == i + 1
      && cs[i].start < cs[i].end <= d
      && cs[i].end - cs[i].start <= cfg.chunkDuration
    ensures forall i :: 0 <= i < |cs| - 1 ==>
      && cs[i].end < d
      && cs[i + 1].start == cs[i].end - cfg.chunkOverlap
      && cs[i + 1].start - cs[i].start == cfg.chunkDuration - cfg.chunkOverlap
  {
    if d <= 0 then [] else ChunksFromShape(cfg, d, 0, 1); ChunksFrom(cfg, d, 0, 1)
  }

  /** Every second of the video lies in some chunk window: the windows cover
      `[0, d)` without gaps. */
  lemma ChunkCovering(cfg: Config, d: int, t: int) returns (i: nat)
    requires Valid(cfg) && 0 <= t < d
    ensures i < |ChunkBounds(cfg, d)|
    ensures ChunkBounds(cfg, d)[i].start <= t < ChunkBounds(cfg, d)[i].end
  {
    var cs := ChunkBounds(cfg, d);
    i := 0;
    while cs[i].end <= t
      invariant i < |cs| && cs[i].start <= t
      decreases |cs| - i
    {
      i := i + 1;
    }
  }

  lemma {:induction false} ChunkLoopFollowsChunksFrom(cfg: Config, d: int, prefix: seq<Chunk>, start: int)
    requires Valid(cfg) && start < d
    ensures var cs := ChunksFrom(cfg, d, start, |prefix| + 1);
      var st := ChunkLoop(cfg, d, LoopState(start, prefix), |cs|);
      st.chunks == prefix + cs && st.start == d - cfg.chunkOverlap
    decreases d - start
  {
    var cs := ChunksFrom(cfg, d, start, |prefix| + 1);
    var end := Min(start + cfg.chunkDuration, d);
    var c := Chunk(|prefix| + 1, start, end);
    var next := end - cfg.chunkOverlap;
    assert ChunkLoop(cfg, d, LoopState(start, prefix), |cs|)
        == ChunkLoop(cfg, d, LoopState(next, prefix + [c]), |cs| - 1);
    if end < d {
      var rest := ChunksFrom(cfg, d, next, |prefix| + 2);
      assert cs == [c] + rest;
      ChunkLoopFollowsChunksFrom(cfg, d, prefix + [c], next);
      assert prefix + [c] + rest == prefix + cs;
    } else {
      assert cs == [c];
    }
  }

  /** The loop as written produces exactly the intended windows first, and
      is then poised at start `duration - overlap`. */
  lemma AsWrittenStartsWithIntendedChunks(cfg: Config, d: int)
    requires Valid(cfg) && d > 0
    ensures var cs := ChunkBounds(cfg, d);
      var st := ChunkVideoAsWritten(cfg, d, |cs|);
      st.chunks == cs && st.start == d - cfg.chunkOverlap
  {
    ChunkLoopFollowsChunksFrom(cfg, d, [], 0);
  }

  lemma {:induction false} ChunkLoopRepeats(cfg: Config, d: int, prefix: seq<Chunk>, fuel: nat)
    requires Valid(cfg) && cfg.chunkOverlap > 0
    ensures var st := ChunkLoop(cfg, d, LoopState(d - cfg.chunkOverlap, prefix), fuel);
      && |st.chunks| == |prefix| + fuel
      && st.chunks[..|prefix|] == prefix
      && forall k :: |prefix| <= k < |st.chunks| ==>
           st.chunks[k] == Chunk(k + 1, d - cfg.chunkOverlap, d)
    decreases fuel
  {
    if fuel > 0 {
      var c := Chunk(|prefix| + 1, d - cfg.chunkOverlap, d);
      ChunkLoopRepeats(cfg, d, prefix + [c], fuel - 1);
      var st := ChunkLoop(cfg, d, LoopState(d - cfg.chunkOverlap, prefix + [c]), fuel - 1);
      assert st.chunks[..|prefix|] == (st.chunks[..|prefix| + 1])[..|prefix|];
    }
  }

  /** After the intended windows, the loop as written appends the window
      `[duration - overlap, duration]` on every further pass, forever. */
  lemma AsWrittenRepeatsLastWindow(cfg: Config, d: int, extra: nat)
    requires Valid(cfg) && cfg.chunkOverlap > 0 && d > 0
    ensures var n := |ChunkBounds(cfg, d)|;
      var st := ChunkVideoAsWritten(cfg, d, n + extra);
      && |st.chunks| == n + extra
      && st.chunks[..n] == ChunkBounds(cfg, d)
      && forall k :: n <= k < n + extra ==> st.chunks[k] == Chunk(k + 1, d - cfg.chunkOverlap, d)
  {
    var cs := ChunkBounds(cfg, d);
    AsWrittenStartsWithIntendedChunks(cfg, d);
    ChunkLoopSplit(cfg, d, LoopState(0, []), |cs|, extra);
    ChunkLoopRepeats(cfg, d, cs, extra);
  }

  /** Running the loop for `a + b` passes is running it `a` times, then `b` times. */
  lemma {:induction false} ChunkLoopSplit(cfg: Config, d: int, st: LoopState, a: nat, b: nat)
    ensures ChunkLoop(cfg, d, st, a + b) == ChunkLoop(cfg, d, ChunkLoop(cfg, d, st, a), b)
    decreases a
  {
    if a > 0 && st.start < d {
      var (c, next) := LoopBody(cfg, d, st.start, |st.chunks| + 1);
      ChunkLoopSplit(cfg, d, LoopState(next, st.chunks + [c]), a - 1, b);
    } else if a > 0 {
      assert ChunkLoop(cfg, d, st, a + b) == st;
      assert ChunkLoop(cfg, d, st, a) == st;
      assert ChunkLoop(cfg, d, st, b) == st by {
        if b > 0 { assert st.start >= d; }
      }
    }
  }

  /** A 130-minute video with the shipped constants: three windows. */
  lemma ChunkBoundsExample()
    ensures ChunkBounds(Shipped, 7800)
         == [Chunk(1, 0, 3000), Chunk(2, 2970, 5970), Chunk(3, 5940, 7800)]
  {
    ShippedValid();
    assert ChunksFrom(Shipped, 7800, 5940, 3) == [Chunk(3, 5940, 7800)];
    assert ChunksFrom(Shipped, 7800, 2970, 2) == [Chunk(2, 2970, 5970), Chunk(3, 5940, 7800)];
  }

  // ---------------------------------------------------------------------------
  // chunk_video: files and metadata

  function ChunkStem(stem: string, idx: nat): string {
    stem + "_chunk" + PadInt(idx, 3)
  }

  function ChunkPath(dir: string, stem: string, idx: nat): string {
    PathJoin(dir, ChunkStem(stem, idx) + ".mp4")
  }

  function MetaPath(dir: string, stem: string, idx: nat): string {
    PathJoin(dir, ChunkStem(stem, idx) + ".meta.json")
  }

  /** `{"start_s": start, "end_s": end, "chunk_index": idx}`. */
  function MetaDoc(c: Chunk): Json {
    Obj(map["start_s" := Num(c.start), "end_s" := Num(c.end), "chunk_index" := Num(c.index)])
  }

  lemma ChunkStemInjective(stem: string, i: nat, j: nat)
    requires ChunkStem(stem, i) == ChunkStem(stem, j)
    ensures i == j
  {
    var p := stem + "_chunk";
    assert PadInt(i, 3) == ChunkStem(stem, i)[|p|..];
    assert PadInt(j, 3) == ChunkStem(stem, j)[|p|..];
    PadIntRoundTrip(i, 3);
    PadIntRoundTrip(j, 3);
  }

  lemma ChunkPathInjective(dir: string, stem: string, i: nat, j: nat)
    requires ChunkPath(dir, stem, i) == ChunkPath(dir, stem, j)
    ensures i == j
  {
    var a, b := ChunkStem(stem, i), ChunkStem(stem, j);
    assert |a| == |b|;
    assert a == ChunkPath(dir, stem, i)[|dir| + 1..|dir| + 1 + |a|];
    assert b == ChunkPath(dir, stem, j)[|dir| + 1..|dir| + 1 + |b|];
    ChunkStemInjective(stem, i, j);
  }

  lemma MetaPathInjective(dir: string, stem: string, i: nat, j: nat)
    requires MetaPath(dir, stem, i) == MetaPath(dir, stem, j)
    ensures i == j
  {
    var a, b := ChunkStem(stem, i), ChunkStem(stem, j);
    assert |a| == |b|;
    assert a == MetaPath(dir, stem, i)[|dir| + 1..|dir| + 1 + |a|];
    assert b == MetaPath(dir, stem, j)[|dir| + 1..|dir| + 1 + |b|];
    ChunkStemInjective(stem, i, j);
  }

  lemma MetaUnderDir(dir: string, stem: string, idx: nat)
    ensures StartsWith(MetaPath(dir, stem, idx), dir + "/")
  {
    var p := MetaPath(dir, stem, idx);
    assert p[..|dir| + 1] == dir + "/";
  }

  /** A chunk cut from the source: its path, its stem (used to name its proxy)
      and its window. */
  datatype ChunkFile = ChunkFile(path: string, stem: string, start: int, end: int)

  function FilePath(f: ChunkFile): string { f.path }

  datatype Cutting = Cutting(store: Store, files: seq<ChunkFile>, transcodes: seq<string>)

  predicate IncreasingIndices(bounds: seq<Chunk>) {
    forall i, j :: 0 <= i < j < |bounds| ==> bounds[i].index < bounds[j].index
  }

  lemma IncreasingTail(bounds: seq<Chunk>)
    requires |bounds| > 0 && IncreasingIndices(bounds)
    ensures IncreasingIndices(bounds[1..])
  {
    forall i, j | 0 <= i < j < |bounds[1..]| ensures bounds[1..][i].index < bounds[1..][j].index {
      assert bounds[1..][i] == bounds[i + 1] && bounds[1..][j] == bounds[j + 1];
    }
  }

  /** The side effects of `chunk_video`'s loop over the given windows: one
      chunk record per window, a metadata document per chunk, and a cut for
      exactly those chunk files not present yet. */
  function CutChunks(st: Store, dir: string, stem: string, bounds: seq<Chunk>): (r: Cutting)
    requires IncreasingIndices(bounds)
    ensures |r.files| == |bounds|
    ensures forall i :: 0 <= i < |bounds| ==>
      r.files[i] == ChunkFile(ChunkPath(dir, stem, bounds[i].index), ChunkStem(stem, bounds[i].index),
                              bounds[i].start, bounds[i].end)
    ensures forall i :: 0 <= i < |bounds| ==> MetaPath(dir, stem, bounds[i].index) in r.store.docs
    ensures ConfinedTo(st.docs, r.store.docs, dir)
    ensures r.store.files == st.files + KeysOf(r.files, FilePath)
    decreases |bounds|
  {
    if bounds == [] then Cutting(st, [], [])
    else
      var c := bounds[0];
      var p := ChunkPath(dir, stem, c.index);
      var st1 := Store(st.files + {p}, st.docs[MetaPath(dir, stem, c.index) := MetaDoc(c)]);
      IncreasingTail(bounds);
      var rest := CutChunks(st1, dir, stem, bounds[1..]);
      var first := ChunkFile(p, ChunkStem(stem, c.index), c.start, c.end);
      var files := [first] + rest.files;
      KeysOfAppend([first], rest.files, FilePath);
      assert KeysOf([first], FilePath) == {p};
      MetaUnderDir(dir, stem, c.index);
      ConfinedAfterPut(st.docs, rest.store.docs, dir, MetaPath(dir, stem, c.index), MetaDoc(c));
      Cutting(rest.store, files, (if p !in st.files then [p] else []) + rest.transcodes)
  }

  /** The metadata document of every window is `{start_s, end_s,
      chunk_index}` of that window: later windows, whose indices are larger,
      never overwrite an earlier window's document. Documents of smaller
      indices than the first window's are left as they were. */
  lemma {:induction false} CutChunksMeta(st: Store, dir: string, stem: string, bounds: seq<Chunk>)
    requires IncreasingIndices(bounds)
    ensures var r := CutChunks(st, dir, stem, bounds);
      forall i :: 0 <= i < |bounds| ==> r.store.docs[MetaPath(dir, stem, bounds[i].index)] == MetaDoc(bounds[i])
    ensures var r := CutChunks(st, dir, stem, bounds);
      forall idx: nat :: MetaPath(dir, stem, idx) in st.docs && (bounds == [] || idx < bounds[0].index) ==>
        MetaPath(dir, stem, idx) in r.store.docs && r.store.docs[MetaPath(dir, stem, idx)] == st.docs[MetaPath(dir, stem, idx)]
    decreases |bounds|
  {
    if bounds != [] {
      var r := CutChunks(st, dir, stem, bounds);
      var c := bounds[0];
      var p := ChunkPath(dir, stem, c.index);
      var st1 := Store(st.files + {p}, st.docs[MetaPath(dir, stem, c.index) := MetaDoc(c)]);
      IncreasingTail(bounds);
      var rest := CutChunks(st1, dir, stem, bounds[1..]);
      CutChunksMeta(st1, dir, stem, bounds[1..]);
      assert r.store == rest.store;
      MetaStep(st.docs, st1.docs, rest.store.docs, dir, stem, bounds);
    }
  }

  /** One step of `CutChunksMeta`: the first window's document, put first,
      survives the later windows, whose indices are larger. */
  lemma MetaStep(docs: map<string, Json>, docs1: map<string, Json>, after: map<string, Json>,
                 dir: string, stem: string, bounds: seq<Chunk>)
    requires |bounds| > 0 && IncreasingIndices(bounds)
    requires docs1 == docs[MetaPath(dir, stem, bounds[0].index) := MetaDoc(bounds[0])]
    requires forall i :: 0 <= i < |bounds| ==> MetaPath(dir, stem, bounds[i].index) in after
    requires forall i :: 0 <= i < |bounds[1..]| ==> after[MetaPath(dir, stem, bounds[1..][i].index)] == MetaDoc(bounds[1..][i])
    requires forall idx: nat :: MetaPath(dir, stem, idx) in docs1 && (bounds[1..] == [] || idx < bounds[1..][0].index) ==>
      MetaPath(dir, stem, idx) in after && after[MetaPath(dir, stem, idx)] == docs1[MetaPath(dir, stem, idx)]
    ensures forall i :: 0 <= i < |bounds| ==> after[MetaPath(dir, stem, bounds[i].index)] == MetaDoc(bounds[i])
    ensures forall idx: nat :: MetaPath(dir, stem, idx) in docs && idx < bounds[0].index ==>
      MetaPath(dir, stem, idx) in after && after[MetaPath(dir, stem, idx)] == docs[MetaPath(dir, stem, idx)]
  {
    var c := bounds[0];
    assert |bounds| > 1 ==> c.index < bounds[1..][0].index by {
      if |bounds| > 1 {
        assert bounds[1..][0] == bounds[1];
      }
    }
    forall i | 0 <= i < |bounds|
      ensures after[MetaPath(dir, stem, bounds[i].index)] == MetaDoc(bounds[i])
    {
      if i > 0 {
        assert bounds[1..][i - 1] == bounds[i];
      }
    }
    forall idx: nat | MetaPath(dir, stem, idx) in docs && idx < c.index
      ensures MetaPath(dir, stem, idx) in after
      ensures after[MetaPath(dir, stem, idx)] == docs[MetaPath(dir, stem, idx)]
    {
      if MetaPath(dir, stem, idx) == MetaPath(dir, stem, c.index) {
        MetaPathInjective(dir, stem, idx, c.index);
      }
    }
  }

  /** The cuts performed are exactly the chunk files that were missing. */
  lemma {:induction false} CutChunksTranscodes(st: Store, dir: string, stem: string, bounds: seq<Chunk>)
    requires IncreasingIndices(bounds)
    ensures var r := CutChunks(st, dir, stem, bounds);
      && (forall p :: p in r.transcodes ==> p !in st.files && p in KeysOf(r.files, FilePath))
      && (forall i :: 0 <= i < |bounds| && r.files[i].path !in st.files ==> r.files[i].path in r.transcodes)
    decreases |bounds|
  {
    if bounds != [] {
      var r := CutChunks(st, dir, stem, bounds);
      var c := bounds[0];
      var p := ChunkPath(dir, stem, c.index);
      var st1 := Store(st.files + {p}, st.docs[MetaPath(dir, stem, c.index) := MetaDoc(c)]);
      IncreasingTail(bounds);
      var rest := CutChunks(st1, dir, stem, bounds[1..]);
      CutChunksTranscodes(st1, dir, stem, bounds[1..]);
      assert r.files == [r.files[0]] + rest.files;
      assert r.transcodes == (if p !in st.files then [p] else []) + rest.transcodes;
      KeysOfAppend([r.files[0]], rest.files, FilePath);
      forall i | 0 <= i < |bounds| && r.files[i].path !in st.files
        ensures r.files[i].path in r.transcodes
      {
        if i > 0 {
          assert r.files[i] == rest.files[i - 1];
          if r.files[i].path == p {
            ChunkPathInjective(dir, stem, bounds[i].index, c.index);
          }
        }
      }
    }
  }

  /** When every chunk file is present already, nothing is cut. */
  lemma {:induction false} CutChunksCached(st: Store, dir: string, stem: string, bounds: seq<Chunk>)
    requires IncreasingIndices(bounds)
    requires forall i :: 0 <= i < |bounds| ==> ChunkPath(dir, stem, bounds[i].index) in st.files
    ensures CutChunks(st, dir, stem, bounds).transcodes == []
    decreases |bounds|
  {
    if bounds != [] {
      var c := bounds[0];
      var p := ChunkPath(dir, stem, c.index);
      var st1 := Store(st.files + {p}, st.docs[MetaPath(dir, stem, c.index) := MetaDoc(c)]);
      IncreasingTail(bounds);
      assert forall i :: 0 <= i < |bounds[1..]| ==> bounds[1..][i] == bounds[i + 1];
      CutChunksCached(st1, dir, stem, bounds[1..]);
    }
  }

  // ---------------------------------------------------------------------------
  // create_proxy

  /** `f"{stem}{suffix}_proxy.mp4"`, the suffix `_offset{n}` present iff `n > 0`. */
  function ProxyName(stem: string, offset: int): string {
    stem + (if offset > 0 then "_offset" + IntToString(offset) else "") + "_proxy.mp4"
  }

  function ProxyPath(dir: string, stem: string, offset: int): string {
    PathJoin(dir, ProxyName(stem, offset))
  }

  /** Proxy names never collide for different positive offsets, nor between
      a positive offset and no offset. */
  lemma ProxyNameInjective(stem: string, a: int, b: int)
    requires ProxyName(stem, a) == ProxyName(stem, b)
    ensures a > 0 <==> b > 0
    ensures a > 0 ==> a == b
  {
    if a > 0 && b > 0 {
      var x, y := IntToString(a), IntToString(b);
      assert |x| == |y|;
      assert x == ProxyName(stem, a)[|stem| + 7..|stem| + 7 + |x|];
      assert y == ProxyName(stem, b)[|stem| + 7..|stem| + 7 + |y|];
      IntToStringInjective(a, b);
    }
  }

  datatype Proxy = Proxy(path: string, store: Store, encoded: bool)

  /** `create_proxy`: an existing proxy is returned without encoding, a
      missing one is encoded and exists afterwards; nothing else changes. */
  function CreateProxy(st: Store, dir: string, stem: string, offset: int): (r: Proxy)
    ensures r.path == ProxyPath(dir, stem, offset)
    ensures r.encoded <==> r.path !in st.files
    ensures r.store == st.(files := st.files + {r.path})
  {
    var p := ProxyPath(dir, stem, offset);
    Proxy(p, st.(files := st.files + {p}), p !in st.files)
  }

  /** Asking for the same proxy twice encodes at most once: the second call
      returns the same path, encodes nothing and changes nothing. */
  lemma CreateProxyIdempotent(st: Store, dir: string, stem: string, offset: int)
    ensures var first := CreateProxy(st, dir, stem, offset);
      var second := CreateProxy(first.store, dir, stem, offset);
      second.path == first.path && !second.encoded && second.store == first.store
  {
  }

  // ---------------------------------------------------------------------------
  // prepare_video

  /** One unit to send for analysis: the proxy path and the window it covers
      in the source video. */
  datatype Unit = Unit(path: string, start: int, end: int)

  function UnitPath(u: Unit): string { u.path }

  datatype Prepared = Prepared(units: seq<Unit>, store: Store, transcodes: seq<string>)

  function ProxyDir(workDir: string): string { PathJoin(workDir, "proxies") }

  function ChunksDir(workDir: string): string { PathJoin(workDir, "chunks") }

  /** The proxy loop of `prepare_video`: one proxy per chunk, offset by the
      chunk's start (`int(chunk["start_s"])`), encoded only when missing. */
  function ProxiesFor(st: Store, dir: string, files: seq<ChunkFile>): (r: Prepared)
    ensures |r.units| == |files|
    ensures forall i :: 0 <= i < |files| ==>
      r.units[i] == Unit(ProxyPath(dir, files[i].stem, files[i].start), files[i].start, files[i].end)
    ensures r.store == st.(files := st.files + KeysOf(r.units, UnitPath))
    ensures forall p :: p in r.transcodes ==> p !in st.files && p in KeysOf(r.units, UnitPath)
    ensures (forall i :: 0 <= i < |files| ==> r.units[i].path in st.files) ==> r.transcodes == []
    decreases |files|
  {
    if files == [] then Prepared([], st, [])
    else
      var f := files[0];
      var pr := CreateProxy(st, dir, f.stem, f.start);
      var rest := ProxiesFor(pr.store, dir, files[1..]);
      var units := [Unit(pr.path, f.start, f.end)] + rest.units;
      assert units[1..] == rest.units;
      assert forall i :: 1 <= i < |files| ==> units[i] == rest.units[i - 1] && files[i] == files[1..][i - 1];
      Prepared(units, rest.store, (if pr.encoded then [pr.path] else []) + rest.transcodes)
  }

  /** `prepare_video` for a video of `d` whole seconds. Short videos get one
      proxy covering `[0, d]` and no chunking; long ones get one proxy per
      intended chunk window, in order, each offset by its window's start.
      Every unit's proxy exists afterwards, and only missing files are
      transcoded. */
  function PrepareVideo(cfg: Config, st: Store, workDir: string, stem: string, d: int): (r: Prepared)
    requires Valid(cfg)
    ensures d <= cfg.chunkDuration ==>
      r.units == [Unit(ProxyPath(ProxyDir(workDir), stem, 0), 0, d)]
    ensures d > cfg.chunkDuration ==>
      var cs := ChunkBounds(cfg, d);
      && |r.units| == |cs|
      && forall i :: 0 <= i < |cs| ==>
           r.units[i] == Unit(ProxyPath(ProxyDir(workDir), ChunkStem(stem, cs[i].index), cs[i].start),
                              cs[i].start, cs[i].end)
    ensures forall i :: 0 <= i < |r.units| ==> r.units[i].path in r.store.files
    ensures st.files <= r.store.files
    ensures ConfinedTo(st.docs, r.store.docs, ChunksDir(workDir))
    ensures forall p :: p in r.transcodes ==> p !in st.files
  {
    if d <= cfg.chunkDuration then
      var pr := CreateProxy(st, ProxyDir(workDir), stem, 0);
      Prepared([Unit(pr.path, 0, d)], pr.store, if pr.encoded then [pr.path] else [])
    else
      var cs := ChunkBounds(cfg, d);
      var cut := CutChunks(st, ChunksDir(workDir), stem, cs);
      var px := ProxiesFor(cut.store, ProxyDir(workDir), cut.files);
      CutChunksTranscodes(st, ChunksDir(workDir), stem, cs);
      Prepared(px.units, px.store, cut.transcodes + px.transcodes)
  }

  /** Preparing a video a second time, on the store the first run left, gives
      the same units and transcodes nothing: every chunk and proxy is cached. */
  lemma PrepareVideoResumes(cfg: Config, st: Store, workDir: string, stem: string, d: int)
    requires Valid(cfg)
    ensures var first := PrepareVideo(cfg, st, workDir, stem, d);
      var second := PrepareVideo(cfg, first.store, workDir, stem, d);
      second.units == first.units && second.transcodes == []
  {
    var first := PrepareVideo(cfg, st, workDir, stem, d);
    if d > cfg.chunkDuration {
      var cs := ChunkBounds(cfg, d);
      var cut1 := CutChunks(st, ChunksDir(workDir), stem, cs);
      var px1 := ProxiesFor(cut1.store, ProxyDir(workDir), cut1.files);
      assert first.store == px1.store;
      ChunkedResumes(st, ChunksDir(workDir), ProxyDir(workDir), stem, cs);
    }
  }

  /** The chunked half of `PrepareVideoResumes`: cutting and proxying the
      same windows again, on the store the first run left, gives the same
      units and transcodes nothing. */
  lemma ChunkedResumes(st: Store, dir: string, proxyDir: string, stem: string, cs: seq<Chunk>)
    requires IncreasingIndices(cs)
    ensures var cut1 := CutChunks(st, dir, stem, cs);
      var px1 := ProxiesFor(cut1.store, proxyDir, cut1.files);
      var cut2 := CutChunks(px1.store, dir, stem, cs);
      var px2 := ProxiesFor(cut2.store, proxyDir, cut2.files);
      px2.units == px1.units && cut2.transcodes == [] && px2.transcodes == []
  {
    var cut1 := CutChunks(st, dir, stem, cs);
    var px1 := ProxiesFor(cut1.store, proxyDir, cut1.files);
    var cut2 := CutChunks(px1.store, dir, stem, cs);
    CutChunksFilesOnly(st, px1.store, dir, stem, cs);
    ProxiesForUnitsOnly(cut1.store, cut2.store, proxyDir, cut1.files);
    CutChunksCached(px1.store, dir, stem, cs);
    assert cut2.store.files <= px1.store.files;
  }

  /** The chunk records depend on the windows only, not on the store. */
  lemma CutChunksFilesOnly(st1: Store, st2: Store, dir: string, stem: string, bounds: seq<Chunk>)
    requires IncreasingIndices(bounds)
    ensures CutChunks(st1, dir, stem, bounds).files == CutChunks(st2, dir, stem, bounds).files
  {
    var f1, f2 := CutChunks(st1, dir, stem, bounds).files, CutChunks(st2, dir, stem, bounds).files;
    assert forall i :: 0 <= i < |f1| ==> f1[i] == f2[i];
  }

  /** The proxy units depend on the chunk records only, not on the store. */
  lemma ProxiesForUnitsOnly(st1: Store, st2: Store, dir: string, files: seq<ChunkFile>)
    ensures ProxiesFor(st1, dir, files).units == ProxiesFor(st2, dir, files).units
  {
    var u1, u2 := ProxiesFor(st1, dir, files).units, ProxiesFor(st2, dir, files).units;
    assert forall i :: 0 <= i < |u1| ==> u1[i] == u2[i];
  }

  // ---------------------------------------------------------------------------
  // extract_sample

  function Max(a: int, b: int): int {
    if a >= b then a else b
  }

  /** `actual_start = min(start_s, max(0, total - duration_s))` and
      `actual_dur = min(duration_s, total - actual_start)`: the sample stays
      inside the video, starts no later than asked, and is as long as the
      video allows. */
  function SampleWindow(total: int, start: int, dur: int): (w: (int, int))
    requires start >= 0 && dur >= 0
    ensures total >= 0 ==> 0 <= w.0 <= start && 0 <= w.1 && w.0 + w.1 <= total
    ensures total >= 0 ==> w.1 == Min(dur, total)
    ensures total >= start + dur ==> w == (start, dur)
  {
    var actualStart := Min(start, Max(0, total - dur));
    (actualStart, Min(dur, total - actualStart))
  }

  datatype Sample = Sample(path: string, store: Store, cut: Option<(int, int)>)

  function SamplePath(workDir: string, stem: string): string {
    PathJoin(PathJoin(workDir, "samples"), stem + "_sample.mp4")
  }

  /** `extract_sample`: a cached sample is returned without measuring the
      video; otherwise the window is cut from a video of `total` seconds. */
  function ExtractSample(st: Store, workDir: string, stem: string, total: int, start: int, dur: int): (r: Sample)
    requires start >= 0 && dur >= 0
    ensures r.path == SamplePath(workDir, stem) && r.path in r.store.files
    ensures r.path in st.files ==> r.store == st && r.cut == None
    ensures r.path !in st.files ==>
      && r.store == st.(files := st.files + {r.path})
      && r.cut == Some(SampleWindow(total, start, dur))
  {
    var p := SamplePath(workDir, stem);
    if p in st.files then Sample(p, st, None)
    else Sample(p, st.(files := st.files + {p}), Some(SampleWindow(total, start, dur)))
  }
}

=== FILE: progress.dfy ===
/** The checkpoint ledger (`.progress.json`) and the retry wrapper every
    unit of remote work goes through (progress.py). */
module Progress {
  import opened Wrappers
  import opened Seqs
  import opened Strings
  import opened Config

  // ---------------------------------------------------------------------------
  // The ledger

  /** One entry of the "failed" list: `{file, error, attempts}`. */
  datatype FailRecord = FailRecord(file: string, error: string, attempts: nat)

  function FileOf(f: FailRecord): string { f.file }

  /** The persisted part of the tracker's `_data`. The "started_at" stamp is
      a clock reading and is left out. */
  datatype Ledger = Ledger(processed: seq<string>, failed: seq<FailRecord>, pending: seq<string>)

  /** What `_load` returns when no ledger file exists yet. */
  const Fresh: Ledger := Ledger([], [], [])

  predicate NoDuplicates(s: seq<string>) {
    forall i, j :: 0 <= i < j < |s| ==> s[i] != s[j]
  }

  /** Every name is listed as processed at most once and has at most one
      failure record. */
  predicate WellFormed(l: Ledger) {
    NoDuplicates(l.processed) && DistinctKeys(l.failed, FileOf)
  }

  /** `is_done`. */
  predicate IsDone(l: Ledger, name: string) {
    name in l.processed
  }

  /** `[f["file"] for f in failed]`. */
  function Files(fs: seq<FailRecord>): (names: seq<string>)
    ensures |names| == |fs|
    ensures forall i :: 0 <= i < |fs| ==> names[i] == fs[i].file
  {
    if |fs| == 0 then [] else [fs[0].file] + Files(fs[1..])
  }

  /** The `failed_files` property. */
  function FailedFiles(l: Ledger): seq<string> {
    Files(l.failed)
  }

  /** `mark_done`: the name becomes processed (appended once), every failure
      record for it is dropped, everything else is kept in order. */
  function MarkDone(l: Ledger, name: string): (r: Ledger)
    ensures IsDone(r, name)
    ensures forall x :: x in r.processed <==> x in l.processed || x == name
    ensures |l.processed| <= |r.processed| <= |l.processed| + 1 && r.processed[..|l.processed|] == l.processed
    ensures forall f :: f in r.failed <==> f in l.failed && f.file != name
    ensures IsSubseq(r.failed, l.failed)
    ensures name !in FailedFiles(r)
    ensures r.pending == l.pending
    ensures WellFormed(l) ==> WellFormed(r)
  {
    var processed := if name in l.processed then l.processed else l.processed + [name];
    var failed := Filter(l.failed, (f: FailRecord) => f.file != name);
    assert DistinctKeys(l.failed, FileOf) ==> DistinctKeys(failed, FileOf) by {
      if DistinctKeys(l.failed, FileOf) {
        FilterKeepsDistinctKeys(l.failed, (f: FailRecord) => f.file != name, FileOf);
      }
    }
    forall f ensures f in failed <==> f in l.failed && f.file != name {
      FilterMember(l.failed, (f: FailRecord) => f.file != name, f);
    }
    Ledger(processed, failed, l.pending)
  }

  /** Marking the same name done twice is marking it done once. */
  lemma MarkDoneIdempotent(l: Ledger, name: string)
    ensures MarkDone(MarkDone(l, name), name) == MarkDone(l, name)
  {
    var once := MarkDone(l, name);
    var failed := once.failed;
    FilterAllPass(failed, (f: FailRecord) => f.file != name);
  }

  /** Index of the first failure record for `name`. */
  function FirstIndex(fs: seq<FailRecord>, name: string): (k: nat)
    requires name in Files(fs)
    ensures k < |fs| && fs[k].file == name
    ensures forall j :: 0 <= j < k ==> fs[j].file != name
  {
    if fs[0].file == name then 0
    else
      assert Files(fs) == [fs[0].file] + Files(fs[1..]);
      var k := FirstIndex(fs[1..], name);
      assert forall j :: 1 <= j <= k ==> fs[j] == fs[1..][j - 1];
      k + 1
  }

  /** Replacing the first record for `rec.file`: the file list is unchanged,
      the new record is found first, other files' records are untouched. */
  lemma ReplaceFirst(fs: seq<FailRecord>, rec: FailRecord)
    requires rec.file in Files(fs)
    ensures var r := fs[FirstIndex(fs, rec.file) := rec];
      && Files(r) == Files(fs)
      && FirstWithKey(r, FileOf, rec.file) == Some(rec)
      && (forall f: FailRecord :: f.file != rec.file ==> (f in r <==> f in fs))
      && (DistinctKeys(fs, FileOf) ==> DistinctKeys(r, FileOf))
  {
    var k := FirstIndex(fs, rec.file);
    var r := fs[k := rec];
    assert Files(r) == Files(fs);
    FirstWithKeyAt(r, FileOf, k);
    forall f: FailRecord | f.file != rec.file ensures f in r <==> f in fs {
      if f in r {
        var i :| 0 <= i < |r| && r[i] == f;
        assert i != k;
      }
      if f in fs {
        var i :| 0 <= i < |fs| && fs[i] == f;
        assert r[i] == f;
      }
    }
    assert forall i :: 0 <= i < |r| ==> FileOf(r[i]) == FileOf(fs[i]);
  }

  /** Appending a record for a file that has none. */
  lemma AppendRecord(fs: seq<FailRecord>, rec: FailRecord)
    requires rec.file !in Files(fs)
    ensures var r := fs + [rec];
      && Files(r) == Files(fs) + [rec.file]
      && FirstWithKey(r, FileOf, rec.file) == Some(rec)
      && (forall f: FailRecord :: f.file != rec.file ==> (f in r <==> f in fs))
      && (DistinctKeys(fs, FileOf) ==> DistinctKeys(r, FileOf))
  {
    var r := fs + [rec];
    assert Files(r) == Files(fs) + [rec.file];
    assert rec.file !in KeysOf(fs, FileOf) by {
      if rec.file in KeysOf(fs, FileOf) {
        KeysOfMember(fs, FileOf, rec.file);
      }
    }
    FirstWithKeyAppend(fs, [rec], FileOf, rec.file);
  }

  /** `mark_failed`: the first record for the name is updated in place, or a
      new record is appended; the processed list is not touched. */
  function MarkFailed(l: Ledger, name: string, error: string, attempts: nat): (r: Ledger)
    ensures r.processed == l.processed && r.pending == l.pending
    ensures FirstWithKey(r.failed, FileOf, name) == Some(FailRecord(name, error, attempts))
    ensures FailedFiles(r) == if name in FailedFiles(l) then FailedFiles(l) else FailedFiles(l) + [name]
    ensures forall f: FailRecord :: f.file != name ==> (f in r.failed <==> f in l.failed)
    ensures WellFormed(l) ==> WellFormed(r)
  {
    var rec := FailRecord(name, error, attempts);
    if name in Files(l.failed) then
      ReplaceFirst(l.failed, rec);
      l.(failed := l.failed[FirstIndex(l.failed, name) := rec])
    else
      AppendRecord(l.failed, rec);
      l.(failed := l.failed + [rec])
  }

  /** `mark_failed` never removes a name from `processed`: a name marked
      done and then failed is both processed and failed. */
  lemma MarkFailedKeepsProcessed()
    ensures var l := MarkFailed(MarkDone(Fresh, "a.mp4"), "a.mp4", "boom", 3);
      IsDone(l, "a.mp4") && "a.mp4" in FailedFiles(l)
  {
    var l := MarkFailed(MarkDone(Fresh, "a.mp4"), "a.mp4", "boom", 3);
    assert FailedFiles(l) == ["a.mp4"];
  }

  /** `summary()`. */
  function Summary(l: Ledger): string {
    "Traités : " + NatToString(|l.processed|) + " | Échecs : " + NatToString(|l.failed|)
  }

  // ---------------------------------------------------------------------------
  // with_retry

  /** What one call of the wrapped `fn()` does: return a value or raise. */
  datatype Attempt<+T> = Succeeded(value: T) | Raised(error: string)

  /** The calls `with_retry` makes: the value returned (`None` after giving
      up), how many times `fn` was called, the sleeps taken in order, and the
      message of the latest failure. */
  datatype Tries<T> = Tries(result: Option<T>, calls: nat, sleeps: seq<nat>, lastError: string)

  /** The attempts from `attempt` on, after `sleeps` and with `lastError` the
      message of the latest failure. `fn(k)` is the outcome of the k-th call. */
  function TriesFrom<T>(cfg: Config, fn: nat -> Attempt<T>, attempt: nat, sleeps: seq<nat>,
                        lastError: string): Tries<T>
    requires Valid(cfg) && 1 <= attempt <= cfg.maxRetries + 1
    decreases cfg.maxRetries + 1 - attempt
  {
    if attempt > cfg.maxRetries then Tries(None, cfg.maxRetries, sleeps, lastError)
    else
      match fn(attempt)
      case Succeeded(v) => Tries(Some(v), attempt, sleeps, lastError)
      case Raised(e) =>
        var slept := if attempt < cfg.maxRetries then sleeps + [cfg.retryBackoff[attempt - 1]] else sleeps;
        TriesFrom(cfg, fn, attempt + 1, slept, e)
  }

  /** How many sleeps `k` failed calls cause: one after each call except
      the one numbered `MAX_RETRIES`. */
  function SleepsAfter(cfg: Config, k: nat): (n: nat)
    requires Valid(cfg) && k <= cfg.maxRetries
    ensures n <= |cfg.retryBackoff|
  {
    if k < cfg.maxRetries then k else if k == 0 then 0 else k - 1
  }

  /** The message `with_retry` records after giving up. */
  function LastError<T>(cfg: Config, fn: nat -> Attempt<T>): string {
    if cfg.maxRetries == 0 || fn(cfg.maxRetries).Succeeded? then "" else fn(cfg.maxRetries).error
  }

  lemma {:induction false} TriesFromSpec<T>(cfg: Config, fn: nat -> Attempt<T>, attempt: nat,
                                           sleeps: seq<nat>, lastError: string)
    requires Valid(cfg) && 1 <= attempt <= cfg.maxRetries + 1
    requires sleeps == cfg.retryBackoff[..SleepsAfter(cfg, attempt - 1)]
    requires lastError == if attempt == 1 || fn(attempt - 1).Succeeded? then "" else fn(attempt - 1).error
    ensures var t := TriesFrom(cfg, fn, attempt, sleeps, lastError);
      && (t.result.Some? ==>
            && attempt <= t.calls <= cfg.maxRetries
            && fn(t.calls) == Succeeded(t.result.value)
            && (forall k :: attempt <= k < t.calls ==> fn(k).Raised?)
            && t.sleeps == cfg.retryBackoff[..t.calls - 1])
      && (t.result.None? ==>
            && t.calls == cfg.maxRetries
            && (forall k :: attempt <= k <= cfg.maxRetries ==> fn(k).Raised?)
            && t.sleeps == cfg.retryBackoff[..SleepsAfter(cfg, cfg.maxRetries)]
            && t.lastError == LastError(cfg, fn))
    decreases cfg.maxRetries + 1 - attempt
  {
    if attempt <= cfg.maxRetries && fn(attempt).Raised? {
      var slept := if attempt < cfg.maxRetries then sleeps + [cfg.retryBackoff[attempt - 1]] else sleeps;
      assert slept == cfg.retryBackoff[..SleepsAfter(cfg, attempt)];
      TriesFromSpec(cfg, fn, attempt + 1, slept, fn(attempt).error);
    }
  }

  /** What `with_retry` yields: the calls made and the ledger afterwards. */
  datatype RetryRun<T> = RetryRun(result: Option<T>, calls: nat, sleeps: seq<nat>, ledger: Ledger)

  /** `with_retry(fn, name, tracker)` as a function of the outcomes of the
      successive calls. It returns the value of the first successful call,
      after exactly the sleeps that follow the failed calls before it, and
      marks the name done; when all `MAX_RETRIES` calls raise it sleeps
      after every call but the last, records the last error, and returns
      `None`. */
  function Retry<T>(cfg: Config, fn: nat -> Attempt<T>, name: string, l: Ledger): (r: RetryRun<T>)
    requires Valid(cfg)
    ensures r.result.Some? <==> exists k :: 1 <= k <= cfg.maxRetries && fn(k).Succeeded?
    ensures r.result.Some? ==>
      && 1 <= r.calls <= cfg.maxRetries
      && fn(r.calls) == Succeeded(r.result.value)
      && (forall k :: 1 <= k < r.calls ==> fn(k).Raised?)
      && r.sleeps == cfg.retryBackoff[..r.calls - 1]
      && r.ledger == MarkDone(l, name)
    ensures r.result.None? ==>
      && r.calls == cfg.maxRetries
      && (forall k :: 1 <= k <= cfg.maxRetries ==> fn(k).Raised?)
      && r.sleeps == cfg.retryBackoff[..SleepsAfter(cfg, cfg.maxRetries)]
      && r.ledger == MarkFailed(l, name, LastError(cfg, fn), cfg.maxRetries)
  {
    TriesFromSpec(cfg, fn, 1, [], "");
    var t := TriesFrom(cfg, fn, 1, [], "");
    var ledger := if t.result.Some? then MarkDone(l, name) else MarkFailed(l, name, t.lastError, cfg.maxRetries);
    RetryRun(t.result, t.calls, t.sleeps, ledger)
  }

  /** The value of the first successful attempt numbered `k` to `max`, if
      any: an independent account of what `with_retry` returns. */
  function FirstSuccess<T>(fn: nat -> Attempt<T>, k: nat, max: nat): Option<T>
    decreases max + 1 - k
  {
    if k > max then None
    else if fn(k).Succeeded? then Some(fn(k).value)
    else FirstSuccess(fn, k + 1, max)
  }

  lemma {:induction false} FirstSuccessAt<T>(fn: nat -> Attempt<T>, k: nat, max: nat, c: nat)
    requires k <= c <= max && fn(c).Succeeded?
    requires forall j :: k <= j < c ==> fn(j).Raised?
    ensures FirstSuccess(fn, k, max) == Some(fn(c).value)
    decreases c - k
  {
    if k < c {
      FirstSuccessAt(fn, k + 1, max, c);
    }
  }

  lemma {:induction false} FirstSuccessNone<T>(fn: nat -> Attempt<T>, k: nat, max: nat)
    requires forall j :: k <= j <= max ==> fn(j).Raised?
    ensures FirstSuccess(fn, k, max) == None
    decreases max + 1 - k
  {
    if k <= max {
      FirstSuccessNone(fn, k + 1, max);
    }
  }

  /** `with_retry` returns the value of the first successful attempt within
      the budget, and `None` when there is none. */
  lemma RetryFirstSuccess<T>(cfg: Config, fn: nat -> Attempt<T>, name: string, l: Ledger)
    requires Valid(cfg)
    ensures Retry(cfg, fn, name, l).result == FirstSuccess(fn, 1, cfg.maxRetries)
  {
    var r := Retry(cfg, fn, name, l);
    if r.result.Some? {
      FirstSuccessAt(fn, 1, cfg.maxRetries, r.calls);
    } else {
      FirstSuccessNone(fn, 1, cfg.maxRetries);
    }
  }

  /** The loop of `with_retry`, step by step; it computes what `Retry` describes. */
  method WithRetry<T>(cfg: Config, fn: nat -> Attempt<T>, name: string, l: Ledger)
    returns (result: Option<T>, calls: nat, sleeps: seq<nat>, ledger: Ledger)
    requires Valid(cfg)
    ensures RetryRun(result, calls, sleeps, ledger) == Retry(cfg, fn, name, l)
  {
    var lastError := "";
    sleeps := [];
    var attempt := 1;
    while attempt <= cfg.maxRetries
      invariant 1 <= attempt <= cfg.maxRetries + 1
      invariant TriesFrom(cfg, fn, 1, [], "") == TriesFrom(cfg, fn, attempt, sleeps, lastError)
      decreases cfg.maxRetries + 1 - attempt
    {
      var outcome := fn(attempt);
      if outcome.Succeeded? {
        return Some(outcome.value), attempt, sleeps, MarkDone(l, name);
      }
      lastError := outcome.error;
      if attempt < cfg.maxRetries {
        sleeps := sleeps + [cfg.retryBackoff[attempt - 1]];
      }
      attempt := attempt + 1;
    }
    return None, cfg.maxRetries, sleeps, MarkFailed(l, name, lastError, cfg.maxRetries);
  }

  /** With the shipped constants, three failures sleep 30 s then 90 s. */
  lemma RetryAllFailShipped<T>(fn: nat -> Attempt<T>, name: string, l: Ledger)
    requires forall k :: 1 <= k <= 3 ==> fn(k).Raised?
    ensures var r := Retry(Shipped, fn, name, l);
      r.result == None && r.calls == 3 && r.sleeps == [30, 90]
      && r.ledger == MarkFailed(l, name, fn(3).error, 3)
  {
    ShippedValid();
  }
}

=== FILE: report.dfy ===
/** The rushes log of one video (export_report.py): the technical sheet,
    the shot-table rows, the transcriptions, the strong shots, the theme
    tally and the editor's observations, as data. The Markdown text, the
    title line and the date are not modelled. */
module Report {
  import opened Wrappers
  import opened Strings
  import opened Json
  import opened Seqs
  import opened Fcpxml

  // ---------------------------------------------------------------------------
  // Lookups

  /** `_INTEREST_STARS.get(interest, "★★☆")`. */
  function Stars(interest: Json): (r: Result<string>)
    ensures r.Err? <==> Unhashable(interest)
    ensures r == Ok("★★★") <==> interest == Str("fort")
    ensures r == Ok("★☆☆") <==> interest == Str("faible")
    ensures r == Ok("★★☆") <==> !Unhashable(interest) && interest != Str("fort") && interest != Str("faible")
  {
    if Unhashable(interest) then Err("TypeError: unhashable type")
    else if interest == Str("fort") then Ok("★★★")
    else if interest == Str("faible") then Ok("★☆☆")
    else Ok("★★☆")
  }

  /** The shot types the emoji table knows. */
  predicate KnownType(v: Json) {
    v.Str? && v.s in {"revelation", "rupture", "intime", "glitch", "banal", "detail", "transition"}
  }

  /** `_TYPE_EMOJI.get(type_plan, "⚪")`. */
  function Emoji(typePlan: Json): (r: Result<string>)
    ensures r.Err? <==> Unhashable(typePlan)
    ensures r == Ok("🔴") <==> typePlan == Str("revelation")
    ensures r == Ok("🟠") <==> typePlan == Str("rupture")
    ensures r == Ok("🟢") <==> typePlan == Str("glitch")
    ensures r == Ok("🔵") <==> typePlan == Str("intime") || typePlan == Str("detail")
    ensures r == Ok("⚪") <==> !Unhashable(typePlan) && !(KnownType(typePlan) && typePlan != Str("banal") && typePlan != Str("transition"))
  {
    if Unhashable(typePlan) then Err("TypeError: unhashable type")
    else if typePlan == Str("revelation") then Ok("🔴")
    else if typePlan == Str("rupture") then Ok("🟠")
    else if typePlan == Str("glitch") then Ok("🟢")
    else if typePlan == Str("intime") || typePlan == Str("detail") then Ok("🔵")
    else Ok("⚪")
  }

  // ---------------------------------------------------------------------------
  // Table cells

  /** `s.replace("|", "/")[:width]`: a cell that cannot break the table. */
  function Cell(s: string, width: nat): (r: string)
    ensures |r| == if |s| < width then |s| else width
    ensures '|' !in r
    ensures forall i :: 0 <= i < |r| ==> r[i] == if s[i] == '|' then '/' else s[i]
  {
    Take(ReplaceChar(s, '|', '/'), width)
  }

  /** Sanitising a cell a second time changes nothing. */
  lemma CellIdempotent(s: string, width: nat)
    ensures Cell(Cell(s, width), width) == Cell(s, width)
  {
    var c := Cell(s, width);
    assert forall i :: 0 <= i < |c| ==> c[i] != '|';
  }

  /** A short text without `|` is its own cell. */
  lemma CellKeepsPlain(s: string, width: nat)
    requires '|' !in s && |s| <= width
    ensures Cell(s, width) == s
  {
    assert forall i :: 0 <= i < |s| ==> s[i] != '|';
  }

  /** The description cell: `seg.get("description_visuelle", "")` must be a
      string (anything else has no `replace`); 80 characters at most. */
  function DescriptionCell(v: Json): (r: Result<string>)
    ensures r.Ok? <==> v.Str?
    ensures r.Ok? ==> r.value == Cell(v.s, 80)
    ensures r.Ok? ==> |r.value| <= 80 && '|' !in r.value && StartsWith(ReplaceChar(v.s, '|', '/'), r.value)
  {
    if v.Str? then Ok(Cell(v.s, 80)) else Err("AttributeError: 'replace' on a description that is not a string")
  }

  /** The notes cell: `(seg.get("notes_monteur") or "")`, 60 characters at
      most; a falsy value is an empty cell. */
  function NotesCell(v: Json): (r: Result<string>)
    ensures r.Ok? <==> !Truthy(v) || v.Str?
    ensures !Truthy(v) ==> r == Ok("")
    ensures r.Ok? && v.Str? ==> r.value == Cell(v.s, 60)
    ensures r.Ok? && v.Str? ==> |r.value| <= 60 && '|' !in r.value && StartsWith(ReplaceChar(v.s, '|', '/'), r.value)
  {
    if !Truthy(v) then Ok("")
    else if v.Str? then Ok(Cell(v.s, 60))
    else Err("AttributeError: 'replace' on notes that are not a string")
  }

  /** One row of the commented timeline. */
  datatype Row = Row(tcStart: string, tcEnd: string, emoji: string, kind: string, stars: string,
                     description: string, notes: string)

  /** The row of one segment; the emoji, stars, description and notes as
      above, the other cells the fields as printed (`?` when absent). */
  function SegmentRow(seg: Record, repr: Json -> string): (r: Result<Row>)
    ensures r.Ok? <==>
      && !Unhashable(Get(seg, "type_plan", Null)) && !Unhashable(Get(seg, "interet_film", Null))
      && Get(seg, "description_visuelle", Str("")).Str?
      && (!Truthy(Get(seg, "notes_monteur", Null)) || Get(seg, "notes_monteur", Null).Str?)
    ensures r.Ok? ==>
      && r.value.emoji == Emoji(Get(seg, "type_plan", Str(""))).value
      && r.value.stars == Stars(Get(seg, "interet_film", Str("moyen"))).value
    ensures r.Ok? ==>
      && r.value.tcStart == Display(Get(seg, "tc_start", Str("?")), repr)
      && r.value.tcEnd == Display(Get(seg, "tc_end", Str("?")), repr)
      && r.value.kind == Display(Get(seg, "type_plan", Str("?")), repr)
      && r.value.description == DescriptionCell(Get(seg, "description_visuelle", Str(""))).value
      && r.value.notes == NotesCell(Get(seg, "notes_monteur", Null)).value
    ensures r.Ok? ==>
      && |r.value.description| <= 80 && '|' !in r.value.description
      && |r.value.notes| <= 60 && '|' !in r.value.notes
  {
    var emoji :- Emoji(Get(seg, "type_plan", Str("")));
    var stars :- Stars(Get(seg, "interet_film", Str("moyen")));
    var desc :- DescriptionCell(Get(seg, "description_visuelle", Str("")));
    var notes :- NotesCell(Get(seg, "notes_monteur", Null));
    Ok(Row(Display(Get(seg, "tc_start", Str("?")), repr), Display(Get(seg, "tc_end", Str("?")), repr),
      emoji, Display(Get(seg, "type_plan", Str("?")), repr), stars, desc, notes))
  }

  // ---------------------------------------------------------------------------
  // Transcriptions and strong shots

  /** `s.get("transcription")` is truthy. */
  predicate HasTranscription(seg: Record) {
    Truthy(Get(seg, "transcription", Null))
  }

  /** One transcription entry: start, speaker (`?` when absent), the words,
      and the audio description when it is truthy. */
  datatype Transcript = Transcript(tcStart: string, speaker: string, words: string, audio: Option<string>)

  /** The entry of a transcribed segment; `seg['tc_start']` raises
      `KeyError` when the start is missing. */
  function TranscriptOf(seg: Record, repr: Json -> string): (r: Result<Transcript>)
    ensures r.Ok? <==> "tc_start" in seg
    ensures r.Ok? ==>
      && r.value.tcStart == Display(seg["tc_start"], repr)
      && r.value.speaker == Display(Get(seg, "locuteur", Str("?")), repr)
      && r.value.words == Display(Get(seg, "transcription", Null), repr)
    ensures r.Ok? ==> (r.value.audio.Some? <==> Truthy(Get(seg, "description_audio", Null)))
    ensures r.Ok? && r.value.audio.Some? ==> r.value.audio.value == Display(seg["description_audio"], repr)
  {
    if "tc_start" !in seg then Err("KeyError: 'tc_start'")
    else
      var audio := Get(seg, "description_audio", Null);
      Ok(Transcript(Display(seg["tc_start"], repr), Display(Get(seg, "locuteur", Str("?")), repr),
        Display(Get(seg, "transcription", Null), repr),
        if Truthy(audio) then Some(Display(audio, repr)) else None))
  }

  /** `s.get("interet_film") == "fort"`. */
  predicate IsStrongShot(seg: Record) {
    Get(seg, "interet_film", Null) == Str("fort")
  }

  /** One strong-shot entry. */
  datatype Strong = Strong(emoji: string, tcStart: string, tcEnd: string, kind: string,
                           description: string, audio: string, interpretation: string, emotion: string)

  /** The entry of a strong shot: the type is upper-cased, so it must be a
      string (default empty); the emotion is `or ''`. */
  function StrongOf(seg: Record, repr: Json -> string): (r: Result<Strong>)
    ensures r.Ok? <==> Get(seg, "type_plan", Str("")).Str?
    ensures r.Ok? ==> r.value.emoji == Emoji(Get(seg, "type_plan", Str(""))).value
    ensures r.Ok? ==> r.value.kind == Upper(Get(seg, "type_plan", Str("")).s)
    ensures r.Ok? ==>
      && r.value.tcStart == Display(Get(seg, "tc_start", Null), repr)
      && r.value.tcEnd == Display(Get(seg, "tc_end", Null), repr)
      && r.value.description == Display(Get(seg, "description_visuelle", Str("")), repr)
      && r.value.audio == Display(Get(seg, "description_audio", Str("N/A")), repr)
      && r.value.interpretation == Display(Get(seg, "interpretation_monteur", Str("")), repr)
    ensures r.Ok? && Truthy(Get(seg, "emotion_visible", Null)) ==>
      r.value.emotion == Display(Get(seg, "emotion_visible", Null), repr)
    ensures r.Ok? ==> (r.value.emotion == "" <==> !Truthy(Get(seg, "emotion_visible", Null)) || Display(Get(seg, "emotion_visible", Null), repr) == "")
  {
    var typePlan := Get(seg, "type_plan", Str(""));
    var emoji :- Emoji(typePlan);
    if !typePlan.Str? then Err("AttributeError: 'upper' on a type that is not a string")
    else
      var emotion := Get(seg, "emotion_visible", Null);
      Ok(Strong(emoji, Display(Get(seg, "tc_start", Null), repr), Display(Get(seg, "tc_end", Null), repr),
        Upper(typePlan.s), Display(Get(seg, "description_visuelle", Str("")), repr),
        Display(Get(seg, "description_audio", Str("N/A")), repr),
        Display(Get(seg, "interpretation_monteur", Str("")), repr),
        if Truthy(emotion) then Display(emotion, repr) else ""))
  }

  // ---------------------------------------------------------------------------
  // Theme tally

  /** A theme with its number of occurrences. */
  type Entry = (string, nat)

  /** The themes of an entry list, in order. */
  function Keys(t: seq<Entry>): (ks: seq<string>)
    ensures |ks| == |t| && forall i :: 0 <= i < |t| ==> ks[i] == t[i].0
  {
    if |t| == 0 then [] else [t[0].0] + Keys(t[1..])
  }

  /** The count recorded for `k`, 0 when it is not there. */
  function CountOf(t: seq<Entry>, k: string): nat {
    if |t| == 0 then 0 else if t[0].0 == k then t[0].1 else CountOf(t[1..], k)
  }

  /** `all_themes[x] = all_themes.get(x, 0) + 1` on an insertion-ordered
      dict: an existing entry is incremented in place, a new one appended. */
  function Bump(t: seq<Entry>, x: string): (r: seq<Entry>)
    ensures x in Keys(t) ==> Keys(r) == Keys(t)
    ensures x !in Keys(t) ==> Keys(r) == Keys(t) + [x]
    ensures forall k :: CountOf(r, k) == CountOf(t, k) + if k == x then 1 else 0
  {
    if |t| == 0 then [(x, 1)]
    else if t[0].0 == x then [(x, t[0].1 + 1)] + t[1..]
    else
      var rest := Bump(t[1..], x);
      assert Keys([t[0]] + rest) == [t[0].0] + Keys(rest);
      [t[0]] + rest
  }

  /** The loop over the themes, continuing from the dict `acc`. */
  function TallyFrom(themes: seq<string>, acc: seq<Entry>): seq<Entry>
    decreases |themes|
  {
    if |themes| == 0 then acc else TallyFrom(themes[1..], Bump(acc, themes[0]))
  }

  /** `all_themes` built from an empty dict. */
  function Tally(themes: seq<string>): seq<Entry> {
    TallyFrom(themes, [])
  }

  function Id(x: string): string { x }

  lemma {:induction false} KeysDistinct(t: seq<Entry>, x: string)
    requires DistinctKeys(Keys(t), Id)
    ensures DistinctKeys(Keys(Bump(t, x)), Id)
  {
    var ks, rs := Keys(t), Keys(Bump(t, x));
    if x !in ks {
      forall i, j | 0 <= i < j < |rs| ensures rs[i] != rs[j] {
        if j == |ks| {
          assert rs[i] == ks[i];
        } else {
          assert rs[i] == ks[i] && rs[j] == ks[j];
        }
      }
    }
  }

  /** The themes an entry list holds. */
  function KeySet(t: seq<Entry>): set<string> {
    set k | k in Keys(t)
  }

  /** The keys of the tally continued from `acc` are those of `acc` followed
      by the new themes in first-seen order. */
  lemma {:induction false} TallyFromKeys(themes: seq<string>, acc: seq<Entry>)
    ensures Keys(TallyFrom(themes, acc)) == Keys(acc) + DedupBy(themes, Id, KeySet(acc))
    decreases |themes|
  {
    if |themes| > 0 {
      var x, rest := themes[0], themes[1..];
      var next := Bump(acc, x);
      TallyFromKeys(rest, next);
      DedupStep(themes, KeySet(acc));
      if x in Keys(acc) {
        assert KeySet(next) == KeySet(acc);
      } else {
        assert KeySet(next) == KeySet(acc) + {x};
        AppendAssoc(Keys(acc), [x], DedupBy(rest, Id, KeySet(next)));
      }
    }
  }

  /** One step of the first-wins de-duplication. */
  lemma DedupStep(s: seq<string>, seen: set<string>)
    requires |s| > 0
    ensures DedupBy(s, Id, seen) ==
      if s[0] in seen then DedupBy(s[1..], Id, seen) else [s[0]] + DedupBy(s[1..], Id, seen + {s[0]})
  {
  }

  lemma AppendAssoc<T>(a: seq<T>, b: seq<T>, c: seq<T>)
    ensures a + b + c == a + (b + c)
  {
  }

  /** The keys of the tally continued from `acc` stay distinct. */
  lemma {:induction false} TallyFromDistinct(themes: seq<string>, acc: seq<Entry>)
    requires DistinctKeys(Keys(acc), Id)
    ensures DistinctKeys(Keys(TallyFrom(themes, acc)), Id)
    decreases |themes|
  {
    if |themes| > 0 {
      KeysDistinct(acc, themes[0]);
      TallyFromDistinct(themes[1..], Bump(acc, themes[0]));
    }
  }

  /** Each count of the tally continued from `acc` grows by the theme's
      occurrences. */
  lemma {:induction false} TallyFromCounts(themes: seq<string>, acc: seq<Entry>, k: string)
    ensures CountOf(TallyFrom(themes, acc), k) == CountOf(acc, k) + multiset(themes)[k]
    decreases |themes|
  {
    if |themes| > 0 {
      var x, rest := themes[0], themes[1..];
      TallyFromCounts(rest, Bump(acc, x), k);
      assert themes == [x] + rest;
      assert multiset(themes) == multiset{x} + multiset(rest);
    }
  }

  /** `all_themes`: one entry per distinct theme, in the order each was
      first seen, carrying its number of occurrences. */
  lemma TallyShape(themes: seq<string>)
    ensures Keys(Tally(themes)) == DedupBy(themes, Id, {})
    ensures DistinctKeys(Keys(Tally(themes)), Id)
    ensures forall k :: CountOf(Tally(themes), k) == multiset(themes)[k]
  {
    TallyKeys(themes);
    TallyFromDistinct(themes, []);
    TallyCounts(themes);
  }

  lemma TallyKeys(themes: seq<string>)
    ensures Keys(Tally(themes)) == DedupBy(themes, Id, {})
  {
    assert KeySet([]) == {};
    TallyFromKeys(themes, []);
  }

  lemma TallyCounts(themes: seq<string>)
    ensures forall k :: CountOf(Tally(themes), k) == multiset(themes)[k]
  {
    forall k ensures CountOf(Tally(themes), k) == multiset(themes)[k] {
      TallyFromCounts(themes, [], k);
    }
  }

  /** In a list with distinct keys each entry carries the count `CountOf`
      reports for it. */
  lemma {:induction false} EntryCount(t: seq<Entry>, i: nat)
    requires DistinctKeys(Keys(t), Id) && i < |t|
    ensures t[i].1 == CountOf(t, t[i].0)
    decreases i
  {
    if i > 0 {
      assert Keys(t)[0] != Keys(t)[i];
      assert DistinctKeys(Keys(t[1..]), Id) by {
        forall a, b | 0 <= a < b < |t| - 1 ensures Keys(t[1..])[a] != Keys(t[1..])[b] {
          assert Keys(t[1..])[a] == Keys(t)[a + 1] && Keys(t[1..])[b] == Keys(t)[b + 1];
        }
      }
      EntryCount(t[1..], i - 1);
    }
  }

  /** Counts never increase along the list. */
  predicate Descending(t: seq<Entry>) {
    forall i, j :: 0 <= i < j < |t| ==> t[i].1 >= t[j].1
  }

  /** The entries with count `c`, in order. */
  function WithCount(t: seq<Entry>, c: nat): seq<Entry> {
    if |t| == 0 then [] else (if t[0].1 == c then [t[0]] else []) + WithCount(t[1..], c)
  }

  /** Stable insertion of `x` after every entry counting at least as much. */
  function Insert(x: Entry, t: seq<Entry>): (r: seq<Entry>)
    ensures multiset(r) == multiset(t) + multiset{x}
  {
    if |t| == 0 then [x]
    else if t[0].1 >= x.1 then
      assert t == [t[0]] + t[1..];
      [t[0]] + Insert(x, t[1..])
    else [x] + t
  }

  lemma {:induction false} InsertDescending(x: Entry, t: seq<Entry>)
    requires Descending(t)
    ensures Descending(Insert(x, t))
  {
    if |t| > 0 && t[0].1 >= x.1 {
      InsertDescending(x, t[1..]);
      var r := Insert(x, t);
      assert r == [t[0]] + Insert(x, t[1..]);
      assert forall j :: 0 < j < |r| ==> r[j] in multiset(t[1..]) + multiset{x};
      forall i, j | 0 <= i < j < |r| ensures r[i].1 >= r[j].1 {
        if i == 0 {
          assert r[j] in multiset(t[1..]) + multiset{x};
          if r[j] in t[1..] {
            var k :| 0 <= k < |t[1..]| && t[1..][k] == r[j];
            assert t[k + 1] == r[j];
          }
        }
      }
    }
  }

  lemma DescendingTail(t: seq<Entry>)
    requires Descending(t) && |t| > 0
    ensures Descending(t[1..])
  {
    forall i, j | 0 <= i < j < |t| - 1 ensures t[1..][i].1 >= t[1..][j].1 {
      assert t[1..][i] == t[i + 1] && t[1..][j] == t[j + 1];
    }
  }

  /** Inserting into a descending list puts `x` after the entries with the
      same count. */
  lemma {:induction false} InsertStable(x: Entry, t: seq<Entry>, c: nat)
    requires Descending(t)
    ensures WithCount(Insert(x, t), c) == WithCount(t, c) + if x.1 == c then [x] else []
  {
    if |t| == 0 {
      assert WithCount([x], c) == (if x.1 == c then [x] else []) + WithCount([x][1..], c);
    } else if t[0].1 >= x.1 {
      var rest := t[1..];
      DescendingTail(t);
      InsertStable(x, rest, c);
      var r := Insert(x, t);
      assert r == [t[0]] + Insert(x, rest);
      assert r[1..] == Insert(x, rest);
      var head: seq<Entry> := if t[0].1 == c then [t[0]] else [];
      assert WithCount(r, c) == head + WithCount(Insert(x, rest), c);
      assert WithCount(t, c) == head + WithCount(rest, c);
      assert head + (WithCount(rest, c) + if x.1 == c then [x] else []) == (head + WithCount(rest, c)) + if x.1 == c then [x] else [];
    } else {
      var r := [x] + t;
      assert r[1..] == t;
      assert WithCount(r, c) == (if x.1 == c then [x] else []) + WithCount(t, c);
      if x.1 == c {
        assert forall i :: 0 <= i < |t| ==> t[i].1 <= t[0].1;
        NoneWithCount(t, c, x.1);
      }
    }
  }

  lemma {:induction false} NoneWithCount(t: seq<Entry>, c: nat, bound: nat)
    requires forall i :: 0 <= i < |t| ==> t[i].1 < bound
    requires c >= bound
    ensures WithCount(t, c) == []
  {
    if |t| > 0 {
      assert forall i :: 0 <= i < |t[1..]| ==> t[1..][i] == t[i + 1];
      NoneWithCount(t[1..], c, bound);
    }
  }

  /** `sorted(..., key=lambda x: -x[1])`, each entry inserted in turn into
      the sorted prefix `acc`. */
  function SortFrom(t: seq<Entry>, acc: seq<Entry>): seq<Entry>
    decreases |t|
  {
    if |t| == 0 then acc else SortFrom(t[1..], Insert(t[0], acc))
  }

  function SortDesc(t: seq<Entry>): seq<Entry> {
    SortFrom(t, [])
  }

  lemma {:induction false} SortFromDescending(t: seq<Entry>, acc: seq<Entry>)
    requires Descending(acc)
    ensures Descending(SortFrom(t, acc))
    decreases |t|
  {
    if |t| > 0 {
      InsertDescending(t[0], acc);
      SortFromDescending(t[1..], Insert(t[0], acc));
    }
  }

  lemma {:induction false} SortFromPermutes(t: seq<Entry>, acc: seq<Entry>)
    ensures multiset(SortFrom(t, acc)) == multiset(acc) + multiset(t)
    decreases |t|
  {
    if |t| > 0 {
      SortFromPermutes(t[1..], Insert(t[0], acc));
      assert t == [t[0]] + t[1..];
    }
  }

  lemma {:induction false} SortFromStable(t: seq<Entry>, acc: seq<Entry>, c: nat)
    requires Descending(acc)
    ensures WithCount(SortFrom(t, acc), c) == WithCount(acc, c) + WithCount(t, c)
    decreases |t|
  {
    if |t| > 0 {
      var next := Insert(t[0], acc);
      InsertDescending(t[0], acc);
      InsertStable(t[0], acc, c);
      SortFromStable(t[1..], next, c);
      var head: seq<Entry> := if t[0].1 == c then [t[0]] else [];
      WithCountStep(t, c);
      AppendAssoc(WithCount(acc, c), head, WithCount(t[1..], c));
    }
  }

  /** One step of `WithCount`. */
  lemma WithCountStep(t: seq<Entry>, c: nat)
    requires |t| > 0
    ensures WithCount(t, c) == (if t[0].1 == c then [t[0]] else []) + WithCount(t[1..], c)
  {
  }

  /** The sort is a stable sort by descending count: a permutation whose
      counts descend and in which the entries of any one count keep their
      order. */
  lemma SortDescShape(t: seq<Entry>)
    ensures Descending(SortDesc(t))
    ensures multiset(SortDesc(t)) == multiset(t)
    ensures forall c :: WithCount(SortDesc(t), c) == WithCount(t, c)
  {
    SortFromDescending(t, []);
    SortFromPermutes(t, []);
    forall c ensures WithCount(SortDesc(t), c) == WithCount(t, c) {
      SortFromStable(t, [], c);
    }
  }

  /** `sorted_themes[:20]`. */
  function Shown(t: seq<Entry>): (r: seq<Entry>)
    ensures |r| == if |t| < 20 then |t| else 20
    ensures r == t[..|r|]
  {
    if |t| <= 20 then t else t[..20]
  }

  /** `seg.get("themes", [])` as the inner loop iterates it: a list of
      strings, or a string's characters; a number, a boolean or `None`
      cannot be iterated. */
  function ThemeList(seg: Record): (r: Result<seq<string>>)
    ensures "themes" !in seg ==> r == Ok([])
    ensures "themes" in seg && seg["themes"].Str? ==> r.Ok? && |r.value| == |seg["themes"].s|
    ensures "themes" in seg && seg["themes"].Arr? ==>
      (r.Ok? <==> forall i :: 0 <= i < |seg["themes"].items| ==> seg["themes"].items[i].Str?)
    ensures r.Ok? && "themes" in seg && seg["themes"].Arr? ==>
      |r.value| == |seg["themes"].items| && forall i :: 0 <= i < |r.value| ==> seg["themes"].items[i] == Str(r.value[i])
    ensures "themes" in seg && (seg["themes"].Null? || seg["themes"].Num? || seg["themes"].Bool?) ==> r.Err?
  {
    if "themes" !in seg then Ok([])
    else
      match seg["themes"]
      case Str(s) => Ok(seq(|s|, i requires 0 <= i < |s| => [s[i]]))
      case Arr(items) =>
        if forall i :: 0 <= i < |items| ==> items[i].Str? then Ok(seq(|items|, i requires 0 <= i < |items| => items[i].s))
        else Err("a theme that is not a string")
      case Obj(m) => if m == map[] then Ok([]) else Err("the themes are a dict")
      case _ => Err("TypeError: the themes are not iterable")
  }

  /** The themes of all segments, in segment order. */
  function AllThemes(segs: seq<Record>): (r: Result<seq<string>>)
    ensures r.Ok? <==> forall i :: 0 <= i < |segs| ==> ThemeList(segs[i]).Ok?
    decreases |segs|
  {
    if |segs| == 0 then Ok([])
    else
      var first :- ThemeList(segs[0]);
      var rest :- AllThemes(segs[1..]);
      assert forall i :: 1 <= i < |segs| ==> segs[i] == segs[1..][i - 1];
      Ok(first + rest)
  }

  /** The themes shown: the tally sorted by descending count, the first 20;
      there is a theme section exactly when some segment has a theme. */
  function ThemeSection(themes: seq<string>): (r: seq<Entry>)
    ensures |r| <= 20
    ensures r == [] <==> themes == []
  {
    TallyEmpty(themes);
    SortDescShape(Tally(themes));
    Shown(SortDesc(Tally(themes)))
  }

  /** The tally is empty exactly when there is no theme. */
  lemma TallyEmpty(themes: seq<string>)
    ensures Tally(themes) == [] <==> themes == []
  {
    TallyShape(themes);
    if themes != [] {
      assert themes[0] in multiset(themes);
      assert CountOf(Tally(themes), themes[0]) > 0;
    }
  }

  // ---------------------------------------------------------------------------
  // Observations

  const ObservationKeys: seq<string> := ["valeur_biographique", "arcs_detectes", "recommandation_monteur"]
  const ObservationLabels: seq<string> := ["Valeur biographique", "Arcs narratifs", "Recommandation"]

  /** One sub-line of the observations: its heading and the field as printed. */
  datatype Remark = Remark(heading: string, text: string)

  /** The sub-line for field `i`, when that field is truthy. */
  function RemarkAt(fields: Record, i: nat, repr: Json -> string): (r: seq<Remark>)
    requires i < 3
    ensures |r| <= 1
    ensures r != [] <==> Truthy(Get(fields, ObservationKeys[i], Null))
    ensures r != [] ==> r[0] == Remark(ObservationLabels[i], Display(fields[ObservationKeys[i]], repr))
  {
    if Truthy(Get(fields, ObservationKeys[i], Null)) then
      [Remark(ObservationLabels[i], Display(fields[ObservationKeys[i]], repr))]
    else []
  }

  /** `if obs:` the section and its sub-lines. A falsy value (the default
      `{}` among them) gives no section; a truthy value that is not a dict
      has no `get`. Each of the three sub-lines is there exactly when its
      field is truthy, in the fixed order. */
  function Observations(obs: Json, repr: Json -> string): (r: Result<Option<seq<Remark>>>)
    ensures !Truthy(obs) ==> r == Ok(None)
    ensures Truthy(obs) ==> (r.Ok? <==> obs.Obj?)
    ensures r.Ok? && Truthy(obs) ==>
      && r.value.Some?
      && r.value.value == RemarkAt(obs.fields, 0, repr) + RemarkAt(obs.fields, 1, repr) + RemarkAt(obs.fields, 2, repr)
  {
    if !Truthy(obs) then Ok(None)
    else if !obs.Obj? then Err("AttributeError: 'get' on observations that are not a dict")
    else Ok(Some(RemarkAt(obs.fields, 0, repr) + RemarkAt(obs.fields, 1, repr) + RemarkAt(obs.fields, 2, repr)))
  }

  /** A sub-line with a given heading is present exactly when its field is
      truthy, and it prints that field. */
  lemma ObservationLine(obs: Json, i: nat, repr: Json -> string)
    requires i < 3
    requires Observations(obs, repr).Ok? && Observations(obs, repr).value.Some?
    ensures (exists j :: 0 <= j < |Observations(obs, repr).value.value|
               && Observations(obs, repr).value.value[j].heading == ObservationLabels[i])
      <==> Truthy(Get(obs.fields, ObservationKeys[i], Null))
  {
    var rs := Observations(obs, repr).value.value;
    var a, b, c := RemarkAt(obs.fields, 0, repr), RemarkAt(obs.fields, 1, repr), RemarkAt(obs.fields, 2, repr);
    assert rs == a + b + c;
    assert forall j :: 0 <= j < |rs| ==> rs[j] in a + b + c;
    forall j | 0 <= j < |rs| ensures rs[j].heading in ObservationLabels[..] && (rs[j].heading == ObservationLabels[i] ==> Truthy(Get(obs.fields, ObservationKeys[i], Null))) {
      assert rs[j] in a || rs[j] in b || rs[j] in c;
    }
    if Truthy(Get(obs.fields, ObservationKeys[i], Null)) {
      var r := RemarkAt(obs.fields, i, repr);
      if i == 0 { assert rs[0] == r[0]; }
      else if i == 1 { assert rs[|a|] == r[0]; }
      else { assert rs[|a| + |b|] == r[0]; }
    }
  }

  // ---------------------------------------------------------------------------
  // Header

  /** `", ".join(parts)`. */
  function JoinComma(parts: seq<string>): (r: string)
    ensures r == "" <==> |parts| == 0 || (|parts| == 1 && parts[0] == "")
    ensures |parts| == 1 ==> r == parts[0]
    decreases |parts|
  {
    if |parts| == 0 then ""
    else if |parts| == 1 then parts[0]
    else parts[0] + ", " + JoinComma(parts[1..])
  }

  /** The strings of a list whose items are all strings. */
  function Texts(items: seq<Json>): (r: seq<string>)
    requires forall i :: 0 <= i < |items| ==> items[i].Str?
    ensures |r| == |items| && forall i :: 0 <= i < |items| ==> r[i] == items[i].s
    decreases |items|
  {
    if |items| == 0 then [] else [items[0].s] + Texts(items[1..])
  }

  /** The one-character strings of a string, as iterating over it yields them. */
  function Chars(s: string): (r: seq<string>)
    ensures |r| == |s| && forall i :: 0 <= i < |s| ==> r[i] == [s[i]]
    decreases |s|
  {
    if |s| == 0 then [] else [[s[0]]] + Chars(s[1..])
  }

  /** The people cell. A dict is joined key by key in its insertion order,
      which a `Record` does not keep, so that cell stays symbolic. */
  datatype PeopleCell = Text(s: string) | KeysOf(fields: Record)

  /** `", ".join(profil.get("personnages_presentes", ["?"])) or "?"`: a list
      of strings or a string (one name per character) is joined; a dict
      gives its keys; anything else, or a list with an item that is not a
      string, cannot be joined. An empty join prints `?`. */
  function People(v: Json): (r: Result<PeopleCell>)
    ensures r.Ok? <==> v.Str? || v.Obj? || (v.Arr? && forall i :: 0 <= i < |v.items| ==> v.items[i].Str?)
    ensures r.Ok? && v.Arr? && JoinComma(Texts(v.items)) != "" ==> r.value == Text(JoinComma(Texts(v.items)))
    ensures r.Ok? && v.Arr? && JoinComma(Texts(v.items)) == "" ==> r.value == Text("?")
    ensures v == Arr([]) ==> r == Ok(Text("?"))
    ensures r.Ok? && v.Str? ==> r.value == Text(if v.s == "" then "?" else JoinComma(Chars(v.s)))
    ensures r.Ok? && v.Obj? ==> r.value == if v.fields == map[] then Text("?") else KeysOf(v.fields)
    ensures r.Ok? && r.value.Text? ==> r.value.s != ""
  {
    match v
    case Arr(items) =>
      if forall i :: 0 <= i < |items| ==> items[i].Str? then
        var joined := JoinComma(Texts(items));
        Ok(Text(if joined == "" then "?" else joined))
      else Err("TypeError: sequence item: expected str instance")
    case Str(s) =>
      var joined := JoinComma(Chars(s));
      Ok(Text(if joined == "" then "?" else joined))
    case Obj(fields) =>
      Ok(if fields == map[] then Text("?") else KeysOf(fields))
    case _ => Err("TypeError: can only join an iterable")
  }

  /** The technical sheet of the log: people, period, place, audio quality
      and model. */
  datatype Header = Header(people: PeopleCell, period: string, place: string, audio: string, model: string)

  /** `video_profil` (default `{}`) and `_meta` (default `{}`) of the
      analysis. */
  function Profile(analysis: Record): Json { Get(analysis, "video_profil", Obj(map[])) }
  function Meta(analysis: Record): Json { Get(analysis, "_meta", Obj(map[])) }

  /** The header can be written: both `video_profil` and `_meta` have a
      `get`, and the people can be joined. */
  predicate HeaderOk(analysis: Record) {
    && Profile(analysis).Obj? && Meta(analysis).Obj?
    && People(Get(Profile(analysis).fields, "personnages_presentes", Arr([Str("?")]))).Ok?
  }

  /** The header lines of `generate_video_report`; the title, the date and
      the file name are not modelled. */
  function HeaderOf(analysis: Record, repr: Json -> string): (r: Result<Header>)
    ensures r.Ok? <==> HeaderOk(analysis)
    ensures r.Ok? ==>
      var profile := Profile(analysis).fields;
      && r.value.people == People(Get(profile, "personnages_presentes", Arr([Str("?")]))).value
      && r.value.period == Display(Get(profile, "periode_estimee", Str("?")), repr)
      && r.value.place == Display(Get(profile, "lieu", Str("?")), repr)
      && r.value.audio == Display(Get(profile, "qualite_audio", Str("?")), repr)
      && r.value.model == Display(Get(Meta(analysis).fields, "model", Str("gemini")), repr)
  {
    var meta := Meta(analysis);
    var profile := Profile(analysis);
    if !meta.Obj? then Err("AttributeError: '_meta' has no attribute 'get'")
    else if !profile.Obj? then Err("AttributeError: 'video_profil' has no attribute 'get'")
    else
      var people :- People(Get(profile.fields, "personnages_presentes", Arr([Str("?")])));
      Ok(Header(people, Display(Get(profile.fields, "periode_estimee", Str("?")), repr),
        Display(Get(profile.fields, "lieu", Str("?")), repr),
        Display(Get(profile.fields, "qualite_audio", Str("?")), repr),
        Display(Get(meta.fields, "model", Str("gemini")), repr)))
  }

  /** An analysis with neither a profile nor a model gets the defaults. */
  lemma HeaderDefaults(analysis: Record, repr: Json -> string)
    requires "video_profil" !in analysis && "_meta" !in analysis
    ensures HeaderOf(analysis, repr) == Ok(Header(Text("?"), "?", "?", "?", "gemini"))
  {
    assert JoinComma(Texts([Str("?")])) == "?";
  }

  // ---------------------------------------------------------------------------
  // The whole log

  /** The sections of a video's log. */
  datatype VideoLog = VideoLog(header: Header, rows: seq<Row>, transcripts: seq<Transcript>, strong: seq<Strong>,
                               themes: seq<Entry>, observations: Option<seq<Remark>>)

  /** The table rows of the segments, in order; the first row that cannot
      be written fails the table. */
  function RowsOf(segs: seq<Record>, repr: Json -> string): (r: Result<seq<Row>>)
    ensures r.Ok? <==> forall i :: 0 <= i < |segs| ==> SegmentRow(segs[i], repr).Ok?
    ensures r.Ok? ==> |r.value| == |segs| && forall i :: 0 <= i < |segs| ==> SegmentRow(segs[i], repr) == Ok(r.value[i])
  {
    MapAll(segs, seg => SegmentRow(seg, repr))
  }

  /** The transcription entries of the transcribed segments, in order. */
  function TranscriptsOf(transcribed: seq<Record>, repr: Json -> string): (r: Result<seq<Transcript>>)
    ensures r.Ok? <==> forall i :: 0 <= i < |transcribed| ==> TranscriptOf(transcribed[i], repr).Ok?
    ensures r.Ok? ==> |r.value| == |transcribed|
    ensures r.Ok? ==> forall i :: 0 <= i < |transcribed| ==> TranscriptOf(transcribed[i], repr) == Ok(r.value[i])
  {
    MapAll(transcribed, seg => TranscriptOf(seg, repr))
  }

  /** The strong-shot entries of the strong shots, in order. */
  function StrongsOf(strong: seq<Record>, repr: Json -> string): (r: Result<seq<Strong>>)
    ensures r.Ok? <==> forall i :: 0 <= i < |strong| ==> StrongOf(strong[i], repr).Ok?
    ensures r.Ok? ==> |r.value| == |strong| && forall i :: 0 <= i < |strong| ==> StrongOf(strong[i], repr) == Ok(r.value[i])
  {
    MapAll(strong, seg => StrongOf(seg, repr))
  }

  /** The row shows three stars. */
  predicate Starred(row: Row) {
    row.stars == "★★★"
  }

  /** The strong-shot section and the table agree: a segment is listed as
      a strong shot exactly when its row shows three stars, so there are as
      many strong shots as starred rows. */
  lemma {:induction false} StrongShotsAreStarred(segs: seq<Record>, repr: Json -> string, rows: seq<Row>)
    requires RowsOf(segs, repr) == Ok(rows)
    ensures forall i :: 0 <= i < |segs| ==> (IsStrongShot(segs[i]) <==> Starred(rows[i]))
    ensures |Filter(segs, IsStrongShot)| == |Filter(rows, Starred)|
    decreases |segs|
  {
    forall i | 0 <= i < |segs| ensures IsStrongShot(segs[i]) <==> Starred(rows[i]) {
      assert SegmentRow(segs[i], repr) == Ok(rows[i]);
    }
    if |segs| > 0 {
      assert RowsOf(segs[1..], repr) == Ok(rows[1..]) by {
        forall i | 0 <= i < |segs| - 1 ensures SegmentRow(segs[1..][i], repr) == Ok(rows[1..][i]) {
          assert segs[1..][i] == segs[i + 1];
        }
      }
      StrongShotsAreStarred(segs[1..], repr, rows[1..]);
    }
  }

  /** `generate_video_report(video_path, analysis, output_path)`: the
      header; one row per segment, in order; the transcriptions of exactly
      the segments with a truthy transcription and the strong shots of
      exactly the segments marked `fort`, both in segment order; the theme
      section; the observations. It fails exactly when the header, the
      segment list or one of the sections cannot be written. */
  function VideoReport(analysis: Record, repr: Json -> string): (r: Result<VideoLog>)
    ensures r.Ok? <==>
      && HeaderOk(analysis) && SegmentList(analysis).Ok?
      && RowsOf(SegmentList(analysis).value, repr).Ok?
      && TranscriptsOf(Filter(SegmentList(analysis).value, HasTranscription), repr).Ok?
      && StrongsOf(Filter(SegmentList(analysis).value, IsStrongShot), repr).Ok?
      && AllThemes(SegmentList(analysis).value).Ok?
      && Observations(Get(analysis, "observations_globales", Obj(map[])), repr).Ok?
    ensures r.Ok? ==>
      var segs := SegmentList(analysis).value;
      && Ok(r.value.header) == HeaderOf(analysis, repr)
      && Ok(r.value.rows) == RowsOf(segs, repr)
      && Ok(r.value.transcripts) == TranscriptsOf(Filter(segs, HasTranscription), repr)
      && Ok(r.value.strong) == StrongsOf(Filter(segs, IsStrongShot), repr)
      && r.value.themes == ThemeSection(AllThemes(segs).value)
      && Ok(r.value.observations) == Observations(Get(analysis, "observations_globales", Obj(map[])), repr)
  {
    var header :- HeaderOf(analysis, repr);
    var segs :- SegmentList(analysis);
    var rows :- RowsOf(segs, repr);
    var transcripts :- TranscriptsOf(Filter(segs, HasTranscription), repr);
    var strong :- StrongsOf(Filter(segs, IsStrongShot), repr);
    var themes :- AllThemes(segs);
    var observations :- Observations(Get(analysis, "observations_globales", Obj(map[])), repr);
    Ok(VideoLog(header, rows, transcripts, strong, ThemeSection(themes), observations))
  }
}

=== FILE: seqs.dfy ===
/** Order-preserving list operations the pipeline uses: list comprehensions
    with a condition (`[x for x in s if p(x)]`) and first-wins de-duplication
    by a key (a `seen` set threaded through a loop). */
module Seqs {
  import opened Wrappers

  /** A loop applying `f` to each element in turn that stops at the first
      one raising: all results when none raises. */
  function MapAll<A, B>(xs: seq<A>, f: A -> Result<B>): (r: Result<seq<B>>)
    ensures r.Ok? <==> forall i :: 0 <= i < |xs| ==> f(xs[i]).Ok?
    ensures r.Ok? ==> |r.value| == |xs|
    ensures r.Ok? ==> forall i :: 0 <= i < |xs| ==> r.value[i] == f(xs[i]).value
    decreases |xs|
  {
    if |xs| == 0 then Ok([])
    else
      var y :- f(xs[0]);
      var rest :- MapAll(xs[1..], f);
      assert forall i :: 1 <= i < |xs| ==> xs[i] == xs[1..][i - 1];
      Ok([y] + rest)
  }

  /** `a` is `b` with some elements left out, order kept. */
  predicate IsSubseq<T(==)>(a: seq<T>, b: seq<T>)
    decreases |b|
  {
    if |a| == 0 then true
    else if |b| == 0 then false
    else (a[0] == b[0] && IsSubseq(a[1..], b[1..])) || IsSubseq(a, b[1..])
  }

  lemma {:induction false} SubseqLength<T>(a: seq<T>, b: seq<T>)
    requires IsSubseq(a, b)
    ensures |a| <= |b|
    decreases |b|
  {
    if |a| > 0 {
      if a[0] == b[0] && IsSubseq(a[1..], b[1..]) {
        SubseqLength(a[1..], b[1..]);
      } else {
        SubseqLength(a, b[1..]);
      }
    }
  }

  lemma {:induction false} SubseqMember<T>(a: seq<T>, b: seq<T>, x: T)
    requires IsSubseq(a, b) && x in a
    ensures x in b
    decreases |b|
  {
    if a[0] == b[0] && IsSubseq(a[1..], b[1..]) {
      if x != a[0] {
        assert x in a[1..];
        SubseqMember(a[1..], b[1..], x);
      }
    } else {
      SubseqMember(a, b[1..], x);
    }
  }

  /** Every list is a subsequence of itself. */
  lemma {:induction false} SubseqRefl<T>(a: seq<T>)
    ensures IsSubseq(a, a)
    decreases |a|
  {
    if |a| > 0 {
      SubseqRefl(a[1..]);
    }
  }

  /** Python's slice `s[:n]` for `n >= 0`: the first `n` items, or all of
      them when there are fewer. */
  function Take<T>(s: seq<T>, n: nat): (r: seq<T>)
    ensures |r| == if |s| < n then |s| else n
    ensures r == s[..|r|]
  {
    if |s| <= n then s else s[..n]
  }

  /** `[x for x in s if p(x)]`. */
  function Filter<T(==)>(s: seq<T>, p: T -> bool): (r: seq<T>)
    ensures |r| <= |s|
    ensures forall i :: 0 <= i < |r| ==> p(r[i])
    ensures forall i :: 0 <= i < |s| && p(s[i]) ==> s[i] in r
    ensures IsSubseq(r, s)
  {
    if |s| == 0 then []
    else
      var rest := Filter(s[1..], p);
      assert forall i :: 1 <= i < |s| ==> s[i] == s[1..][i - 1];
      if p(s[0]) then
        var r := [s[0]] + rest;
        assert r[1..] == rest;
        r
      else
        assert IsSubseq(rest, s) by {
          if |rest| > 0 { assert IsSubseq(rest, s[1..]); }
        }
        rest
  }

  /** An element kept by the filter comes from the list and passes the test. */
  lemma FilterMember<T>(s: seq<T>, p: T -> bool, x: T)
    ensures x in Filter(s, p) <==> x in s && p(x)
  {
    if x in Filter(s, p) {
      SubseqMember(Filter(s, p), s, x);
      var i :| 0 <= i < |Filter(s, p)| && Filter(s, p)[i] == x;
    }
  }

  /** The filter keeps every copy of an element that passes the test and no
      copy of one that fails it. */
  lemma {:induction false} FilterCount<T>(s: seq<T>, p: T -> bool, x: T)
    ensures multiset(Filter(s, p))[x] == if p(x) then multiset(s)[x] else 0
    decreases |s|
  {
    if |s| > 0 {
      FilterCount(s[1..], p, x);
      assert s == [s[0]] + s[1..];
    }
  }

  /** Filtering a second time with the same test changes nothing. */
  lemma {:induction false} FilterTwice<T>(s: seq<T>, p: T -> bool)
    ensures Filter(Filter(s, p), p) == Filter(s, p)
    decreases |s|
  {
    if |s| > 0 {
      FilterTwice(s[1..], p);
      if p(s[0]) {
        var r := Filter(s, p);
        assert r[1..] == Filter(s[1..], p);
      }
    }
  }

  /** The keys carried by the elements of `s`. */
  function KeysOf<T, K>(s: seq<T>, key: T -> K): (ks: set<K>)
    ensures forall i :: 0 <= i < |s| ==> key(s[i]) in ks
  {
    if |s| == 0 then {} else {key(s[0])} + KeysOf(s[1..], key)
  }

  lemma {:induction false} KeysOfMember<T, K>(s: seq<T>, key: T -> K, k: K)
    requires k in KeysOf(s, key)
    ensures exists i :: 0 <= i < |s| && key(s[i]) == k
    decreases |s|
  {
    if key(s[0]) != k {
      KeysOfMember(s[1..], key, k);
      var i :| 0 <= i < |s[1..]| && key(s[1..][i]) == k;
      assert key(s[i + 1]) == k;
    }
  }

  lemma {:induction false} KeysOfAppend<T, K>(a: seq<T>, b: seq<T>, key: T -> K)
    ensures KeysOf(a + b, key) == KeysOf(a, key) + KeysOf(b, key)
    decreases |a|
  {
    if |a| > 0 {
      assert (a + b)[1..] == a[1..] + b;
      assert (a + b)[0] == a[0];
      KeysOfAppend(a[1..], b, key);
      assert KeysOf(a + b, key) == {key(a[0])} + KeysOf(a[1..] + b, key);
    } else {
      assert a + b == b;
    }
  }

  /** The first element of `s` carrying key `k`, if any. */
  function FirstWithKey<T, K(==)>(s: seq<T>, key: T -> K, k: K): (r: Option<T>)
    ensures r.Some? <==> k in KeysOf(s, key)
    ensures r.Some? ==> r.value in s && key(r.value) == k
  {
    if |s| == 0 then None
    else if key(s[0]) == k then Some(s[0])
    else FirstWithKey(s[1..], key, k)
  }

  /** Keys are pairwise distinct along the list. */
  predicate DistinctKeys<T, K(==)>(s: seq<T>, key: T -> K) {
    forall i, j :: 0 <= i < j < |s| ==> key(s[i]) != key(s[j])
  }

  /** First-wins de-duplication: walk `s` in order and keep an element only
      when its key is not in `seen` yet, adding the key once it is kept. */
  function DedupBy<T(==), K(==)>(s: seq<T>, key: T -> K, seen: set<K>): (r: seq<T>)
    ensures IsSubseq(r, s)
    ensures DistinctKeys(r, key)
    ensures forall i :: 0 <= i < |r| ==> key(r[i]) !in seen
    ensures KeysOf(r, key) == KeysOf(s, key) - seen
    ensures forall i :: 0 <= i < |r| ==> FirstWithKey(s, key, key(r[i])) == Some(r[i])
    decreases |s|
  {
    if |s| == 0 then []
    else if key(s[0]) in seen then
      var r := DedupBy(s[1..], key, seen);
      assert IsSubseq(r, s) by {
        if |r| > 0 { assert IsSubseq(r, s[1..]); }
      }
      r
    else
      var rest := DedupBy(s[1..], key, seen + {key(s[0])});
      var r := [s[0]] + rest;
      assert r[1..] == rest;
      assert forall i :: 1 <= i < |r| ==> r[i] == rest[i - 1];
      r
  }

  /** Where key `k` first occurs in `s`; `|s|` when it does not. */
  function KeyIndex<T, K(==)>(s: seq<T>, key: T -> K, k: K): (n: nat)
    ensures n <= |s|
    ensures n < |s| <==> k in KeysOf(s, key)
    ensures n < |s| ==> key(s[n]) == k
    ensures forall j :: 0 <= j < n ==> key(s[j]) != k
  {
    if |s| == 0 then 0
    else if key(s[0]) == k then 0
    else 1 + KeyIndex(s[1..], key, k)
  }

  /** De-duplication lists the kept keys in the order of their first
      occurrence in `s`; with the facts `DedupBy` states, this fixes the
      result: each element is the first with its key, and the elements are
      ordered by where their keys first appear. */
  lemma {:induction false} DedupByOrder<T, K>(s: seq<T>, key: T -> K, seen: set<K>)
    ensures forall i, j :: 0 <= i < j < |DedupBy(s, key, seen)| ==>
      KeyIndex(s, key, key(DedupBy(s, key, seen)[i])) < KeyIndex(s, key, key(DedupBy(s, key, seen)[j]))
    decreases |s|
  {
    if |s| > 0 {
      var r := DedupBy(s, key, seen);
      if key(s[0]) in seen {
        assert r == DedupBy(s[1..], key, seen);
        DedupByOrder(s[1..], key, seen);
        forall i | 0 <= i < |r| ensures KeyIndex(s, key, key(r[i])) == 1 + KeyIndex(s[1..], key, key(r[i])) {
        }
      } else {
        var rest := DedupBy(s[1..], key, seen + {key(s[0])});
        DedupByOrder(s[1..], key, seen + {key(s[0])});
        assert r == [s[0]] + rest;
        forall i | 0 <= i < |rest| ensures KeyIndex(s, key, key(rest[i])) == 1 + KeyIndex(s[1..], key, key(rest[i])) {
        }
        forall i, j | 0 <= i < j < |r| ensures KeyIndex(s, key, key(r[i])) < KeyIndex(s, key, key(r[j])) {
          assert r[j] == rest[j - 1] && key(rest[j - 1]) != key(s[0]);
          assert KeyIndex(s, key, key(r[j])) == 1 + KeyIndex(s[1..], key, key(rest[j - 1]));
          if i > 0 {
            assert r[i] == rest[i - 1];
            assert KeyIndex(s, key, key(r[i])) == 1 + KeyIndex(s[1..], key, key(rest[i - 1]));
            assert KeyIndex(s[1..], key, key(rest[i - 1])) < KeyIndex(s[1..], key, key(rest[j - 1]));
          } else {
            assert r[0] == s[0];
          }
        }
      }
    }
  }

  /** A list whose keys are already distinct and unseen is left as it is. */
  lemma {:induction false} DedupByDistinct<T, K>(s: seq<T>, key: T -> K, seen: set<K>)
    requires DistinctKeys(s, key)
    requires forall i :: 0 <= i < |s| ==> key(s[i]) !in seen
    ensures DedupBy(s, key, seen) == s
    decreases |s|
  {
    if |s| > 0 {
      var t := s[1..];
      var seen' := seen + {key(s[0])};
      assert DistinctKeys(t, key) by {
        forall i, j | 0 <= i < j < |t| ensures key(t[i]) != key(t[j]) {
          assert t[i] == s[i + 1] && t[j] == s[j + 1];
        }
      }
      assert forall i :: 0 <= i < |t| ==> key(t[i]) !in seen' by {
        forall i | 0 <= i < |t| ensures key(t[i]) !in seen' {
          assert t[i] == s[i + 1];
        }
      }
      DedupByDistinct(t, key, seen');
      assert key(s[0]) !in seen;
      assert DedupBy(s, key, seen) == [s[0]] + DedupBy(t, key, seen');
      assert s == [s[0]] + t;
    }
  }

  /** De-duplicating twice is the same as de-duplicating once. */
  lemma DedupByIdempotent<T, K>(s: seq<T>, key: T -> K)
    ensures DedupBy(DedupBy(s, key, {}), key, {}) == DedupBy(s, key, {})
  {
    DedupByDistinct(DedupBy(s, key, {}), key, {});
  }

  /** Dropping elements never lengthens a list. */
  lemma DedupByShorter<T, K>(s: seq<T>, key: T -> K, seen: set<K>)
    ensures |DedupBy(s, key, seen)| <= |s|
  {
    SubseqLength(DedupBy(s, key, seen), s);
  }

  /** When some key occurs twice, de-duplication strictly shortens the list. */
  lemma {:induction false} DedupByDropsRepeat<T, K>(s: seq<T>, key: T -> K, i: nat, j: nat)
    requires i < j < |s| && key(s[i]) == key(s[j])
    ensures |DedupBy(s, key, {})| < |s|
  {
    var r := DedupBy(s, key, {});
    SubseqLength(r, s);
    if |r| == |s| {
      SubseqSameLength(r, s);
      assert false;
    }
  }

  lemma {:induction false} SubseqSameLength<T>(a: seq<T>, b: seq<T>)
    requires IsSubseq(a, b) && |a| == |b|
    ensures a == b
    decreases |b|
  {
    if |a| > 0 {
      if a[0] == b[0] && IsSubseq(a[1..], b[1..]) {
        SubseqSameLength(a[1..], b[1..]);
        assert a == [a[0]] + a[1..];
      } else {
        SubseqLength(a, b[1..]);
      }
    }
  }

  /** A subsequence of a list with distinct keys has distinct keys. */
  lemma {:induction false} SubseqDistinctKeys<T, K>(a: seq<T>, b: seq<T>, key: T -> K)
    requires IsSubseq(a, b) && DistinctKeys(b, key)
    ensures DistinctKeys(a, key)
    decreases |b|
  {
    if |a| > 0 {
      var tb := b[1..];
      assert DistinctKeys(tb, key) by {
        forall i, j | 0 <= i < j < |tb| ensures key(tb[i]) != key(tb[j]) {
          assert tb[i] == b[i + 1] && tb[j] == b[j + 1];
        }
      }
      if a[0] == b[0] && IsSubseq(a[1..], tb) {
        SubseqDistinctKeys(a[1..], tb, key);
        forall j | 0 < j < |a| ensures key(a[0]) != key(a[j]) {
          assert a[j] in a[1..];
          SubseqMember(a[1..], tb, a[j]);
          var m :| 0 <= m < |tb| && tb[m] == a[j];
          assert b[m + 1] == a[j];
        }
        forall i, j | 0 <= i < j < |a| ensures key(a[i]) != key(a[j]) {
          if i > 0 {
            assert a[i] == a[1..][i - 1] && a[j] == a[1..][j - 1];
          }
        }
      } else {
        SubseqDistinctKeys(a, tb, key);
      }
    }
  }

  /** Filtering keeps keys distinct. */
  lemma FilterKeepsDistinctKeys<T, K>(s: seq<T>, p: T -> bool, key: T -> K)
    requires DistinctKeys(s, key)
    ensures DistinctKeys(Filter(s, p), key)
  {
    SubseqDistinctKeys(Filter(s, p), s, key);
  }

  /** A filter every element passes changes nothing. */
  lemma {:induction false} FilterAllPass<T>(s: seq<T>, p: T -> bool)
    requires forall i :: 0 <= i < |s| ==> p(s[i])
    ensures Filter(s, p) == s
    decreases |s|
  {
    if |s| > 0 {
      assert forall i :: 0 <= i < |s[1..]| ==> s[1..][i] == s[i + 1];
      FilterAllPass(s[1..], p);
      assert s == [s[0]] + s[1..];
    }
  }

  /** Looking a key up past a prefix that does not carry it. */
  lemma {:induction false} FirstWithKeyAppend<T, K>(a: seq<T>, b: seq<T>, key: T -> K, k: K)
    requires k !in KeysOf(a, key)
    ensures FirstWithKey(a + b, key, k) == FirstWithKey(b, key, k)
    decreases |a|
  {
    if |a| > 0 {
      assert (a + b)[1..] == a[1..] + b;
      assert KeysOf(a, key) == {key(a[0])} + KeysOf(a[1..], key);
      FirstWithKeyAppend(a[1..], b, key, k);
    } else {
      assert a + b == b;
    }
  }

  /** The element at `k` is the first carrying its key. */
  lemma {:induction false} FirstWithKeyAt<T, K>(s: seq<T>, key: T -> K, k: nat)
    requires k < |s| && forall j :: 0 <= j < k ==> key(s[j]) != key(s[k])
    ensures FirstWithKey(s, key, key(s[k])) == Some(s[k])
    decreases k
  {
    if k > 0 {
      assert forall j :: 0 <= j < k - 1 ==> s[1..][j] == s[j + 1];
      FirstWithKeyAt(s[1..], key, k - 1);
    }
  }
}

=== FILE: store.dfy ===
/** The work directory as an abstract artifact store, and the `pathlib`
    operations the pipeline uses on paths held as strings. */
module Store {
  import opened Strings
  import opened Json

  /** Media files (chunks, proxies, samples, exported files) are known only
      by existence; JSON artifacts also carry their parsed content. */
  datatype Store = Store(files: set<string>, docs: map<string, Json>)

  /** Going from `before` to `after`, documents were only added or
      rewritten under the directory `dir`. */
  predicate ConfinedTo(before: map<string, Json>, after: map<string, Json>, dir: string) {
    && before.Keys <= after.Keys
    && forall p :: p in after && !StartsWith(p, dir + "/") ==> p in before && after[p] == before[p]
  }

  /** Writing a document under `dir` and then changing only `dir` changes
      only `dir`, and the document written is still there. */
  lemma ConfinedAfterPut(a: map<string, Json>, c: map<string, Json>, dir: string, k: string, d: Json)
    requires StartsWith(k, dir + "/") && ConfinedTo(a[k := d], c, dir)
    ensures ConfinedTo(a, c, dir) && k in c
  {
  }

  /** `a / b`. */
  function PathJoin(dir: string, name: string): string {
    dir + "/" + name
  }

  /** `Path(p).name`: the last path component. */
  function Name(p: string): (n: string)
    ensures '/' !in n
  {
    p[RFind(p, '/') + 1..]
  }

  /** Position of the suffix dot in a name, as `pathlib` computes it. */
  function SuffixDot(name: string): (i: int)
    ensures i == -1 || 0 < i < |name| - 1
  {
    var i := RFind(name, '.');
    if 0 < i < |name| - 1 then i else -1
  }

  /** `Path(p).suffix`. */
  function Suffix(name: string): (s: string)
    ensures s == "" || (s[0] == '.' && '.' !in s[1..])
  {
    var i := SuffixDot(name);
    if i == -1 then "" else name[i..]
  }

  /** `Path(p).stem`. */
  function Stem(name: string): (s: string)
    ensures s + Suffix(name) == name
  {
    var i := SuffixDot(name);
    if i == -1 then name else name[..i]
  }
}

=== FILE: strings.dfy ===
/** The handful of Python `str` operations the pipeline relies on, written over
    `seq<char>`: decimal rendering and parsing of integers (`str(n)`,
    `f"{n:02d}"`, `int(s)`), `split`/`join` on a one-character separator,
    `strip`, `startswith`, `find`/`rfind`, ASCII case mapping, single-character
    `replace` and the slice `s[:n]`. */
module Strings {
  import opened Wrappers

  // ---------------------------------------------------------------------------
  // Decimal digits

  predicate IsDigit(c: char) {
    '0' <= c <= '9'
  }

  predicate AllDigits(s: string) {
    forall i :: 0 <= i < |s| ==> IsDigit(s[i])
  }

  function DigitChar(d: nat): (c: char)
    requires d < 10
    ensures IsDigit(c)
  {
    ['0', '1', '2', '3', '4', '5', '6', '7', '8', '9'][d]
  }

  function DigitValue(c: char): (d: nat)
    requires IsDigit(c)
    ensures d < 10
  {
    (c as int - '0' as int) as nat
  }

  lemma DigitRoundTrip(d: nat)
    requires d < 10
    ensures DigitValue(DigitChar(d)) == d
  {
  }

  /** The value of a string of decimal digits, leading zeros allowed. */
  function DigitsValue(s: string): nat
    requires AllDigits(s)
  {
    if |s| == 0 then 0 else DigitsValue(s[..|s| - 1]) * 10 + DigitValue(s[|s| - 1])
  }

  /** `str(n)` for a non-negative integer: no leading zeros, "0" for zero. */
  function NatToString(n: nat): (s: string)
    ensures |s| >= 1 && AllDigits(s)
    ensures |s| > 1 ==> s[0] != '0'
  {
    if n < 10 then [DigitChar(n)] else NatToString(n / 10) + [DigitChar(n % 10)]
  }

  /** `str(i)` for any integer. */
  function IntToString(i: int): (s: string)
    ensures |s| >= 1
    ensures i >= 0 <==> IsDigit(s[0])
  {
    if i >= 0 then NatToString(i) else "-" + NatToString(-i)
  }

  lemma {:induction false} NatToStringValue(n: nat)
    ensures DigitsValue(NatToString(n)) == n
  {
    var s := NatToString(n);
    if n < 10 {
      DigitRoundTrip(n);
    } else {
      NatToStringValue(n / 10);
      assert s[..|s| - 1] == NatToString(n / 10);
      DigitRoundTrip(n % 10);
    }
  }

  /** `int(s)` for the inputs this model admits: an optional `+` or `-`
      followed by at least one decimal digit. Anything else raises
      `ValueError` in Python and is `None` here. */
  function ParseInt(s: string): (r: Option<int>)
    ensures r.Some? <==> (|s| > 0 && AllDigits(s)) || (|s| > 1 && (s[0] == '-' || s[0] == '+') && AllDigits(s[1..]))
  {
    if |s| > 0 && AllDigits(s) then Some(DigitsValue(s))
    else if |s| > 1 && s[0] == '-' && AllDigits(s[1..]) then (var v: int := DigitsValue(s[1..]); Some(-v))
    else if |s| > 1 && s[0] == '+' && AllDigits(s[1..]) then Some(DigitsValue(s[1..]))
    else None
  }

  /** Rendering an integer and reading it back gives the integer again. */
  lemma IntToStringRoundTrip(i: int)
    ensures ParseInt(IntToString(i)) == Some(i)
  {
    if i >= 0 {
      NatToStringValue(i);
    } else {
      var s := IntToString(i);
      assert s[1..] == NatToString(-i);
      NatToStringValue(-i);
    }
  }

  /** Distinct integers render to distinct strings. */
  lemma IntToStringInjective(a: int, b: int)
    requires IntToString(a) == IntToString(b)
    ensures a == b
  {
    IntToStringRoundTrip(a);
    IntToStringRoundTrip(b);
  }

  function Zeros(k: nat): (s: string)
    ensures |s| == k && AllDigits(s)
    ensures forall i :: 0 <= i < k ==> s[i] == '0'
  {
    if k == 0 then "" else "0" + Zeros(k - 1)
  }

  lemma {:induction false} LeadingZerosValue(k: nat, t: string)
    requires AllDigits(t)
    ensures AllDigits(Zeros(k) + t)
    ensures DigitsValue(Zeros(k) + t) == DigitsValue(t)
  {
    var z := Zeros(k) + t;
    assert AllDigits(z) by {
      forall i | 0 <= i < |z| ensures IsDigit(z[i]) {
        if i < k { assert z[i] == Zeros(k)[i]; } else { assert z[i] == t[i - k]; }
      }
    }
    if |t| == 0 {
      assert z == Zeros(k);
      ZerosValue(k);
    } else {
      var t' := t[..|t| - 1];
      assert AllDigits(t');
      assert z[..|z| - 1] == Zeros(k) + t';
      LeadingZerosValue(k, t');
    }
  }

  lemma {:induction false} ZerosValue(k: nat)
    ensures DigitsValue(Zeros(k)) == 0
  {
    if k > 0 {
      var z := Zeros(k);
      assert z[..k - 1] == Zeros(k - 1);
      ZerosValue(k - 1);
    }
  }

  /** Python's `f"{n:0{width}d}"`: zero-padded to at least `width`
      characters, the sign (if any) counted in the width. */
  function PadInt(n: int, width: nat): (s: string)
    ensures |s| >= width && |s| >= 1
  {
    if n >= 0 then
      var d := NatToString(n);
      (if |d| < width then Zeros(width - |d|) else "") + d
    else
      var d := NatToString(-n);
      "-" + (if |d| + 1 < width then Zeros(width - 1 - |d|) else "") + d
  }

  /** A zero-padded rendering still reads back as the same integer. */
  lemma PadIntRoundTrip(n: int, width: nat)
    ensures ParseInt(PadInt(n, width)) == Some(n)
  {
    if n >= 0 {
      PadNatRoundTrip(n, width);
    } else {
      PadNegRoundTrip(n, width);
    }
  }

  lemma PadNatRoundTrip(n: nat, width: nat)
    ensures ParseInt(PadInt(n, width)) == Some(n)
  {
    var d := NatToString(n);
    var k := if |d| < width then width - |d| else 0;
    var s := PadInt(n, width);
    assert s == Zeros(k) + d;
    LeadingZerosValue(k, d);
    NatToStringValue(n);
    assert AllDigits(s) && |s| > 0;
    assert DigitsValue(s) == n;
  }

  lemma PadNegRoundTrip(n: int, width: nat)
    requires n < 0
    ensures ParseInt(PadInt(n, width)) == Some(n)
  {
    NegativePadShape(n, width);
    NegativeTail(n, NegativeZeros(n, width));
  }

  /** How many zeros `f"{n:0{width}d}"` puts after the sign of a negative `n`. */
  function NegativeZeros(n: int, width: nat): nat
    requires n < 0
  {
    var d := NatToString(-n);
    if |d| + 1 < width then width - 1 - |d| else 0
  }

  lemma NegativePadShape(n: int, width: nat)
    requires n < 0
    ensures PadInt(n, width) == "-" + (Zeros(NegativeZeros(n, width)) + NatToString(-n))
  {
  }

  /** A minus sign, zeros, then the digits of `-n` read as `n`. */
  lemma NegativeTail(n: int, k: nat)
    requires n < 0
    ensures ParseInt("-" + (Zeros(k) + NatToString(-n))) == Some(n)
  {
    var t := Zeros(k) + NatToString(-n);
    PaddedDigits(-n, k);
    NegativeParse(t, -n);
    assert ParseInt("-" + t).value == n;
  }

  /** Leading zeros before the digits of `m` still read as `m`. */
  lemma PaddedDigits(m: nat, k: nat)
    ensures |Zeros(k) + NatToString(m)| > 0 && AllDigits(Zeros(k) + NatToString(m))
    ensures DigitsValue(Zeros(k) + NatToString(m)) == m
  {
    LeadingZerosValue(k, NatToString(m));
    NatToStringValue(m);
  }

  /** A minus sign before digits reads as the negated value. */
  lemma NegativeParse(t: string, m: nat)
    requires |t| > 0 && AllDigits(t) && DigitsValue(t) == m
    ensures ParseInt("-" + t) == Some(-(m as int))
  {
    var s := "-" + t;
    assert s[0] == '-' && s[1..] == t;
    assert !IsDigit(s[0]);
  }

  lemma PadIntNoColon(n: int, width: nat)
    ensures ':' !in PadInt(n, width)
  {
    var s := PadInt(n, width);
    if n >= 0 {
      var d := NatToString(n);
      var k := if |d| < width then width - |d| else 0;
      assert s == Zeros(k) + d;
      assert AllDigits(Zeros(k) + d) by { LeadingZerosValue(k, d); }
    } else {
      var d := NatToString(-n);
      var k := if |d| + 1 < width then width - 1 - |d| else 0;
      assert s == "-" + (Zeros(k) + d);
      assert AllDigits(Zeros(k) + d) by { LeadingZerosValue(k, d); }
      assert forall i :: 1 <= i < |s| ==> s[i] == (Zeros(k) + d)[i - 1];
    }
  }

  /** A non-negative number below 10^width renders to exactly `width` characters. */
  lemma PadIntWidth(n: nat, width: nat)
    requires width >= 1 && |NatToString(n)| <= width
    ensures |PadInt(n, width)| == width
  {
  }

  // ---------------------------------------------------------------------------
  // split / join on a single-character separator

  /** Python's `s.split(sep)` for a one-character separator: always at least
      one part; `""` splits to `[""]`. */
  function Split(s: string, sep: char): (parts: seq<string>)
    ensures |parts| >= 1
    ensures forall i :: 0 <= i < |parts| ==> sep !in parts[i]
    decreases |s|
  {
    if |s| == 0 then [""]
    else if s[0] == sep then [""] + Split(s[1..], sep)
    else
      var rest := Split(s[1..], sep);
      [[s[0]] + rest[0]] + rest[1..]
  }

  /** Python's `sep.join(parts)`. */
  function Join(sep: char, parts: seq<string>): string
  {
    if |parts| == 0 then ""
    else if |parts| == 1 then parts[0]
    else parts[0] + [sep] + Join(sep, parts[1..])
  }

  /** Joining what was split gives the original text back. */
  lemma {:induction false} JoinSplit(s: string, sep: char)
    ensures Join(sep, Split(s, sep)) == s
    decreases |s|
  {
    if |s| == 0 {
    } else if s[0] == sep {
      JoinSplit(s[1..], sep);
      assert s == [sep] + s[1..];
    } else {
      var rest := Split(s[1..], sep);
      JoinSplit(s[1..], sep);
      if |rest| == 1 {
        assert s == [s[0]] + rest[0];
      } else {
        assert Join(sep, rest) == rest[0] + [sep] + Join(sep, rest[1..]);
        assert s == [s[0]] + s[1..];
      }
    }
  }

  /** A text without the separator is one part. */
  lemma {:induction false} SplitNoSep(a: string, sep: char)
    requires sep !in a
    ensures Split(a, sep) == [a]
    decreases |a|
  {
    if |a| > 0 {
      SplitNoSep(a[1..], sep);
      assert a == [a[0]] + a[1..];
    }
  }

  /** A separator-free prefix followed by the separator is split off as the first part. */
  lemma {:induction false} SplitPrefix(a: string, sep: char, rest: string)
    requires sep !in a
    ensures Split(a + [sep] + rest, sep) == [a] + Split(rest, sep)
    decreases |a|
  {
    var s := a + [sep] + rest;
    if |a| == 0 {
      assert s == [sep] + rest;
      assert s[1..] == rest;
    } else {
      assert s[1..] == a[1..] + [sep] + rest;
      SplitPrefix(a[1..], sep, rest);
      assert a == [a[0]] + a[1..];
    }
  }

  /** A separator-free tail after the last separator is split off as the last part. */
  lemma {:induction false} SplitSuffix(a: string, sep: char, b: string)
    requires sep !in b
    ensures Split(a + [sep] + b, sep) == Split(a, sep) + [b]
    decreases |a|
  {
    var s := a + [sep] + b;
    SplitNoSep(b, sep);
    if |a| == 0 {
      assert s == [sep] + b;
      assert s[1..] == b;
    } else {
      assert s[1..] == a[1..] + [sep] + b;
      SplitSuffix(a[1..], sep, b);
    }
  }

  /** Splitting what was joined gives the parts back, when no part holds the separator. */
  lemma {:induction false} SplitJoin(parts: seq<string>, sep: char)
    requires |parts| >= 1
    requires forall i :: 0 <= i < |parts| ==> sep !in parts[i]
    ensures Split(Join(sep, parts), sep) == parts
    decreases |parts|
  {
    if |parts| == 1 {
      SplitNoSep(parts[0], sep);
    } else {
      SplitJoin(parts[1..], sep);
      SplitPrefix(parts[0], sep, Join(sep, parts[1..]));
    }
  }

  /** Joining is associative at its last part. */
  lemma {:induction false} JoinSnoc(sep: char, parts: seq<string>)
    requires |parts| >= 2
    ensures Join(sep, parts) == Join(sep, parts[..|parts| - 1]) + [sep] + parts[|parts| - 1]
    decreases |parts|
  {
    if |parts| > 2 {
      JoinSnoc(sep, parts[1..]);
      assert parts[1..][..|parts| - 2] == parts[..|parts| - 1][1..];
    }
  }

  // ---------------------------------------------------------------------------
  // strip

  /** The characters Python's `str.strip()` removes, restricted to ASCII. */
  predicate IsSpace(c: char) {
    c == ' ' || c == '\t' || c == '\n' || c == '\r' || c == '\U{B}' || c == '\U{C}'
    || ('\U{1C}' <= c <= '\U{1F}')
  }

  function TrimLeft(s: string, strip: char -> bool): (r: string)
    ensures |r| <= |s| && r == s[|s| - |r|..]
    ensures forall i :: 0 <= i < |s| - |r| ==> strip(s[i])
    ensures |r| > 0 ==> !strip(r[0])
  {
    if |s| > 0 && strip(s[0]) then
      var r := TrimLeft(s[1..], strip);
      TrimLeftStep(s, strip, s[1..], r);
      r
    else s
  }

  lemma TrimLeftStep(s: string, strip: char -> bool, tail: string, r: string)
    requires |s| > 0 && strip(s[0]) && tail == s[1..]
    requires |r| <= |tail| && r == tail[|tail| - |r|..]
    requires forall i :: 0 <= i < |tail| - |r| ==> strip(tail[i])
    ensures r == s[|s| - |r|..]
    ensures forall i :: 0 <= i < |s| - |r| ==> strip(s[i])
  {
    forall i | 0 <= i < |s| - |r| ensures strip(s[i]) {
      if i > 0 {
        assert s[i] == tail[i - 1];
      }
    }
  }

  function TrimRight(s: string, strip: char -> bool): (r: string)
    ensures |r| <= |s| && r == s[..|r|]
    ensures forall i :: |r| <= i < |s| ==> strip(s[i])
    ensures |r| > 0 ==> !strip(r[|r| - 1])
  {
    if |s| > 0 && strip(s[|s| - 1]) then
      var r := TrimRight(s[..|s| - 1], strip);
      TrimRightStep(s, strip, s[..|s| - 1], r);
      r
    else s
  }

  lemma TrimRightStep(s: string, strip: char -> bool, init: string, r: string)
    requires |s| > 0 && strip(s[|s| - 1]) && init == s[..|s| - 1]
    requires |r| <= |init| && r == init[..|r|]
    requires forall i :: |r| <= i < |init| ==> strip(init[i])
    ensures r == s[..|r|]
    ensures forall i :: |r| <= i < |s| ==> strip(s[i])
  {
    forall i | |r| <= i < |s| ensures strip(s[i]) {
      if i < |init| {
        assert s[i] == init[i];
      }
    }
  }

  /** Python's `s.strip(chars)`: the longest middle slice whose ends are not
      stripped characters; only stripped characters were removed. */
  function StripBy(s: string, strip: char -> bool): (r: string)
    ensures exists i, j :: 0 <= i <= j <= |s| && r == s[i..j]
    ensures |r| > 0 ==> !strip(r[0]) && !strip(r[|r| - 1])
    ensures (forall i :: 0 <= i < |s| ==> strip(s[i])) ==> r == ""
    ensures |s| > 0 && !strip(s[0]) && !strip(s[|s| - 1]) ==> r == s
  {
    var l := TrimLeft(s, strip);
    var t := TrimRight(l, strip);
    StripFacts(s, strip, l, t);
    t
  }

  /** What trimming both ends gives, from what each trim promises. */
  lemma StripFacts(s: string, strip: char -> bool, l: string, r: string)
    requires |l| <= |s| && l == s[|s| - |l|..]
    requires forall i :: 0 <= i < |s| - |l| ==> strip(s[i])
    requires |l| > 0 ==> !strip(l[0])
    requires |r| <= |l| && r == l[..|r|]
    requires forall i :: |r| <= i < |l| ==> strip(l[i])
    requires |r| > 0 ==> !strip(r[|r| - 1])
    ensures exists i, j :: 0 <= i <= j <= |s| && r == s[i..j]
    ensures |r| > 0 ==> !strip(r[0]) && !strip(r[|r| - 1])
    ensures (forall i :: 0 <= i < |s| ==> strip(s[i])) ==> r == ""
    ensures |s| > 0 && !strip(s[0]) && !strip(s[|s| - 1]) ==> r == s
  {
    var a := |s| - |l|;
    assert r == s[a..a + |r|];
    assert |r| > 0 ==> r[0] == l[0] == s[a];
    assert |l| > 0 ==> l[|l| - 1] == s[|s| - 1];
  }

  /** Python's `s.strip()` (whitespace). */
  function Strip(s: string): string {
    StripBy(s, IsSpace)
  }

  // ---------------------------------------------------------------------------
  // Searching and slicing

  predicate StartsWith(s: string, prefix: string) {
    |prefix| <= |s| && s[..|prefix|] == prefix
  }

  /** Python's `sub in s`. */
  predicate Contains(s: string, sub: string) {
    exists i, j :: 0 <= i <= j <= |s| && s[i..j] == sub
  }

  /** Python's `s.find(c)`: the first index holding `c`, or -1. */
  function Find(s: string, c: char): (r: int)
    ensures -1 <= r < |s|
    ensures r == -1 <==> c !in s
    ensures r >= 0 ==> s[r] == c && c !in s[..r]
  {
    if |s| == 0 then -1
    else if s[0] == c then 0
    else
      var k := Find(s[1..], c);
      if k == -1 then
        assert s == [s[0]] + s[1..];
        -1
      else
        assert s[..k + 1] == [s[0]] + s[1..][..k];
        k + 1
  }

  /** Python's `s.rfind(c)`: the last index holding `c`, or -1. */
  function RFind(s: string, c: char): (r: int)
    ensures -1 <= r < |s|
    ensures r == -1 <==> c !in s
    ensures r >= 0 ==> s[r] == c && c !in s[r + 1..]
  {
    if |s| == 0 then -1
    else if s[|s| - 1] == c then |s| - 1
    else
      var k := RFind(s[..|s| - 1], c);
      if k == -1 then
        assert s == s[..|s| - 1] + [s[|s| - 1]];
        -1
      else
        assert s[k + 1..] == s[..|s| - 1][k + 1..] + [s[|s| - 1]];
        k
  }

  /** An occurrence with no later occurrence is the one `rfind` finds. */
  lemma RFindAt(s: string, c: char, k: nat)
    requires k < |s| && s[k] == c && c !in s[k + 1..]
    ensures RFind(s, c) == k
  {
    var r := RFind(s, c);
    assert s[k] in s;
    assert forall j :: r < j < |s| ==> s[j] == s[r + 1..][j - r - 1];
    assert forall j :: k < j < |s| ==> s[j] == s[k + 1..][j - k - 1];
  }

  /** Python's `s.replace(a, b)` for single characters. */
  function ReplaceChar(s: string, a: char, b: char): (r: string)
    ensures |r| == |s|
    ensures forall i :: 0 <= i < |s| ==> r[i] == if s[i] == a then b else s[i]
  {
    if |s| == 0 then "" else [if s[0] == a then b else s[0]] + ReplaceChar(s[1..], a, b)
  }

  function LowerChar(c: char): char {
    if 'A' <= c <= 'Z' then (c as int + 32) as char else c
  }

  function UpperChar(c: char): char {
    if 'a' <= c <= 'z' then (c as int - 32) as char else c
  }

  /** Python's `s.lower()` on ASCII letters. */
  function Lower(s: string): (r: string)
    ensures |r| == |s| && forall i :: 0 <= i < |s| ==> r[i] == LowerChar(s[i])
  {
    if |s| == 0 then "" else [LowerChar(s[0])] + Lower(s[1..])
  }

  /** Python's `s.upper()` on ASCII letters. */
  function Upper(s: string): (r: string)
    ensures |r| == |s| && forall i :: 0 <= i < |s| ==> r[i] == UpperChar(s[i])
  {
    if |s| == 0 then "" else [UpperChar(s[0])] + Upper(s[1..])
  }
}

=== FILE: videos.dfy ===
/** Which videos a run works on (vhs_analyzer.py): `collect_videos` over the
    source, and the `--retry-failed` restriction to videos with recorded
    failures. Paths are strings; a directory source comes with its recursive
    listing in `sorted()` order. */
module Videos {
  import opened Wrappers
  import opened Strings
  import opened Seqs
  import opened Config
  import opened Store
  import opened Progress
  import opened Preprocess

  /** The source argument after `resolve()`: whether it exists, whether it
      is a file, and (for a directory) every path below it, sorted. */
  datatype Source = Source(path: string, present: bool, isFile: bool, walk: seq<string>)

  /** `Path(p).parent` for an absolute path. */
  function Parent(p: string): string {
    var i := RFind(p, '/');
    if i < 0 then "" else p[..i]
  }

  /** Where the run writes: `<source>/vhs-analysis` for a directory, and
      `<parent>/vhs-analysis/<stem>` for a single file. */
  function WorkDir(src: Source): string {
    if src.isFile then PathJoin(PathJoin(Parent(src.path), "vhs-analysis"), Stem(Name(src.path)))
    else PathJoin(src.path, "vhs-analysis")
  }

  /** The lower-cased suffix is a video extension. */
  predicate IsVideoPath(cfg: Config, p: string) {
    Lower(Suffix(Name(p))) in cfg.videoExtensions
  }

  /** The directory filter of `collect_videos` as written: a video, not a
      macOS `._` metadata file, and not under a path containing
      `vhs_analysis_output`. */
  predicate Collectable(cfg: Config, p: string) {
    && IsVideoPath(cfg, p)
    && !StartsWith(Name(p), "._")
    && !Contains(p, "vhs_analysis_output")
  }

  /** `collect_videos(source)` as written. */
  function CollectVideos(cfg: Config, src: Source): (vs: seq<string>)
    ensures src.isFile ==> vs == if IsVideoPath(cfg, src.path) then [src.path] else []
    ensures !src.isFile ==> IsSubseq(vs, src.walk)
    ensures !src.isFile ==> forall i :: 0 <= i < |vs| ==> Collectable(cfg, vs[i])
    ensures !src.isFile ==> forall i :: 0 <= i < |src.walk| && Collectable(cfg, src.walk[i]) ==> src.walk[i] in vs
  {
    if src.isFile then (if IsVideoPath(cfg, src.path) then [src.path] else [])
    else Filter(src.walk, p => Collectable(cfg, p))
  }

  /** The filter meant: also leave out everything under the run's own work
      directory, where the proxies, chunks and samples are written. */
  function CollectVideosFixed(cfg: Config, src: Source): (vs: seq<string>)
    ensures src.isFile ==> vs == CollectVideos(cfg, src)
    ensures !src.isFile ==> IsSubseq(vs, CollectVideos(cfg, src))
    ensures forall i :: 0 <= i < |vs| ==> !StartsWith(vs[i], WorkDir(src) + "/") || src.isFile
    ensures !src.isFile ==>
      forall p :: p in vs <==> p in CollectVideos(cfg, src) && !StartsWith(p, WorkDir(src) + "/")
  {
    if src.isFile then CollectVideos(cfg, src)
    else
      var outside := p => !StartsWith(p, WorkDir(src) + "/");
      var vs := Filter(CollectVideos(cfg, src), outside);
      forall p ensures p in vs <==> p in CollectVideos(cfg, src) && outside(p) {
        FilterMember(CollectVideos(cfg, src), outside, p);
      }
      vs
  }

  // ---------------------------------------------------------------------------
  // The pipeline's own files look like input videos

  lemma NameOfJoin(dir: string, name: string)
    requires '/' !in name
    ensures Name(PathJoin(dir, name)) == name
  {
    var p := PathJoin(dir, name);
    assert p[|dir| + 1..] == name;
    RFindAt(p, '/', |dir|);
  }

  lemma SuffixMp4(body: string)
    ensures Suffix(body + "_proxy.mp4") == ".mp4"
  {
    var name := body + "_proxy.mp4";
    var k := |name| - 4;
    assert name[k + 1..] == "mp4";
    RFindAt(name, '.', k);
    assert name[k..] == ".mp4";
  }

  lemma AbsentCharNotContained(s: string, sub: string, c: char)
    requires c in sub && c !in s
    ensures !Contains(s, sub)
  {
    var k :| 0 <= k < |sub| && sub[k] == c;
    forall i, j | 0 <= i <= j <= |s| ensures s[i..j] != sub {
      if j - i == |sub| {
        assert s[i..j][k] == s[i + k];
      }
    }
  }

  /** The name of a proxy: no directory separator, the `.mp4` suffix, the
      stem's first character first, and no character the stem lacks besides
      those of `_offset<n>_proxy.mp4`. */
  lemma ProxyNameShape(stem: string, offset: int)
    requires '/' !in stem && |stem| > 0
    ensures '/' !in ProxyName(stem, offset)
    ensures Suffix(ProxyName(stem, offset)) == ".mp4"
    ensures ProxyName(stem, offset)[0] == stem[0]
    ensures 'u' !in stem ==> 'u' !in ProxyName(stem, offset)
  {
    var mid := if offset > 0 then "_offset" + IntToString(offset) else "";
    if offset > 0 {
      assert IntToString(offset) == NatToString(offset);
    }
    assert '/' !in mid && 'u' !in mid;
    assert ProxyName(stem, offset) == (stem + mid) + "_proxy.mp4";
    SuffixMp4(stem + mid);
  }

  /** On a second run over a directory, `collect_videos` as written picks up
      every proxy the first run wrote under `<source>/vhs-analysis/proxies`:
      the work directory's name is not the excluded `vhs_analysis_output`. */
  lemma CollectTakesOwnProxies(root: string, walk: seq<string>, stem: string, offset: int)
    requires 'u' !in root && 'u' !in stem && '/' !in stem
    requires |stem| > 0 && stem[0] != '.'
    requires ProxyPath(ProxyDir(PathJoin(root, "vhs-analysis")), stem, offset) in walk
    ensures ProxyPath(ProxyDir(PathJoin(root, "vhs-analysis")), stem, offset)
            in CollectVideos(Shipped, Source(root, true, false, walk))
  {
    var dir := ProxyDir(PathJoin(root, "vhs-analysis"));
    var name := ProxyName(stem, offset);
    var p := PathJoin(dir, name);
    ProxyNameShape(stem, offset);
    NameOfJoin(dir, name);
    Mp4IsVideo();
    NotHidden(name);
    ProxyDirWithoutU(root);
    PathWithoutU(dir, name);
    CollectVideosMember(Shipped, Source(root, true, false, walk), p);
  }

  lemma NotHidden(n: string)
    requires |n| > 0 && n[0] != '.'
    ensures !StartsWith(n, "._")
  {
    if |n| >= 2 {
      assert n[..2][0] == n[0];
    }
  }

  lemma Mp4IsVideo()
    ensures Lower(".mp4") in Shipped.videoExtensions
  {
    assert Lower(".mp4") == ".mp4";
  }

  lemma ProxyDirWithoutU(root: string)
    requires 'u' !in root
    ensures 'u' !in ProxyDir(PathJoin(root, "vhs-analysis"))
  {
    var tail := "/vhs-analysis/proxies";
    assert forall i :: 0 <= i < |tail| ==> tail[i] != 'u';
    assert ProxyDir(PathJoin(root, "vhs-analysis")) == root + tail;
  }

  lemma PathWithoutU(dir: string, name: string)
    requires 'u' !in dir && 'u' !in name
    ensures !Contains(PathJoin(dir, name), "vhs_analysis_output")
  {
    AbsentCharNotContained(PathJoin(dir, name), "vhs_analysis_output", 'u');
  }

  lemma CollectVideosMember(cfg: Config, src: Source, p: string)
    requires !src.isFile && p in src.walk && Collectable(cfg, p)
    ensures p in CollectVideos(cfg, src)
  {
    FilterMember(src.walk, q => Collectable(cfg, q), p);
  }

  lemma ProxyUnderWorkDir(w: string, stem: string, offset: int)
    ensures StartsWith(ProxyPath(ProxyDir(w), stem, offset), w + "/")
  {
    var p := ProxyPath(ProxyDir(w), stem, offset);
    assert p == (w + "/") + ("proxies" + "/" + ProxyName(stem, offset));
    assert p[..|w| + 1] == w + "/";
  }

  /** Every unit `prepare_video` writes lies under the work directory, so the
      fixed filter never takes it for an input video. */
  lemma FixedSkipsPreparedUnits(cfg: Config, src: Source, st: Store, stem: string, d: int, u: Unit)
    requires Valid(cfg) && !src.isFile
    requires u in PrepareVideo(cfg, st, WorkDir(src), stem, d).units
    ensures u.path !in CollectVideosFixed(cfg, src)
  {
    var w := WorkDir(src);
    var units := PrepareVideo(cfg, st, w, stem, d).units;
    var i :| 0 <= i < |units| && units[i] == u;
    if d <= cfg.chunkDuration {
      ProxyUnderWorkDir(w, stem, 0);
    } else {
      var c := ChunkBounds(cfg, d)[i];
      ProxyUnderWorkDir(w, ChunkStem(stem, c.index), c.start);
    }
    var vs := CollectVideosFixed(cfg, src);
    assert forall k :: 0 <= k < |vs| ==> vs[k] != u.path;
  }

  // ---------------------------------------------------------------------------
  // --retry-failed

  /** `f"preanalysis_{name}"`. */
  function PreLabel(name: string): string { "preanalysis_" + name }

  /** `f"{name}_chunk_{start_s}"` for a whole-second start. */
  function ChunkLabel(name: string, start: int): string { name + "_chunk_" + IntToString(start) }

  /** `f"{name}_blind_{start_s}"`. */
  function BlindLabel(name: string, start: int): string { name + "_blind_" + IntToString(start) }

  /** The `--retry-failed` selection as written: the videos whose bare file
      name is listed among the failure records, in collection order. */
  function SelectFailed(videos: seq<string>, l: Ledger): (vs: seq<string>)
    ensures IsSubseq(vs, videos)
    ensures forall v :: v in vs <==> v in videos && Name(v) in FailedFiles(l)
  {
    var vs := Filter(videos, v => Name(v) in FailedFiles(l));
    assert forall v :: v in vs <==> v in videos && Name(v) in FailedFiles(l) by {
      forall v ensures v in vs <==> v in videos && Name(v) in FailedFiles(l) {
        FilterMember(videos, v => Name(v) in FailedFiles(l), v);
      }
    }
    vs
  }

  /** Every failure record is written by `with_retry` under one of these
      labels, never under a bare video name. */
  lemma LabelsAreNotNames(name: string, start: int)
    ensures PreLabel(name) != name && ChunkLabel(name, start) != name && BlindLabel(name, start) != name
  {
  }

  /** The selection as written finds nothing to retry after a chunk failure:
      the run stops with status 0 and the failed chunk is never retried. */
  lemma SelectFailedMissesChunkFailure()
    ensures var l := MarkFailed(Fresh, ChunkLabel("a.mp4", 0), "timeout", 3);
      SelectFailed(["/v/a.mp4"], l) == []
  {
    var l := MarkFailed(Fresh, ChunkLabel("a.mp4", 0), "timeout", 3);
    assert FailedFiles(l) == [ChunkLabel("a.mp4", 0)];
    assert Name("/v/a.mp4") == "a.mp4" by {
      NameOfJoin("/v", "a.mp4");
    }
    LabelsAreNotNames("a.mp4", 0);
  }

  /** `tag` is one of the labels `with_retry` is given for video `name`. */
  predicate OwnsLabel(name: string, tag: string) {
    || tag == PreLabel(name)
    || (StartsWith(tag, name + "_chunk_") && ParseInt(tag[|name| + 7..]).Some?)
    || (StartsWith(tag, name + "_blind_") && ParseInt(tag[|name| + 7..]).Some?)
  }

  /** Every label the phases use for a video is recognised as its own. */
  lemma OwnsItsLabels(name: string, start: int)
    ensures OwnsLabel(name, PreLabel(name))
    ensures OwnsLabel(name, ChunkLabel(name, start))
    ensures OwnsLabel(name, BlindLabel(name, start))
  {
    IntToStringRoundTrip(start);
    assert ChunkLabel(name, start)[|name| + 7..] == IntToString(start);
    assert BlindLabel(name, start)[|name| + 7..] == IntToString(start);
  }

  /** Whether some failure record belongs to the video. */
  predicate HasFailure(l: Ledger, v: string) {
    exists i :: 0 <= i < |l.failed| && OwnsLabel(Name(v), l.failed[i].file)
  }

  /** The selection meant: the videos owning at least one failure record. */
  function SelectFailedFixed(videos: seq<string>, l: Ledger): (vs: seq<string>)
    ensures IsSubseq(vs, videos)
    ensures forall v :: v in vs <==> v in videos && HasFailure(l, v)
  {
    var vs := Filter(videos, v => HasFailure(l, v));
    assert forall v :: v in vs <==> v in videos && HasFailure(l, v) by {
      forall v ensures v in vs <==> v in videos && HasFailure(l, v) {
        FilterMember(videos, v => HasFailure(l, v), v);
      }
    }
    vs
  }

  /** The ledger after the records of the selected videos are dropped (as
      written: records whose file is a selected name). */
  function ClearFailures(l: Ledger, selected: seq<string>): (r: Ledger)
    ensures r.processed == l.processed && r.pending == l.pending
    ensures forall f: FailRecord :: f in r.failed <==> f in l.failed && f.file !in KeysOf(selected, Name)
    ensures IsSubseq(r.failed, l.failed)
    ensures forall f: FailRecord ::
      (multiset(r.failed)[f] == if f.file in KeysOf(selected, Name) then 0 else multiset(l.failed)[f])
  {
    var names := KeysOf(selected, Name);
    var kept := Filter(l.failed, (f: FailRecord) => f.file !in names);
    assert forall f: FailRecord :: f in kept <==> f in l.failed && f.file !in names by {
      forall f: FailRecord ensures f in kept <==> f in l.failed && f.file !in names {
        FilterMember(l.failed, (f: FailRecord) => f.file !in names, f);
      }
    }
    forall f: FailRecord ensures multiset(kept)[f] == if f.file in names then 0 else multiset(l.failed)[f] {
      FilterCount(l.failed, (f: FailRecord) => f.file !in names, f);
    }
    l.(failed := kept)
  }

  /** The clearing meant: drop every record owned by a selected video. */
  function ClearFailuresFixed(l: Ledger, selected: seq<string>): (r: Ledger)
    ensures r.processed == l.processed && r.pending == l.pending
    ensures forall f: FailRecord :: f in r.failed <==>
      f in l.failed && forall i :: 0 <= i < |selected| ==> !OwnsLabel(Name(selected[i]), f.file)
    ensures IsSubseq(r.failed, l.failed)
    ensures forall f: FailRecord ::
      (multiset(r.failed)[f] == if Owned(selected, f) then 0 else multiset(l.failed)[f])
  {
    var kept := Filter(l.failed, (f: FailRecord) => !Owned(selected, f));
    assert forall f: FailRecord :: f in kept <==>
        f in l.failed && forall i :: 0 <= i < |selected| ==> !OwnsLabel(Name(selected[i]), f.file) by {
      forall f: FailRecord ensures f in kept <==>
          f in l.failed && forall i :: 0 <= i < |selected| ==> !OwnsLabel(Name(selected[i]), f.file) {
        FilterMember(l.failed, (f: FailRecord) => !Owned(selected, f), f);
      }
    }
    forall f: FailRecord ensures multiset(kept)[f] == if Owned(selected, f) then 0 else multiset(l.failed)[f] {
      FilterCount(l.failed, (f: FailRecord) => !Owned(selected, f), f);
    }
    l.(failed := kept)
  }

  /** Some selected video owns the record's label. */
  predicate Owned(selected: seq<string>, f: FailRecord) {
    exists i :: 0 <= i < |selected| && OwnsLabel(Name(selected[i]), f.file)
  }

  /** After the fixed clearing no selected video has a failure left, so a
      second `--retry-failed` selection over them is empty. */
  lemma ClearedLeavesNoFailure(l: Ledger, selected: seq<string>)
    ensures forall v :: v in selected ==> !HasFailure(ClearFailuresFixed(l, selected), v)
    ensures SelectFailedFixed(selected, ClearFailuresFixed(l, selected)) == []
  {
    var r := ClearFailuresFixed(l, selected);
    forall v | v in selected ensures !HasFailure(r, v) {
      var k :| 0 <= k < |selected| && selected[k] == v;
      forall i | 0 <= i < |r.failed| ensures !OwnsLabel(Name(v), r.failed[i].file) {
        assert r.failed[i] in r.failed;
      }
    }
    var vs := SelectFailedFixed(selected, r);
    if |vs| > 0 {
      assert vs[0] in vs;
    }
  }

  /** Once the retried videos' records are cleared, the same selection over
      the same videos finds nothing more to retry. */
  lemma RetrySelectionCleared(videos: seq<string>, l: Ledger)
    ensures SelectFailedFixed(videos, ClearFailuresFixed(l, SelectFailedFixed(videos, l))) == []
  {
    var selected := SelectFailedFixed(videos, l);
    var r := ClearFailuresFixed(l, selected);
    ClearedLeavesNoFailure(l, selected);
    forall v | v in videos ensures !HasFailure(r, v) {
      if !(v in selected) {
        forall i | 0 <= i < |r.failed| ensures !OwnsLabel(Name(v), r.failed[i].file) {
          assert r.failed[i] in l.failed;
        }
      }
    }
  }

  /** Clearing the same selection twice is clearing it once. */
  lemma ClearFailuresFixedAgain(l: Ledger, selected: seq<string>)
    ensures ClearFailuresFixed(ClearFailuresFixed(l, selected), selected) == ClearFailuresFixed(l, selected)
  {
    FilterTwice(l.failed, (f: FailRecord) => !Owned(selected, f));
  }

  /** The clearing as written, repeated, is the clearing once. */
  lemma ClearFailuresAgain(l: Ledger, selected: seq<string>)
    ensures ClearFailures(ClearFailures(l, selected), selected) == ClearFailures(l, selected)
  {
    var names := KeysOf(selected, Name);
    FilterTwice(l.failed, (f: FailRecord) => f.file !in names);
  }

  /** With the fixed selection a failed chunk makes its video selected, and
      the video's failure record is cleared before the retry. */
  lemma SelectFailedFixedFindsChunkFailure()
    ensures var l := MarkFailed(Fresh, ChunkLabel("a.mp4", 0), "timeout", 3);
      && SelectFailedFixed(["/v/a.mp4"], l) == ["/v/a.mp4"]
      && ClearFailuresFixed(l, ["/v/a.mp4"]).failed == []
  {
    var l := MarkFailed(Fresh, ChunkLabel("a.mp4", 0), "timeout", 3);
    assert l.failed == [FailRecord(ChunkLabel("a.mp4", 0), "timeout", 3)];
    assert Name("/v/a.mp4") == "a.mp4" by {
      NameOfJoin("/v", "a.mp4");
    }
    OwnsItsLabels("a.mp4", 0);
    assert HasFailure(l, "/v/a.mp4");
    var vs := SelectFailedFixed(["/v/a.mp4"], l);
    assert "/v/a.mp4" in vs;
    SubseqLength(vs, ["/v/a.mp4"]);
    var r := ClearFailuresFixed(l, ["/v/a.mp4"]);
    assert l.failed[1..] == [];
  }
}

=== FILE: wrappers.dfy ===
/** Failure-compatible wrappers shared by the whole model: an optional value
    (Python's `None` or a present value) and a value-or-error result (a Python
    call that either returns or raises). */
module Wrappers {

  datatype Option<+T> = None | Some(value: T) {

    /** The carried value, or `default` when there is none. */
    function GetOr(default: T): T {
      match this
      case Some(v) => v
      case None => default
    }
  }

  datatype Result<+T> = Ok(value: T) | Err(error: string) {

    predicate IsFailure() {
      Err?
    }

    function PropagateFailure<U>(): Result<U>
      requires Err?
    {
      Err(error)
    }

    function Extract(): T
      requires Ok?
    {
      value
    }
  }
}
